=== FILE: README.md ===
# The black cat — game core in Dafny

This project models the rules and the state machine of the server for
"the black cat", a four-player trick-taking card game of the Hearts family.
It is played with a 32-card piquet deck: Seven to Ace in clubs, diamonds,
spades and hearts. Each heart is a penalty, and so is the queen of spades,
the black cat. Before the first trick, each player passes three cards to the
player on the left (the hand-over). A player may also "grill" the black cat
or three hearts, which doubles or multiplies their penalty.

The model follows the program's own layers:

- **Cards** (`Cards`, `ArrayPolyfill`). The card orderings and the two sorts
  the program uses, penalty points, the deck, the trick winner, and the bot's
  choice of card. Also the array helpers the program adds to `Array.prototype`.
- **Rules** (`Validators`). The checks on a hand-over, a grill and a played
  card; the gates for each phase; and the bot's answer to each server message.
- **The store** (`PlayersReducer`, `RoomsReducer`, `GamesReducer`, `Store`).
  The three reducers and their combination. Each `STATE_…` message becomes a
  pure function from state to state, and every reducer reads the state as it
  was before the message.
- **Queries** (`Entities`, `Queries`). The look-ups the handlers make on the
  state: find a player, a room or a game; a player's room and game; the
  player on the left; the starting player; the trick winner; the scores; the
  conditions to register, create a room and join one.
- **Handlers** (`GameHandlers`, `RoundHandlers`, `RoomHandlers`,
  `ConnectionHandlers`). Each message handler is a function from a state to a
  `Steps.Step`, which records:
  - the state after the handler's dispatches;
  - the logic message it fires next (`LOGIC_…`), if any;
  - the replies it sends to the acting player;
  - whether it throws.

  A handler that throws keeps the dispatches made before the throw.
- **The socket gate** (`SafeMessage`). The check every client message must
  pass before it reaches the message bus.

Randomness enters as parameters, because the program draws it from
`Math.random`:

- a deck already shuffled;
- a pick index for the random starting player;
- a list of bot nicknames with a pick index.

`ArrayPolyfill.Shuffle` models the Fisher–Yates shuffle. The random draws it
makes are given to it as a sequence of indices.

## Model

| member | source | states |
|---|---|---|
| ArrayPolyfill.FoldConcatIsConcat | src/polyfill/array.ts:21-23 | folding `concat` over a list of lists from `[]` is plain concatenation in order |
| ArrayPolyfill.FlattenInOrder | src/polyfill/array.ts:23 | `flatten` of a list with one more list appended is the old flatten followed by that list |
| ArrayPolyfill.ConcatAppend | src/polyfill/array.ts:21-23 | concatenation distributes over appending lists |
| ArrayPolyfill.Map | src/polyfill/array.ts:21 | `map` keeps the length and puts `f(xs[i])` at each index |
| ArrayPolyfill.FlatMapAppend | src/polyfill/array.ts:21 | `flatMap` over `a + b` is the flatMap of `a` followed by that of `b` |
| ArrayPolyfill.FlatMapHas | src/polyfill/array.ts:21 | an element is in a flatMap exactly when it comes from `f` of some input element |
| ArrayPolyfill.First | src/polyfill/array.ts:25 | `first` is absent exactly for the empty array, and is element 0 otherwise |
| ArrayPolyfill.Last | src/polyfill/array.ts:27 | `last` is absent exactly for the empty array, and is the final element otherwise |
| ArrayPolyfill.LastIsFirstOfReverse | src/polyfill/array.ts:25-27 | the last element of a list is the first element of its reverse |
| ArrayPolyfill.FoldSumIsTotal | src/polyfill/array.ts:29 | `sum`, a left fold of `+` from 0, equals the mathematical total |
| ArrayPolyfill.TotalAppend | src/polyfill/array.ts:29 | the total of `a + b` is the total of `a` plus the total of `b` |
| ArrayPolyfill.SumAppend | src/polyfill/array.ts:29 | `sum` is additive over concatenation |
| ArrayPolyfill.Shuffle | src/polyfill/array.ts:31-38 | the in-place Fisher–Yates swap loop, driven by draws `js[k] <= k`, returns a permutation of its input: same length and same multiset |
| Cards.RankIndex | src/logic/functions/cards.ts:26-37 | the position of a rank in Seven … Ace is below 8 |
| Cards.SuitIndex | src/logic/functions/cards.ts:39-46 | the position of a suit in clubs, diamonds, spades, hearts is below 4 |
| Cards.IndexTables | src/logic/functions/cards.ts:26-46 | the rank table lists the ranks in index order, and the suits have indices 0 to 3 in that order |
| Cards.IndicesInjective | src/logic/functions/cards.ts:26-46 | equal rank indices mean equal ranks, and equal suit indices mean equal suits |
| Cards.CompareByRank | src/logic/functions/cards.ts:48-54 | the comparator returns -1, 0 or 1; it is 0 exactly for the same rank and negative exactly when the first rank is lower |
| Cards.CompareBySuit | src/logic/functions/cards.ts:56-62 | the comparator returns -1, 0 or 1; it is 0 exactly for the same suit and negative exactly when the first suit comes earlier |
| Cards.ComparatorsOrder | src/logic/functions/cards.ts:48-62 | both comparators are antisymmetric and transitive, so they are valid sort comparators |
| Cards.ValueKeyInjective | src/logic/functions/cards.ts:64-68 | the (rank, suit) value order is total on cards: two cards with the same value are the same card |
| Cards.InsertBy | src/logic/functions/cards.ts:64-68 | inserting one card adds exactly that card to the multiset |
| Cards.InsertBySorted | src/logic/functions/cards.ts:64-68 | inserting into a list sorted by a key keeps it sorted by that key |
| Cards.SortBy | src/logic/functions/cards.ts:64-68 | the stable sort by a key returns a sorted permutation of its input |
| Cards.RankSortOfSuitSorted | src/logic/functions/cards.ts:64-68 | sorting by suit and then stably by rank orders cards by rank first and suit second |
| Cards.SortByLowestValue | src/logic/functions/cards.ts:64-68 | `sortCardsByLowestValue` returns a permutation of the cards, ascending in (rank, suit) |
| Cards.SortedPermutationUnique | src/logic/functions/cards.ts:64-68 | two permutations of the same cards that are both sorted by value are equal |
| Cards.LowestValueIsTheSortedPermutation | src/logic/functions/cards.ts:64-68 | any sorted permutation of the cards is exactly what `sortCardsByLowestValue` returns |
| Cards.SortByGreatestValue | src/logic/functions/cards.ts:70-72 | `sortCardsByGreatestValue` returns a permutation, descending in value, that is the reverse of the lowest-value sort |
| Cards.CardPoints | src/logic/functions/cards.ts:74-100 | a heart scores 1 for Seven to Ten and 2 to 5 for Jack to Ace, times the hearts coefficient; the black cat scores 11, or 22 when grilled; any other card scores 0 |
| Cards.PenaltyPointsAdditive | src/logic/functions/cards.ts:102-122 | the penalty of an empty pile is 0, and the penalty of two piles together is the sum of their penalties |
| Cards.SuitCards | src/logic/functions/cards.ts:124-143 | the cards of one suit are its eight ranks in order |
| Cards.DeckLayout | src/logic/functions/cards.ts:124-143 | the flattened deck has 32 cards, and card `i` has suit `i / 8` and rank `i % 8` |
| Cards.LayoutDistinct | src/logic/functions/cards.ts:124-143 | in that layout no card appears twice, and every card sits at its computed position |
| Cards.CreateDeck | src/logic/functions/cards.ts:124-143 | `createDeck` returns 32 distinct cards, and every card is at its computed position |
| Cards.DeckComplete | src/logic/functions/cards.ts:124-143 | every card is in the deck |
| Cards.PenaltyOfSuit | src/logic/functions/cards.ts:74-122 | the hearts score 18 times the coefficient, the spades score 11 or 22 according to the black-cat grill, and clubs and diamonds score 0 |
| Cards.PenaltyOfPermutation | src/logic/functions/cards.ts:102-122 | a pile's penalty does not depend on the order of its cards |
| Cards.PenaltyOfFullDeck | src/logic/functions/cards.ts:102-143 | the whole deck scores `18 × coefficient` plus 11, or plus 22 when the black cat is grilled |
| Cards.FullPileTotals | __tests__/pureFunctions/cards.test.ts:100-129 | the deck's totals for each grill (no grill, three or six hearts, with or without the cat) are the totals the tests expect |
| Cards.HeartsCoefficientRange | src/logic/functions/cards.ts:102-122 | the coefficient is 1, 2 or 3; it is 2 exactly with three grilled hearts and 3 exactly with six |
| Cards.HighestCardOnTable | src/logic/functions/cards.ts:145-152 | the highest card is on the table, follows the led suit, and no card of the led suit outranks it |
| Cards.HighestCardCharacterised | src/logic/functions/cards.ts:145-152 | any card of the led suit that nothing of that suit outranks is the card returned |
| Cards.HighestCardExample | __tests__/pureFunctions/cards.test.ts:81-89 | on Ten, Jack, Nine, Ace of clubs the ace wins |
| Cards.LowestSortHead | src/logic/functions/cards.ts:64-68 | the head of the lowest-value sort is the least card |
| Cards.GreatestSortHead | src/logic/functions/cards.ts:70-72 | the head of the greatest-value sort is the greatest card |
| Cards.SecondLowest | src/logic/functions/cards.ts:156-166 | in a sorted hand, the second card is the least once the first is taken out |
| Cards.LeadCard | src/logic/functions/cards.ts:156-166 | leading, the bot plays its least card; when that is the black cat, it plays the least of the others; with the black cat alone the choice is `undefined`, and with no cards at all `cardNotEqual` dereferences `undefined` and throws |
| Cards.DiscardCard | src/logic/functions/cards.ts:168-178 | void in the led suit, the bot discards the black cat unless spades were led; otherwise it plays its greatest card |
| Cards.FollowCard | src/logic/functions/cards.ts:180-191 | following suit, the bot plays the highest card that stays under the table's best card when it has one; otherwise it plays its lowest card of the suit |
| Cards.FollowChoice | src/logic/functions/cards.ts:180-191 | the descending sort, then a search for the first card ranked below the table's best, then a fall-back to the last card, picks the card `FollowCard` describes |
| Cards.CardsOfSuit | src/logic/functions/cards.ts:168-191 | the filter keeps exactly the cards of the suit; it is empty exactly when the player is void in it |
| Cards.GreatestOnTable | src/logic/functions/cards.ts:180-191 | the descending sort of the led suit on the table starts with a card as high as the trick's highest card |
| Cards.BestCardToPlay | src/logic/functions/cards.ts:154-192 | the bot's card comes from hand or grill and follows the led suit unless the bot is void; the choice throws exactly when leading with no cards, and is `undefined` exactly when void with no cards or leading with the black cat alone |
| Cards.BestCardWhenLeading | src/logic/functions/cards.ts:156-166 | leading, `bestCardToPlay` is the least card, or the least card other than the black cat when the cat is least |
| Cards.BestCardWhenVoid | src/logic/functions/cards.ts:168-178 | void, `bestCardToPlay` is the black cat when it can be discarded, and the greatest card otherwise |
| Cards.BestCardWhenFollowing | src/logic/functions/cards.ts:180-191 | following, `bestCardToPlay` follows suit; it is the highest card that undercuts the table when there is one, and the lowest card of the suit otherwise |
| Cards.FollowChoiceDetermined | src/logic/functions/cards.ts:180-191 | a card that undercuts the table and is the highest such card is exactly the card chosen |
| Cards.VoidChoiceDetermined | src/logic/functions/cards.ts:168-178 | void without a black cat to discard, the greatest card is exactly the card chosen |
| Cards.LeadPastBlackCatDetermined | src/logic/functions/cards.ts:156-166 | when the black cat is the least card, the least of the rest is exactly the lead |
| Cards.BestCardFollowExample | __tests__/pureFunctions/cards.test.ts:152-194 | the test's following example plays the Eight of spades |
| Cards.BestCardVoidExample | __tests__/pureFunctions/cards.test.ts:152-194 | the test's void example discards the Ace of diamonds |
| Cards.BestCardBlackCatExample | __tests__/pureFunctions/cards.test.ts:152-194 | the test's example with the black cat in hand discards the black cat |
| Cards.BestCardLeadExample | __tests__/pureFunctions/cards.test.ts:152-194 | leading with the test hands plays the Seven of clubs |
| Cards.BestCardLeadPastBlackCatExample | __tests__/pureFunctions/cards.test.ts:152-194 | leading when the black cat is the least card plays the King of hearts |
| Entities.NameOr | src/logic/functions/stateDependentFunctions.ts:19-32 | JavaScript's `name || other`: a non-empty name is kept, and an absent or empty one gives way to the other |
| Entities.NewPlayer | src/core/onSocketConnect.ts:80-95 | a connected socket's player has no name, no cards and no flags set, wants a new game, and is not a bot |
| Entities.FindPlayer | src/logic/functions/stateDependentFunctions.ts:19-22 | the player found carries the name, and there is none exactly when no player carries it |
| Entities.FindPlayerById | src/core/onSocketConnect.ts:59-66 | the record found carries the id, and there is none exactly when no record carries it |
| Entities.FindRoom | src/logic/functions/stateDependentFunctions.ts:24-27 | the room found has the name, and there is none exactly when no room has it |
| Entities.FindGame | src/logic/functions/stateDependentFunctions.ts:29-32 | the game found belongs to the room, and there is none exactly when no game does |
| Entities.RoomOfName | src/core/onSocketConnect.ts:59-66 | a player's room is a room seating the player's non-empty name; there is none exactly when the name is empty or seated nowhere |
| Entities.PlayerRoom | src/core/onSocketConnect.ts:59-66 | `player.room()` re-reads the record by id and is some room exactly when that record's name is seated |
| Entities.FindOwnId | src/core/onSocketConnect.ts:59-66 | with unique ids, a record finds itself by id, and its room is the room of its name |
| Entities.PlayerGame | src/core/onSocketConnect.ts:68-78 | `player.game()` is the game of the player's room, and there is none when the player is in no room |
| Validators.NormalizePlayerIndex | src/logic/functions/index.ts:22-24 | indices 0 to 7 are brought into 0 to 3, and any index of 4 or more goes back by one lap of 4 |
| Validators.NormalizeIsOneLap | src/logic/functions/index.ts:22-24 | on 0 to 7, normalising is `mod 4`, and a seat's successor wraps from 3 to 0; on 8 the code returns 4 |
| Validators.Matching | src/logic/functions/index.ts:26-33 | the cards of the hand that are also in the given cards |
| Validators.HandOverIsValid | src/logic/functions/index.ts:26-33 | a valid hand-over has 3 cards, the hand has 8, and one of the three is in the hand |
| Validators.MatchingCount | src/logic/functions/index.ts:26-33 | in a hand without duplicates, every given card matches exactly when all of them are in the hand; then the matches are those cards |
| Validators.HandOverValidMeans | src/logic/functions/index.ts:26-33 | a hand-over is valid exactly when it is 3 distinct cards, all taken from a hand of 8 |
| Validators.GrillIsValid | src/logic/functions/index.ts:35-56 | a grill needs round 0 of a game, a player who has taken the hand-over and is awaited, and 1 or 3 cards |
| Validators.AllOfSuit | src/logic/functions/index.ts:35-56 | the filter keeps every card exactly when all of them are of the suit |
| Validators.BlackCatGrillMeans | src/logic/functions/index.ts:35-56 | a one-card grill is valid exactly when it is the black cat and the hand holds it |
| Validators.HeartsGrillMeans | src/logic/functions/index.ts:35-56 | a three-card grill is valid exactly when it is three distinct hearts from the hand |
| Validators.GrillValidMeans | src/logic/functions/index.ts:35-56 | the full grill condition, in both directions: the phase, and either the black cat or three distinct hearts from the hand |
| Validators.PlayedCardIsValid | src/logic/functions/index.ts:58-83 | a card is valid exactly when the player on turn holds it in hand or grill and either the table is empty, the card follows the led suit, or the player holds no card of that suit |
| Validators.BestCardIsPlayable | src/logic/functions/index.ts:58-83 | the card the bot picks for its turn always passes the played-card check |
| Validators.PhaseGatesDisjoint | src/logic/functions/index.ts:85-109 | a player who may still acknowledge the deal cannot take a hand-over, and a player who can take one cannot yet be ready; taking it fills the hand to 8 |
| Validators.TakeGreatest | src/logic/functions/index.ts:150-163 | a prefix of a descending list is a descending sub-multiset of that length |
| Validators.BotHandOver | src/logic/functions/index.ts:150-163 | the bot passes its three greatest cards, in descending order, all from its hand |
| Validators.BotResponse | src/logic/functions/index.ts:111-178 | the bot answers only when it exists, with one or two messages; a turn is answered only when it is the bot's turn in a game and `bestCardToPlay` does not throw, since a throw rejects the answer's promise |
| Validators.BotAnswersHandOverRequest | src/logic/functions/index.ts:150-163 | asked for a hand-over, the bot plays `PLAY_HAND_OVER` with its three greatest cards |
| Validators.BotAnswersRoutineRequests | src/logic/functions/index.ts:118-124 | at game end the bot wants a new game; on a deal it acknowledges the deck; offered a hand-over, it takes it and says it is ready |
| Validators.BotHandOverIsValid | src/logic/functions/index.ts:26-33 | a bot with 8 distinct cards always passes a valid hand-over |
| Validators.BotAnswersTurn | src/logic/functions/index.ts:125-142 | on its turn the bot sends nothing exactly when it leads with no cards, and otherwise plays `bestCardToPlay` of its hand, grill and table |
| PlayersReducer.Without | src/core/reducer/players.ts:40-53 | removing cards keeps every other card with its multiplicity and drops the removed ones |
| PlayersReducer.UpdatePlayer | src/core/reducer/players.ts:67-196 | a message changes only the records it targets; it never changes an id or the bot flag, and only a rename changes a name |
| PlayersReducer.MapPlayers | src/core/reducer/players.ts:67-196 | the mapped list has the same length, with each record updated in place |
| PlayersReducer.RemoveById | src/core/reducer/players.ts:54-66 | the records left are exactly those of other ids |
| PlayersReducer.ReducePlayers | src/core/reducer/players.ts:28-198 | per message: updates in place, a new player or a bot appended, removal by id, anything else unchanged |
| PlayersReducer.MapCasesFrame | src/core/reducer/players.ts:67-196 | an update message leaves every record it does not target as it was |
| PlayersReducer.CardsToHandAdds | src/core/reducer/players.ts:28-39 | dealt cards join the hand, and no card is lost |
| PlayersReducer.RemovePlayerCardsEmpties | src/core/reducer/players.ts:40-53 | after removing a player's cards the player holds none |
| PlayersReducer.PassHandOverMoves | src/core/reducer/players.ts:115-134 | the three cards leave the passer's hand for the left neighbour's hand-over, the passer is marked as passed, and a hand of 8 keeps 5 |
| PlayersReducer.RemovedCount | src/core/reducer/players.ts:115-134 | removing distinct cards that are all held shortens the list by their number, and together they make up the old list |
| PlayersReducer.TakeHandOverConserves | src/core/reducer/players.ts:135-147 | taking the hand-over adds it to the hand, and the player's cards are unchanged as a multiset |
| PlayersReducer.PassGrillMoves | src/core/reducer/players.ts:160-174 | grilled cards move from the hand to the grills, and hand plus grills keep their cards |
| PlayersReducer.PlayCardRemoves | src/core/reducer/players.ts:175-187 | playing a card removes it from hand and grill and keeps every other card; a held card leaves exactly once |
| PlayersReducer.RemoveOneCard | src/core/reducer/players.ts:175-187 | the played card leaves both hand and grill, and every other card keeps its count |
| PlayersReducer.PassTrickAppends | src/core/reducer/players.ts:148-159 | the trick's receiver gains exactly the trick's cards on the pile |
| RoomsReducer.Rename | src/core/reducer/rooms.ts:122-141 | renaming replaces every seat held by the old name and keeps the others |
| RoomsReducer.RenameScores | src/core/reducer/rooms.ts:122-141 | renaming moves the old name's score rows to the new name |
| RoomsReducer.ScoreOf | src/core/reducer/rooms.ts:100-121 | a player's game score is the first entry carrying the name, and there is none exactly when no entry does |
| RoomsReducer.AppendScores | src/core/reducer/rooms.ts:100-121 | each score row gains one entry: the game's score for that player, or nothing |
| RoomsReducer.UpdateRoom | src/core/reducer/rooms.ts:26-152 | a message changes only the rooms it targets, and never a room's name |
| RoomsReducer.ChangeRoom | src/core/reducer/rooms.ts:122-141 | a rename affects the renamed player's room, found from the state before the message |
| RoomsReducer.RemoveByName | src/core/reducer/rooms.ts:19-25 | the rooms left are exactly those of other names |
| RoomsReducer.MapRooms | src/core/reducer/rooms.ts:26-152 | the mapped list has the same length, with each room updated in place |
| RoomsReducer.ReduceRooms | src/core/reducer/rooms.ts:19-154 | per message: rooms updated in place, one appended, removal by name, anything else unchanged |
| RoomsReducer.AddPlayerSeatsLast | src/core/reducer/rooms.ts:26-47 | the name takes the last seat and gets an empty score row in the named room, and every other room is unchanged |
| RoomsReducer.AddBotSeatsLast | src/core/reducer/rooms.ts:48-69 | adding a bot seats its name exactly as adding a player of that name would |
| RoomsReducer.ReplaceKeepsSeats | src/core/reducer/rooms.ts:70-99 | the bot takes the leaver's seat, score row and starting turn, and rooms without the leaver are untouched |
| RoomsReducer.AddScoresAppendsOne | src/core/reducer/rooms.ts:100-121 | each row gains exactly one entry and keeps its earlier ones; the entry is present exactly when that player scored |
| RoomsReducer.SetStarterOnlyStarter | src/core/reducer/rooms.ts:142-152 | only the named room's starting player changes |
| RoomsReducer.ChangeNameOnlyOwnRoom | src/core/reducer/rooms.ts:122-141 | a rename leaves alone every room other than the renamed player's room |
| RoomsReducer.RemoveRoomRemoves | src/core/reducer/rooms.ts:19-25 | removing a room keeps exactly the rooms of other names |
| RoomsReducer.ReduceKeepsAligned | src/core/reducer/rooms.ts:19-154 | every message keeps each room's score rows in line with its seats |
| RoomsReducer.UpdateKeepsAligned | src/core/reducer/rooms.ts:26-152 | each in-place update keeps a room's score rows in line with its seats |
| GamesReducer.RoomNameOf | src/core/reducer/games.ts:20-43 | the acting player's room name is the room the player is seated in |
| GamesReducer.UpdateGame | src/core/reducer/games.ts:20-108 | a message changes only the games it targets; it never changes a game's room, and never lowers its round |
| GamesReducer.ActorRoom | src/core/reducer/games.ts:20-43 | a trick and a played card act on the room of the receiver or of the card's player; other messages name their room |
| GamesReducer.RemoveByRoom | src/core/reducer/games.ts:56-59 | the games left are exactly those of other rooms |
| GamesReducer.MapGames | src/core/reducer/games.ts:20-108 | the mapped list has the same length, with each game updated in place |
| GamesReducer.NewGame | src/core/reducer/games.ts:44-55 | a new game has an empty table, round 0, no grill snapshot, and the given player on turn |
| GamesReducer.ReduceGames | src/core/reducer/games.ts:20-110 | per message: games updated in place, one created, removal by room, anything else unchanged |
| GamesReducer.PlayCardLaysLast | src/core/reducer/games.ts:32-43 | a played card goes last on the table of the player's game, and other games are unchanged |
| GamesReducer.PassTrickClears | src/core/reducer/games.ts:20-31 | a passed trick empties the table of the receiver's game, and other games are unchanged |
| GamesReducer.NextRoundAdvances | src/core/reducer/games.ts:60-72 | the next round adds one to the round; the turn goes to the given player, or to the room's starting player when none is given |
| GamesReducer.TurnAndSnapshotOneField | src/core/reducer/games.ts:73-96 | the next turn sets only the player on turn, and the snapshot sets only the grills, in the named game |
| GamesReducer.ReplaceHandsTurn | src/core/reducer/games.ts:97-108 | a bot replacing the player on turn takes the turn, and other games are unchanged |
| GamesReducer.CreateAndRemoveGame | src/core/reducer/games.ts:44-59 | a created game is appended for its room, and removal keeps exactly the games of other rooms |
| GamesReducer.ReduceKeepsRoundsNatural | src/core/reducer/games.ts:20-110 | no message makes a round negative |
| Store.Apply | src/reducer/index.ts:13-17 | the combined reducer gives each slice its own reducer's result, all computed from the state before the message |
| Store.UnhandledChangesNothing | src/reducer/index.ts:13-17 | a message no reducer handles leaves the state unchanged |
| Store.ApplyAllAppend | src/reducer/index.ts:13-17 | dispatching `a` and then `b` is dispatching `a + b` |
| Store.FlagMessage | src/core/reducer/players.ts:67-114 | each flag message is a player update that touches no room and no game |
| Store.WithFlag | src/core/reducer/players.ts:67-114 | setting a flag sets that flag, keeps the other flags, and keeps the player's identity and cards |
| Store.Act | src/core/reducer/players.ts:40-114 | a per-player action keeps the player's id, name and bot flag |
| Store.ApplyNamedAll | src/core/reducer/players.ts:40-114 | dispatching messages that each name one player rewrites only that player's records, and leaves the rooms and games alone |
| Store.ActOnName | src/core/reducer/players.ts:40-114 | an action's dispatches for a name turn exactly the records carrying it into the acted-on record |
| Store.FlagOnName | src/core/reducer/players.ts:67-114 | a flag message sets the flag on exactly the records carrying the name |
| Store.ActionUpdates | src/core/reducer/players.ts:40-114 | on a record carrying the name, an action's messages compose to the action |
| Store.FlagUpdate | src/core/reducer/players.ts:67-114 | a flag message turns a record carrying the name into the record with that flag set |
| Store.ActIdempotent | src/core/reducer/players.ts:40-114 | doing an action twice is doing it once |
| Store.ForEachEffect | src/core/reducer/players.ts:40-114 | acting for a list of names changes exactly the records carrying one of them, and leaves rooms and games alone |
| Queries.PlayersOf | src/logic/functions/stateDependentFunctions.ts:34-44 | the seated names resolved to records: at most one record per name, each carrying a seated name |
| Queries.PlayersOfAllFound | src/logic/functions/stateDependentFunctions.ts:34-44 | when every seat resolves, the list is the found record of each seat, in seat order |
| Queries.PlayersInRoom | src/logic/functions/stateDependentFunctions.ts:34-44 | a missing room has no players; otherwise the players are its seats resolved in order |
| Queries.RoomsAvailability | src/logic/functions/stateDependentFunctions.ts:53-56 | one entry per room, in order, available exactly when the room has a free seat |
| Queries.SeatAt | src/logic/functions/stateDependentFunctions.ts:60-68 | a seat index reads a name exactly when it is in range |
| Queries.NextSeat | src/logic/functions/stateDependentFunctions.ts:60-68 | the next seat of a four-seat table is a different seat in range |
| Queries.PlayerOnLeftName | src/logic/functions/stateDependentFunctions.ts:60-68 | the left neighbour's name can be computed exactly when the player exists and sits in a room; otherwise the code throws |
| Queries.LeftNeighbourIsNextSeat | src/logic/functions/stateDependentFunctions.ts:60-68 | in a full room, the player on the left of seat `k` sits in the next seat |
| Queries.LeftNameFound | src/logic/functions/stateDependentFunctions.ts:60-68 | for a seated player, the left neighbour's name is the normalised seat after the player's own |
| Queries.PlayerOnLeft | src/logic/functions/stateDependentFunctions.ts:70-73 | the left neighbour is the player found under the left neighbour's name |
| Queries.RandomPlayer | src/logic/functions/stateDependentFunctions.ts:75-79 | a random starter is one of the room's players; an empty room throws |
| Queries.GameStartingPlayer | src/logic/functions/stateDependentFunctions.ts:81-88 | a new room starts with a random player; otherwise the starter is the left neighbour of the previous starter, and a missing room throws |
| Queries.StarterMovesOneSeat | src/logic/functions/stateDependentFunctions.ts:81-88 | in a full room, the next game's starter sits one seat after the previous starter |
| Queries.FourStartsVisitEverySeat | src/logic/functions/stateDependentFunctions.ts:81-88 | four games in a row are started from four different seats |
| Queries.SeatOf | src/logic/functions/stateDependentFunctions.ts:90-103 | `indexOf` on the seats is -1 or the index of a seat holding the name |
| Queries.WinnerSeat | src/logic/functions/stateDependentFunctions.ts:90-103 | the winner sits as many seats past the player after the one on turn as the winning card's position on the table, around the table |
| Queries.PlayerWithHighestCard | src/logic/functions/stateDependentFunctions.ts:90-103 | the trick goes to the player seated at the winning card's seat; it exists exactly when the room's game has cards on the table |
| Queries.TrickGoesToHighestCardSeat | src/logic/functions/stateDependentFunctions.ts:90-103 | with the player on turn at seat `k`, the trick goes to the player at the winning card's seat counted from `k` |
| Queries.GameScores | src/logic/functions/stateDependentFunctions.ts:105-114 | each player in the room scores the penalty of the player's pile under the game's grill snapshot; a missing game throws |
| Queries.ScoresAddUpToPiles | src/logic/functions/stateDependentFunctions.ts:105-114 | scores rating each player's pile add up to the penalty of all the piles together |
| Queries.ScoresTotalFullDeck | src/logic/functions/stateDependentFunctions.ts:105-114 | when the room's piles hold the whole deck, the game's scores add up to `18 × coefficient` plus 11, or plus 22 when the black cat is in the snapshot |
| Queries.FreeNames | src/logic/functions/stateDependentFunctions.ts:116-121 | the names left are exactly the candidates no player uses |
| Queries.RandomNick | src/logic/functions/stateDependentFunctions.ts:116-121 | a bot nickname is one nobody uses, and there is none exactly when every nickname is taken |
| Queries.PlayerInRoom | src/logic/functions/stateDependentFunctions.ts:46-49 | the player found is in the room and carries the name, and there is none exactly when nobody there does |
| Queries.Utf16Length | src/logic/functions/stateDependentFunctions.ts:131 | JavaScript's `length` of a name lies between its character count and twice that, and equals the character count exactly when no character is beyond U+FFFF |
| Queries.Utf16LengthAppend | src/logic/functions/stateDependentFunctions.ts:131 | the UTF-16 length of two strings together is the sum of their lengths |
| Queries.AstralNameTooLong | src/logic/functions/stateDependentFunctions.ts:129-159 | a name of 60 characters beyond U+FFFF is 120 code units long, so it can be neither registered nor used for a room |
| Queries.CanCreateRoomMeans | src/logic/functions/stateDependentFunctions.ts:129-138 | a room can be created exactly for a room name of at most 100 UTF-16 code units that no room has, by a player in no room, while fewer than 4 rooms exist |
| Queries.CanJoinRoomMeans | src/logic/functions/stateDependentFunctions.ts:140-150 | a room can be joined exactly when it exists with a free seat, no seated player has the joiner's name, and the joiner is in no game |
| Queries.PlayerCanRegister | src/logic/functions/stateDependentFunctions.ts:152-159 | a player may register exactly an unused name of at most 100 UTF-16 code units, and only while the player has no name |
| Queries.CreateRoom | src/logic/functions/stateDependentFunctions.ts:163-180 | a new room seats only its creator, with one empty score row and no starting player |
| Queries.MakeBot | src/logic/functions/stateDependentFunctions.ts:246-260 | a bot is named and identified by its nickname; it takes over a replaced player's cards and flags, or starts empty and wanting a new game |
| Steps.ApplyKeepsSeating | src/reducer/index.ts:13-17 | the messages that neither add nor remove a record, nor rename or reseat one, keep every seat and every record's id and name |
| Steps.ForEachKeepsRoster | src/core/reducer/players.ts:40-114 | per-player actions keep every record's id and name and every seat |
| GameHandlers.Hand | src/logic/messageHandlers/game.ts:80 | seat `k`'s hand is the deck's cards `8k` to `8k + 7` |
| GameHandlers.DealtHandsPartition | src/logic/messageHandlers/game.ts:73-92 | the four hands of a full deck are 8 cards each, disjoint, and make up the deck |
| GameHandlers.DealFromEffect | src/logic/messageHandlers/game.ts:73-92 | dealing to the seats in order gives each seated record its seat's hand and leaves the rest |
| GameHandlers.DealGivesSeatHands | src/logic/messageHandlers/game.ts:73-92 | the player in seat `k` receives hand `k` and is awaited; players not seated are unchanged |
| GameHandlers.DealCardsEffect | src/logic/messageHandlers/game.ts:73-92 | dealing a room's cards gives each record its seat's hand |
| GameHandlers.GameStart | src/logic/messageHandlers/game.ts:94-111 | `onGameStart` fires nothing and replies nothing, and throws when no starting player can be found |
| GameHandlers.GameStartRecordsStarter | src/logic/messageHandlers/game.ts:94-111 | starting a game throws exactly when no starter can be found; otherwise the room records the starter and a fresh game is created |
| GameHandlers.GameStartDealsSeats | src/logic/messageHandlers/game.ts:94-111 | starting a game clears the seated players' wish for a new game and deals each seat its hand |
| GameHandlers.StartedSeat | src/logic/messageHandlers/game.ts:94-111 | a seated record receives its seat's cards, is awaited, and no longer wants a new game; an unseated one is unchanged |
| GameHandlers.GameStartOpens | src/logic/messageHandlers/game.ts:94-111 | starting is clearing the wishes and then opening the game with the starter found before |
| GameHandlers.StartClearsWishes | src/logic/messageHandlers/game.ts:94-111 | clearing the wishes changes no starter the room would pick |
| GameHandlers.ClearWishesSeats | src/logic/messageHandlers/game.ts:94-111 | clearing the wishes only resets that flag on seated records, and keeps the room and its seats |
| GameHandlers.OpenGameDealsSeats | src/logic/messageHandlers/game.ts:94-111 | opening the game deals every seat its hand |
| GameHandlers.StarterAndGame | src/logic/messageHandlers/game.ts:94-111 | recording the starter and creating the game keeps the players and seats, and sets only the starter of the named room |
| GameHandlers.StarterSet | src/core/reducer/rooms.ts:142-152 | only rooms of that name get the new starting player |
| GameHandlers.GameEnd | src/logic/messageHandlers/game.ts:113-134 | `onGameEnd` fires nothing and replies nothing; when the scores cannot be computed it throws before any dispatch |
| GameHandlers.GameEndResets | src/logic/messageHandlers/game.ts:113-134 | ending a game adds the scores to the room, removes its game, and empties the seated players' cards and their hand-over flag |
| GameHandlers.CloseGameResets | src/logic/messageHandlers/game.ts:113-134 | closing throws exactly when the room is missing; otherwise the game goes and seated players are reset |
| GameHandlers.Ended | src/logic/messageHandlers/game.ts:113-134 | a reset record holds no cards and has not passed a hand-over; identity and other flags are kept |
| GameHandlers.ScoresAdded | src/core/reducer/rooms.ts:100-121 | only the named rooms gain a score entry per row |
| GameHandlers.ScoresFrame | src/logic/messageHandlers/game.ts:113-134 | adding the scores changes only the named room's scores |
| GameHandlers.GameRemoved | src/logic/messageHandlers/game.ts:113-134 | removing the game keeps exactly the other rooms' games and the room's seating |
| GameHandlers.ResetRoomPlayersEffect | src/logic/messageHandlers/game.ts:113-134 | every seated record is reset and every other record kept |
| GameHandlers.DeckDealt | src/logic/messageHandlers/game.ts:136-151 | `onPlayerDeckDealt` never throws or fires and is ignored outside the dealing phase; the acting player is sent `DO_PASS_HANDOVER` exactly when its acknowledgement completes the room's four with its own record among them |
| GameHandlers.DeckDealtAsksActor | src/logic/messageHandlers/game.ts:141-147 | an acting player sent `DO_PASS_HANDOVER` is, in the new state, waited for and owes the hand-over |
| GameHandlers.CompletingAsks | src/logic/messageHandlers/game.ts:138-147 | the acknowledgement that completes the four marks the acknowledging player's own record as asked for the hand-over |
| GameHandlers.AskWhenAllDealtEffect | src/logic/messageHandlers/game.ts:136-151 | once all four seated players have acknowledged the deal, each is asked to pass a hand-over; before that nothing changes |
| GameHandlers.AcknowledgeEffect | src/logic/messageHandlers/game.ts:136-151 | acknowledging stops waiting for that player, may ask the room for hand-overs, and touches no one outside the room |
| GameHandlers.WaitNoMore | src/logic/messageHandlers/game.ts:136-151 | clearing the waiting flag changes only the named records and keeps the seating |
| GameHandlers.DeckDealtEffect | src/logic/messageHandlers/game.ts:136-151 | an acknowledgement outside the dealing phase is ignored; otherwise it is recorded in the player's room as it stood before the message |
| GameHandlers.PlayHandOver | src/logic/messageHandlers/game.ts:157-172 | `onPlayHandOver` fires nothing; an invalid hand-over changes nothing and replies nothing, a throw happens only for a valid one, before any dispatch, and a completed pass replies `DO_TAKE_HANDOVER` with the passer's own hand-over exactly when it holds three cards |
| GameHandlers.TakeOwnHandOver | src/logic/messageHandlers/game.ts:165-167 | the passer is told to take its hand-over exactly when it holds three cards (`playerHasHandover`), and the message carries those cards |
| GameHandlers.PlayHandOverPasses | src/logic/messageHandlers/game.ts:157-172 | an invalid hand-over is ignored; a valid one throws exactly when there is no left neighbour, and otherwise passes the cards to it and replies `DO_TAKE_HANDOVER` exactly when the passer holds a hand-over of three |
| GameHandlers.PassToLeftFrame | src/logic/messageHandlers/game.ts:157-172 | passing to the left changes only the passer's and the receiver's records |
| GameHandlers.PassToLeftMoves | src/logic/messageHandlers/game.ts:157-172 | the receiver's hand-over becomes the three cards, and the passer has passed and no longer should; a hand of 8 keeps 5 |
| GameHandlers.PlayHandOverLeavesFive | src/logic/messageHandlers/game.ts:157-172 | after a valid hand-over from 8 distinct cards the passer holds 5, and the left neighbour holds the three cards as hand-over |
| GameHandlers.AcceptHandOver | src/logic/messageHandlers/game.ts:174-179 | `onTakeHandOver` never throws or fires, is ignored out of phase, and never touches rooms or games |
| GameHandlers.AcceptHandOverEffect | src/logic/messageHandlers/game.ts:174-179 | taking is ignored out of phase; otherwise the taker's cards are conserved, the hand reaches 8, and everyone else is unchanged |
| GameHandlers.PlayGrill | src/logic/messageHandlers/game.ts:181-186 | `onPlayGrill` never throws or fires, ignores an invalid grill, and never touches rooms or games |
| GameHandlers.PlayGrillEffect | src/logic/messageHandlers/game.ts:181-186 | an invalid grill is ignored; a valid one changes only the griller's record |
| GameHandlers.GrillFrame | src/core/reducer/players.ts:160-174 | passing a grill leaves rooms and games alone |
| GameHandlers.GrillMoves | src/core/reducer/players.ts:160-174 | passing a grill changes only the named records, moving the grill cards out of the hand |
| GameHandlers.PlayGrillConserves | src/logic/messageHandlers/game.ts:181-186 | a valid grill keeps the number of cards in hand plus grill |
| GameHandlers.PlayerIsReady | src/logic/messageHandlers/game.ts:188-205 | `onPlayerIsReady` never throws, is ignored out of phase, and fires only `LOGIC_PLAYERS_READY` for the player's room |
| GameHandlers.StartWhenAllReadyEffect | src/logic/messageHandlers/game.ts:188-205 | the round starts, with `LOGIC_PLAYERS_READY`, exactly when four seated players are ready; their hand-over flags are then reset, and otherwise nothing changes |
| GameHandlers.BecomeReadyEffect | src/logic/messageHandlers/game.ts:188-205 | a ready player is no longer awaited, and nobody outside the room changes |
| GameHandlers.PlayerIsReadyEffect | src/logic/messageHandlers/game.ts:188-205 | readiness out of phase is ignored; otherwise it is recorded in the player's room |
| GameHandlers.RoomGrillsHold | src/logic/messageHandlers/game.ts:207-215 | the room's grills are exactly the cards grilled by players seated there |
| GameHandlers.SnapshotEffect | src/core/reducer/games.ts:85-96 | the snapshot stores the grills in the room's game only |
| GameHandlers.NextRoundEffect | src/core/reducer/games.ts:60-72 | the first round begins with the room's starting player on turn |
| GameHandlers.PlayersReady | src/logic/messageHandlers/game.ts:207-215 | `onPlayersReady` fires `LOGIC_NEXT_ROUND` for the room unless it throws, which happens only when the room is missing |
| GameHandlers.PlayersReadyEffect | src/logic/messageHandlers/game.ts:207-215 | the room's game gets the grill snapshot, moves to round 1 and puts the starter on turn; other games are unchanged; a missing room throws when any game exists |
| RoundHandlers.AnnounceRound | src/logic/messageHandlers/round.ts:30-40 | announcing a round changes nothing and throws exactly when the room is missing |
| RoundHandlers.LayCard | src/logic/messageHandlers/round.ts:82-100 | `onPlayCard` replies nothing, ignores an invalid card, and fires nothing but `LOGIC_FINISH_ROUND`; a message without a card changes nothing and crashes exactly when the sender is on turn in a game and holds a card |
| RoundHandlers.LayCardOpens | src/logic/messageHandlers/round.ts:82-100 | an invalid card is ignored; a valid one is played and then the table is checked |
| RoundHandlers.CardLaid | src/logic/messageHandlers/round.ts:82-100 | a played card leaves the player's hand or grill and goes last on the player's game's table; nothing else changes |
| RoundHandlers.LayCardRemovesCard | src/logic/messageHandlers/round.ts:82-100 | a played card leaves the player's cards exactly once and lands on the table |
| RoundHandlers.AfterCardPlayed | src/logic/messageHandlers/round.ts:72-98 | the resumed part of `onPlayCard` does nothing when the game is gone, and fires only `LOGIC_FINISH_ROUND` for the room, changing nothing |
| RoundHandlers.AfterCardPlayedEffect | src/logic/messageHandlers/round.ts:72-100 | with no game nothing happens; a full table finishes the trick; otherwise the turn passes, and the handler throws exactly when no left neighbour can be found |
| RoundHandlers.PassTurnEffect | src/logic/messageHandlers/round.ts:72-80 | passing the turn sets the left neighbour on turn, or throws and keeps the state |
| RoundHandlers.TurnSet | src/core/reducer/games.ts:73-84 | the next turn changes only the named game's player on turn |
| RoundHandlers.TurnPassesLeft | src/logic/messageHandlers/round.ts:72-100 | in a full room, after a card at a table that is not full, the turn moves to the next seat |
| RoundHandlers.FinishTrick | src/logic/messageHandlers/round.ts:53-70 | `onFinishRound` throws with no change when the room or game is missing, and fires only `LOGIC_NEXT_ROUND` or `LOGIC_GAME_END` for the room |
| RoundHandlers.FinishTrickCrashes | src/logic/messageHandlers/round.ts:53-70 | finishing a trick throws exactly when the room or game is missing or no winner can be found |
| RoundHandlers.AwardCrashes | src/logic/messageHandlers/round.ts:53-70 | awarding the trick throws exactly when the trick's winner cannot be found |
| RoundHandlers.TrickPassed | src/logic/messageHandlers/round.ts:53-60 | only the receiver's pile gains the trick, and the receiver's game table is emptied |
| RoundHandlers.TrickKeepsRounds | src/logic/messageHandlers/round.ts:53-60 | passing the trick keeps each game's room and round |
| RoundHandlers.TrickKeepsLookups | src/logic/messageHandlers/round.ts:53-60 | passing the trick keeps which rooms have a game |
| RoundHandlers.AfterTrick | src/logic/messageHandlers/round.ts:42-51 | `afterTrickFinished` fires `LOGIC_GAME_END` after the last round and `LOGIC_NEXT_ROUND` before it, and fires nothing exactly when it throws or the game is gone |
| RoundHandlers.AfterTrickEffect | src/logic/messageHandlers/round.ts:42-51 | after the last round the game ends with `LOGIC_GAME_END`; otherwise the round advances with the trick's winner on turn |
| RoundHandlers.RoundAdvanced | src/core/reducer/games.ts:60-72 | the next round raises the round by one and sets the given player on turn |
| RoundHandlers.WinnerLeadsNextRound | src/logic/messageHandlers/round.ts:42-70 | in a full room, the player whose card won the trick is on turn in the next round, which is one round later |
| RoundHandlers.WinnerOpensRound | src/logic/messageHandlers/round.ts:42-51 | after the trick is passed, the winner's seat opens the next round |
| RoomHandlers.RoomStart | src/logic/messageHandlers/room.ts:22-24 | a room start fires a game start for a new room, with no state change |
| RoomHandlers.PlayerJoinedRoom | src/logic/messageHandlers/room.ts:41-48 | `onPlayerJoinedRoom` changes nothing and fires only `LOGIC_ROOM_START` for that room |
| RoomHandlers.PlayerJoinedRoomEffect | src/logic/messageHandlers/room.ts:41-48 | a join changes nothing; it throws exactly when the room is missing, and starts the room exactly when four seats are taken |
| RoomHandlers.StartWhenAllWishEffect | src/logic/messageHandlers/room.ts:26-39 | when all four seated players want a new game, the room's game starts; otherwise nothing happens |
| RoomHandlers.WishRecorded | src/logic/messageHandlers/room.ts:26-39 | the wish is set on the player's records only |
| RoomHandlers.WishEffect | src/logic/messageHandlers/room.ts:26-39 | the wish is recorded, then the game starts when all four want one; nobody outside the room changes |
| RoomHandlers.PlayerWantsNewGame | src/logic/messageHandlers/room.ts:26-39 | `onPlayerWantsNewGame` never throws, ignores a player in no room, and fires only a game start, not as a new room, for the player's room |
| RoomHandlers.PlayerWantsNewGameEffect | src/logic/messageHandlers/room.ts:26-39 | a wish from a player in no room is ignored; otherwise it is recorded in the player's room |
| RoomHandlers.BotSeated | src/core/reducer/rooms.ts:48-69 | adding a bot appends its record and takes its seat in the named room |
| RoomHandlers.BotRoomFound | src/logic/messageHandlers/room.ts:50-66 | the room found by name after the bot is seated is the room with the extra seat |
| RoomHandlers.SeatAdded | src/core/reducer/rooms.ts:48-69 | a seat added last with an empty score row keeps the room's scores aligned |
| RoomHandlers.AddBotToRoom | src/logic/messageHandlers/room.ts:50-66 | `onAddBot` never throws; when it fires, the player's room had a free seat, `LOGIC_PLAYER_JOINED_ROOM` names it and the acting player, like every player, is sent the room list of the new state; otherwise nothing changes and nothing is sent |
| RoomHandlers.AddBotEffect | src/logic/messageHandlers/room.ts:50-66 | a bot under a free nickname joins the player's room when it has a free seat, a join is fired, and the room list sent shows that room available only while it still has a free seat; with no room, no seat or no free nickname, nothing happens |
| RoomHandlers.LastBotStartsRoom | src/logic/messageHandlers/room.ts:41-66 | a bot taking a room's fourth seat makes the join start the room |
| ConnectionHandlers.Register | src/logic/messageHandlers/connection.ts:114-124 | `onRegister` never throws or fires; its first reply is `REGISTERED` exactly when the name may be registered, and a refusal changes nothing |
| ConnectionHandlers.RegisterEffect | src/logic/messageHandlers/connection.ts:114-124 | an accepted name renames exactly the player's records and replies with the name and the room list; a refused one changes nothing and replies that the name is taken |
| ConnectionHandlers.NamelessRename | src/logic/messageHandlers/connection.ts:114-124 | renaming a player without a name renames exactly the records of its id and touches no room or game |
| ConnectionHandlers.NamelessRenameKeepsRooms | src/logic/messageHandlers/connection.ts:114-124 | naming a player who had no name touches no room |
| ConnectionHandlers.RegisteredNameIsTaken | src/logic/messageHandlers/connection.ts:114-124 | once a name is registered, nobody else can register it |
| ConnectionHandlers.OpenRoom | src/logic/messageHandlers/connection.ts:126-138 | `onCreateRoom` never throws or fires; its first reply is `ROOM_CREATED` exactly when the room may be created, and a refusal changes nothing |
| ConnectionHandlers.OpenRoomEffect | src/logic/messageHandlers/connection.ts:126-138 | an accepted room is appended with the creator seated, is found by its name and is listed as available; a refused one changes nothing and replies that the name is taken |
| ConnectionHandlers.AppendedRoomListed | src/logic/functions/stateDependentFunctions.ts:53-56 | a room appended to the list is listed last, as available when it has a free seat |
| ConnectionHandlers.CreatedRoomNameIsTaken | src/logic/messageHandlers/connection.ts:126-138 | once a room is created, nobody can create another of that name |
| ConnectionHandlers.CreatorSitsInRoom | src/logic/messageHandlers/connection.ts:126-138 | the creator sits in the new room afterwards |
| ConnectionHandlers.PlayerSeated | src/core/reducer/rooms.ts:26-47 | adding a player to a room seats the name in that room only |
| ConnectionHandlers.EnterRoom | src/logic/messageHandlers/connection.ts:140-153 | `onJoinRoom` fires only `LOGIC_PLAYER_JOINED_ROOM` for that room, and only for an allowed join; a refused join changes and sends nothing |
| ConnectionHandlers.EnterRoomEffect | src/logic/messageHandlers/connection.ts:140-153 | a refused join changes nothing; an accepted one seats the player last in the room, replies with the seats and the room list, and fires the join |
| ConnectionHandlers.FourthJoinStartsRoom | src/logic/messageHandlers/connection.ts:140-153 | the player taking a room's fourth seat makes the join start the room |
| ConnectionHandlers.ReplaceWithBot | src/logic/messageHandlers/connection.ts:64-71 | replacing a player with a bot keeps the number of rooms and games and at most appends one record |
| ConnectionHandlers.ReplaceWithBotEffect | src/logic/messageHandlers/connection.ts:64-71 | a bot with the leaver's cards and flags is appended and takes the leaver's seats and turns, and every room keeps its seat count |
| ConnectionHandlers.BotOnlyAdded | src/logic/messageHandlers/connection.ts:64-71 | replacing adds no record except a bot |
| ConnectionHandlers.Reset | src/logic/messageHandlers/connection.ts:73-79 | a reset record has no cards, has passed nothing, need not pass, is not awaited, and wants a new game |
| ConnectionHandlers.ResetEffect | src/logic/messageHandlers/connection.ts:73-79 | resetting a name resets exactly the records carrying it, and leaves rooms and games alone |
| ConnectionHandlers.ResetUpdates | src/logic/messageHandlers/connection.ts:73-79 | the five reset dispatches compose to the reset of a record |
| ConnectionHandlers.ResetChain | src/logic/messageHandlers/connection.ts:73-79 | each of the five dispatches changes the record one step towards the reset |
| ConnectionHandlers.RemoveAllEffect | src/logic/messageHandlers/connection.ts:81-93 | removing a list of ids keeps exactly the records whose id is none of them |
| ConnectionHandlers.RemoveRoomAndBots | src/logic/messageHandlers/connection.ts:81-93 | `removeRoom` leaves no room and no game of that name, and adds none |
| ConnectionHandlers.RemoveRoomEffect | src/logic/messageHandlers/connection.ts:81-93 | removing a room removes its bots, its game and the room itself, and keeps everything else |
| ConnectionHandlers.GameAndRoomGone | src/logic/messageHandlers/connection.ts:81-93 | removing the game and then the room keeps exactly the other rooms and games, and all players |
| ConnectionHandlers.RemovedRoomBotsGone | src/logic/messageHandlers/connection.ts:81-93 | no bot seated in a removed room survives it |
| ConnectionHandlers.LeaveRoom | src/logic/messageHandlers/connection.ts:155-166 | `onLeaveRoom` never throws or fires, ignores a player in no room, and sends the room list exactly when the room is removed |
| ConnectionHandlers.LeaveHandsCardsToBot | src/logic/messageHandlers/connection.ts:155-166 | a leaver with a real player still in the room hands over to a bot, which holds exactly the leaver's cards; the leaver's records keep none and sit nowhere |
| ConnectionHandlers.BotTakesOver | src/logic/messageHandlers/connection.ts:155-166 | the bot's nickname differs from the leaver's name, and the leaver's name leaves every seat |
| ConnectionHandlers.ResetAfterBot | src/logic/messageHandlers/connection.ts:155-166 | resetting the leaver after the bot is appended resets only the leaver's records |
| ConnectionHandlers.LeaveRemovesRoom | src/logic/messageHandlers/connection.ts:155-166 | the last real player leaving removes the room, its game and its bots, and resets the leaver |
| ConnectionHandlers.Disconnect | src/logic/messageHandlers/connection.ts:99-112 | `onDisconnect` never throws or fires, and sends the room list exactly when the player's room is removed |
| ConnectionHandlers.DisconnectRemoves | src/logic/messageHandlers/connection.ts:99-112 | after a disconnect no record has the socket's id, and every record left is an old one or a bot; a player in no room only loses its records |
| ConnectionHandlers.GetRooms | src/logic/messageHandlers/connection.ts:168-171 | asking for the rooms changes nothing and replies with one entry per room |
| SafeMessage.Search | src/core/isSafeMessage.ts:10-12 | the anchored pattern search returns 0 exactly when the type is the prefix followed only by word characters, and -1 otherwise |
| SafeMessage.MatchFromMeans | src/core/isSafeMessage.ts:10-12 | the character-by-character matcher accepts exactly the strings the anchored pattern describes |
| SafeMessage.IsSafeMessage | src/core/isSafeMessage.ts:5-16 | a message whose type is a string or missing passes exactly when the type is non-empty, no internal pattern matches it, and it comes from a named player or is `REGISTER` |
| SafeMessage.CheckMessage | src/core/isSafeMessage.ts:5-16 | on any parsed `type`, the check throws exactly when the type is a truthy non-string, and passes exactly when it is a string `IsSafeMessage` accepts |
| SafeMessage.MissingTypeRejected | src/core/isSafeMessage.ts:8-9 | a missing or empty type never passes |
| SafeMessage.InternalTypeRejected | src/core/isSafeMessage.ts:10-12 | `LOGIC_`, `STATE_` or `$_` followed by word characters never passes |
| SafeMessage.NonWordSuffixPasses | src/core/isSafeMessage.ts:10-12 | the `$` anchor lets `STATE_A-B` through, since `-` is not a word character |
| SafeMessage.UnnamedPlayerMayOnlyRegister | src/core/isSafeMessage.ts:13 | a player without a name gets through with `REGISTER` and nothing else |
| SafeMessage.ClientTypePasses | src/core/isSafeMessage.ts:5-16 | a client type such as `PLAY_CARD` from a named player passes |

## Left out

- Sending: messages to the other players, to the whole room, or to everyone are not modelled. The replies to the acting player are modelled; the broadcasts are not.
- Timing: the `seconds(…)` delays in the round and game handlers are collapsed. Each handler runs to its end in one step. Interleaving appears only where a handler resumes after a delay, in `RoundHandlers.AfterCardPlayed` and `RoundHandlers.AfterTrick`, which are functions of the state at the time they resume.
- The bot runtime (src/logic/functions/stateDependentFunctions.ts:182-290): the bot's `send` loop, `hookIntoGame` and its timers. The bot's decisions (`getBotResponse`) are modelled as `Validators.BotResponse`, and the bot's record as `Queries.MakeBot`.
- Logging is not modelled.
- src/logic/messageHandlers/common.ts is not part of this model.
- The subscription wiring of src/logic/index.ts, which routes each message type to its handler, is not modelled. This includes the `LOGIC_ROOM_END` route. Each handler is a function of its own here.
- src/core/index.ts and the socket transport of src/core/onSocketConnect.ts are not modelled. Only the player record they build (`Entities.NewPlayer`) and the `room()` and `game()` look-ups are.
- Randomness: the shuffled deck, the random starting player's index and the random bot nickname are parameters.
- `isRealPlayerInRoom` in `onLeaveRoom` and `onDisconnect` is a boolean parameter of those handlers.
- `Queries.RandomNick`: when every nickname is taken, the program goes on with a bot whose name is `undefined`: `STATE_ADD_BOT` or `STATE_REPLACE_PLAYER_WITH_BOT` runs with it. The model makes no bot then, so `RoomHandlers.AddBotToRoom` does nothing and `ConnectionHandlers.ReplaceWithBot` leaves the state as it was.
- RoomHandlers.AddBotToRoom: with every nickname taken it does nothing and sends no room list, where the program seats a bot named `undefined` and sends the list (see `Queries.RandomNick`).
- RoomHandlers.AddBotEffect: the same gap as `RoomHandlers.AddBotToRoom`.
- ConnectionHandlers.ReplaceWithBot: with every nickname taken it leaves the state as it was, where the program hands the seat to a bot named `undefined` (see `Queries.RandomNick`).
- The in-place mutation by `Array.prototype.sort` is not modelled. The sorts return new lists.
- tests/logicFunctions/cards.test.ts belongs to an older revision of the cards module (it scores the black cat 13) and is not modelled.
- Validators.NormalizePlayerIndex: the contract states its effect on seat indices 0 to 7 only. The code subtracts 4 once, so 8 maps to 4 (see `Validators.NormalizeIsOneLap`). No caller passes more than 7.
- Validators.BotHandOver: with fewer than three cards the program's `PLAY_HAND_OVER` holds `undefined` entries; the model passes the cards the bot has.
- RoomsReducer.UpdateRoom: a bot without a name leaves the rooms unchanged. The program would seat the value `undefined` (src/core/reducer/rooms.ts seats `message.bot.name`).
- Cards.DiscardCard: void in the led suit and unable to discard the black cat, the bot plays its greatest card, as the code does with its `worstCard` variable. The game's description says lowest.
- Cards.CardPoints: the black cat scores 11, or 22 when grilled, as src/logic/functions/cards.ts does.


=== FILE: array_polyfill.dfy ===
/**
 * The array helpers the server installs on `Array.prototype`: `flatMap`,
 * `flatten`, `first`, `last`, `sum` and `shuffle`. Each fold is written the
 * way the program writes it (`reduce` from the left) and related to a plain
 * recursive reference definition.
 */
module ArrayPolyfill {
  import opened Wrappers
  import opened Seqs

  /** `reduce((a, b) => a.concat(b), acc)`: the left fold behind `flatten`. */
  function FoldConcat<T>(acc: seq<T>, xss: seq<seq<T>>): seq<T>
    decreases |xss|
  {
    if |xss| == 0 then acc else FoldConcat(acc + xss[0], xss[1..])
  }

  /** Reference definition: the sublists joined front to back. */
  function Concat<T>(xss: seq<seq<T>>): seq<T>
    decreases |xss|
  {
    if |xss| == 0 then [] else xss[0] + Concat(xss[1..])
  }

  /** The left fold starting from `acc` is `acc` followed by the concatenation. */
  lemma {:induction false} FoldConcatIsConcat<T>(acc: seq<T>, xss: seq<seq<T>>)
    ensures FoldConcat(acc, xss) == acc + Concat(xss)
    decreases |xss|
  {
    if |xss| > 0 {
      FoldConcatIsConcat(acc + xss[0], xss[1..]);
    }
  }

  /** `flatten`: concatenate the sublists. */
  function Flatten<T>(xss: seq<seq<T>>): seq<T> {
    FoldConcat([], xss)
  }

  /** `flatten` concatenates the sublists in order. */
  lemma FlattenInOrder<T>(xss: seq<seq<T>>)
    ensures Flatten(xss) == Concat(xss)
    ensures |xss| > 0 ==> Flatten(xss) == xss[0] + Flatten(xss[1..])
  {
    FoldConcatIsConcat([], xss);
    if |xss| > 0 {
      FoldConcatIsConcat([], xss[1..]);
    }
  }

  /** Concatenation distributes over joining the outer lists. */
  lemma {:induction false} ConcatAppend<T>(a: seq<seq<T>>, b: seq<seq<T>>)
    ensures Concat(a + b) == Concat(a) + Concat(b)
    decreases |a|
  {
    if |a| == 0 {
      assert a + b == b;
    } else {
      assert (a + b)[1..] == a[1..] + b;
      ConcatAppend(a[1..], b);
    }
  }

  /** `array.map(fn)`. */
  function Map<T, R>(f: T -> R, a: seq<T>): (r: seq<R>)
    ensures |r| == |a|
    ensures forall i :: 0 <= i < |a| ==> r[i] == f(a[i])
  {
    seq(|a|, i requires 0 <= i < |a| => f(a[i]))
  }

  /** `flatMap(fn, array)`: map, then flatten. */
  function FlatMap<T, R>(f: T -> seq<R>, a: seq<T>): seq<R> {
    Flatten(Map(f, a))
  }

  /** `flatMap` is the in-order concatenation of the images, and so splits over `a + b`. */
  lemma FlatMapAppend<T, R>(f: T -> seq<R>, a: seq<T>, b: seq<T>, x: T)
    ensures FlatMap(f, a + b) == FlatMap(f, a) + FlatMap(f, b)
    ensures FlatMap(f, []) == []
    ensures FlatMap(f, [x]) == f(x)
  {
    assert Map(f, a + b) == Map(f, a) + Map(f, b);
    FlattenInOrder(Map(f, a + b));
    FlattenInOrder(Map(f, a));
    FlattenInOrder(Map(f, b));
    ConcatAppend(Map(f, a), Map(f, b));
    FlattenInOrder(Map(f, [x]));
    assert Map(f, [x])[1..] == [];
  }

  /** A value is in `flatMap(fn, array)` exactly when the image of some element holds it. */
  lemma {:induction false} FlatMapHas<T, R>(f: T -> seq<R>, a: seq<T>, y: R)
    ensures y in FlatMap(f, a) <==> exists x :: x in a && y in f(x)
    decreases |a|
  {
    FlattenInOrder(Map(f, a));
    if |a| > 0 {
      assert Map(f, a)[1..] == Map(f, a[1..]);
      FlatMapHas(f, a[1..], y);
      assert forall x :: x in a <==> x == a[0] || x in a[1..];
    }
  }

  /** `first`: the element at index 0, `undefined` on an empty array. */
  function First<T>(a: seq<T>): (r: Option<T>)
    ensures r.Some? <==> |a| > 0
    ensures r.Some? ==> r.value == a[0]
  {
    if |a| == 0 then None else Some(a[0])
  }

  /** `last`: the element at index `length - 1`, `undefined` on an empty array. */
  function Last<T>(a: seq<T>): (r: Option<T>)
    ensures r.Some? <==> |a| > 0
    ensures r.Some? ==> r.value == a[|a| - 1]
  {
    if |a| == 0 then None else Some(a[|a| - 1])
  }

  /** The last element is the first of the reversed array, and appending `x` makes `x` last. */
  lemma LastIsFirstOfReverse<T>(a: seq<T>, x: T)
    ensures Last(a) == First(Reverse(a))
    ensures Last(a + [x]) == Some(x)
  {
  }

  /** `reduce((a, b) => a + b, acc)`: the left fold behind `sum`. */
  function FoldSum(acc: int, a: seq<int>): int
    decreases |a|
  {
    if |a| == 0 then acc else FoldSum(acc + a[0], a[1..])
  }

  /** Reference definition of a total. */
  function Total(a: seq<int>): int
    decreases |a|
  {
    if |a| == 0 then 0 else a[0] + Total(a[1..])
  }

  /** `sum`: the left fold from 0. */
  function Sum(a: seq<int>): int {
    FoldSum(0, a)
  }

  /** The left fold from `acc` is `acc` plus the total. */
  lemma {:induction false} FoldSumIsTotal(acc: int, a: seq<int>)
    ensures FoldSum(acc, a) == acc + Total(a)
    decreases |a|
  {
    if |a| > 0 {
      FoldSumIsTotal(acc + a[0], a[1..]);
    }
  }

  /** Totals split over concatenation. */
  lemma {:induction false} TotalAppend(a: seq<int>, b: seq<int>)
    ensures Total(a + b) == Total(a) + Total(b)
    decreases |a|
  {
    if |a| == 0 {
      assert a + b == b;
    } else {
      assert (a + b)[1..] == a[1..] + b;
      TotalAppend(a[1..], b);
    }
  }

  /** `sum([]) == 0` and `sum(a ++ b) == sum(a) + sum(b)`. */
  lemma SumAppend(a: seq<int>, b: seq<int>)
    ensures Sum([]) == 0
    ensures Sum(a + b) == Sum(a) + Sum(b)
  {
    FoldSumIsTotal(0, a);
    FoldSumIsTotal(0, b);
    FoldSumIsTotal(0, a + b);
    TotalAppend(a, b);
  }

  /**
   * `shuffle`: copy the array, then for `i` from `length` down to 1 swap
   * slot `i - 1` with a slot `j` in `[0, i)`. `Math.random` is replaced by
   * `js`, where `js[i - 1]` is the `j` drawn when the loop is at `i`.
   */
  method Shuffle<T>(a: seq<T>, js: seq<nat>) returns (r: seq<T>)
    requires |js| == |a|
    requires forall k :: 0 <= k < |js| ==> js[k] <= k
    ensures |r| == |a|
    ensures multiset(r) == multiset(a)
  {
    r := a;
    var i := |a|;
    while i > 0
      invariant 0 <= i <= |a|
      invariant |r| == |a|
      invariant multiset(r) == multiset(a)
    {
      var j := js[i - 1];
      var t := r[i - 1];
      r := r[i - 1 := r[j]][j := t];
      i := i - 1;
    }
  }
}

=== FILE: cards.dfy ===
/**
 * The card domain of the game (src/logic/functions/cards.ts): the 4 x 8
 * card values, rank and suit indices and their comparators, value sorting,
 * penalty scoring, deck construction, the trick winner and the bot's
 * card-choice heuristic.
 */
module Cards {
  import opened Wrappers
  import opened Seqs
  import opened ArrayPolyfill

  datatype Suit = Spades | Hearts | Diamonds | Clubs
  datatype Rank = Seven | Eight | Nine | Ten | Jack | Queen | King | Ace
  datatype Card = Card(suit: Suit, rank: Rank)

  /** The Spades Queen, the card the game is named after. */
  const BlackCat: Card := Card(Spades, Queen)

  /** Base penalty of the black cat; doubled when it was grilled. */
  const BlackCatPoints: int := 11

  /** The suits in the order the deck is built. */
  const Suits: seq<Suit> := [Spades, Hearts, Diamonds, Clubs]

  /** The ranks from lowest to highest. */
  const Ranks: seq<Rank> := [Seven, Eight, Nine, Ten, Jack, Queen, King, Ace]

  // ---------------------------------------------------------------------
  // Indices and comparators

  function RankIndex(r: Rank): (n: nat)
    ensures n < 8
  {
    match r
    case Seven => 0
    case Eight => 1
    case Nine => 2
    case Ten => 3
    case Jack => 4
    case Queen => 5
    case King => 6
    case Ace => 7
  }

  function SuitIndex(s: Suit): (n: nat)
    ensures n < 4
  {
    match s
    case Clubs => 0
    case Diamonds => 1
    case Spades => 2
    case Hearts => 3
  }

  /** `getRankAsNumber` numbers Seven..Ace as 0..7; `getSuitAsNumber` numbers Clubs, Diamonds, Spades, Hearts as 0..3. */
  lemma IndexTables()
    ensures forall i :: 0 <= i < 8 ==> RankIndex(Ranks[i]) == i
    ensures SuitIndex(Clubs) == 0 && SuitIndex(Diamonds) == 1
    ensures SuitIndex(Spades) == 2 && SuitIndex(Hearts) == 3
  {
  }

  /** Both indices are one-to-one. */
  lemma IndicesInjective(a: Card, b: Card)
    ensures RankIndex(a.rank) == RankIndex(b.rank) ==> a.rank == b.rank
    ensures SuitIndex(a.suit) == SuitIndex(b.suit) ==> a.suit == b.suit
  {
  }

  /** `compareByRank`: the sign of the difference of the rank indices. */
  function CompareByRank(a: Card, b: Card): (r: int)
    ensures -1 <= r <= 1
    ensures r == 0 <==> a.rank == b.rank
    ensures r < 0 <==> RankIndex(a.rank) < RankIndex(b.rank)
  {
    IndicesInjective(a, b);
    var rankA := RankIndex(a.rank);
    var rankB := RankIndex(b.rank);
    if rankA > rankB then 1 else if rankA < rankB then -1 else 0
  }

  /** `compareBySuit`: the sign of the difference of the suit indices. */
  function CompareBySuit(a: Card, b: Card): (r: int)
    ensures -1 <= r <= 1
    ensures r == 0 <==> a.suit == b.suit
    ensures r < 0 <==> SuitIndex(a.suit) < SuitIndex(b.suit)
  {
    IndicesInjective(a, b);
    var suitA := SuitIndex(a.suit);
    var suitB := SuitIndex(b.suit);
    if suitA > suitB then 1 else if suitA < suitB then -1 else 0
  }

  /** Both comparators are antisymmetric and transitive. */
  lemma ComparatorsOrder(a: Card, b: Card, c: Card)
    ensures CompareByRank(a, b) == -CompareByRank(b, a)
    ensures CompareBySuit(a, b) == -CompareBySuit(b, a)
    ensures CompareByRank(a, b) <= 0 && CompareByRank(b, c) <= 0 ==> CompareByRank(a, c) <= 0
    ensures CompareBySuit(a, b) <= 0 && CompareBySuit(b, c) <= 0 ==> CompareBySuit(a, c) <= 0
  {
  }

  // ---------------------------------------------------------------------
  // Sorting

  function RankKey(c: Card): int { RankIndex(c.rank) }

  function SuitKey(c: Card): int { SuitIndex(c.suit) }

  /** The value order: rank index first, suit index breaking ties. */
  function ValueKey(c: Card): int { 4 * RankIndex(c.rank) + SuitIndex(c.suit) }

  /** The value order tells all 32 cards apart. */
  lemma ValueKeyInjective(a: Card, b: Card)
    ensures ValueKey(a) == ValueKey(b) ==> a == b
  {
    IndicesInjective(a, b);
  }

  ghost predicate SortedBy(s: seq<Card>, key: Card -> int) {
    forall i, j :: 0 <= i < j < |s| ==> key(s[i]) <= key(s[j])
  }

  /** Stable insertion: `c` goes in front of the first element whose key is not smaller. */
  function InsertBy(c: Card, s: seq<Card>, key: Card -> int): (r: seq<Card>)
    ensures |r| == |s| + 1
    ensures multiset(r) == multiset{c} + multiset(s)
  {
    if |s| == 0 || key(c) <= key(s[0]) then [c] + s
    else
      assert s == [s[0]] + s[1..];
      [s[0]] + InsertBy(c, s[1..], key)
  }

  /** Every element of an insertion is the inserted card or one of the list's. */
  lemma InsertByMembers(c: Card, s: seq<Card>, key: Card -> int)
    ensures forall x :: x in InsertBy(c, s, key) ==> x == c || x in s
  {
    var r := InsertBy(c, s, key);
    forall x | x in r ensures x == c || x in s {
      assert x in multiset(r);
    }
  }

  /** Inserting into a sorted list keeps it sorted. */
  lemma {:induction false} InsertBySorted(c: Card, s: seq<Card>, key: Card -> int)
    requires SortedBy(s, key)
    ensures SortedBy(InsertBy(c, s, key), key)
  {
    if |s| == 0 || key(c) <= key(s[0]) {
      forall x | x in s ensures key(c) <= key(x) {
        var k :| 0 <= k < |s| && s[k] == x;
        if k > 0 {
          assert key(s[0]) <= key(s[k]);
        }
      }
      PrependSorted(c, s, key);
    } else {
      var rest := InsertBy(c, s[1..], key);
      assert InsertBy(c, s, key) == [s[0]] + rest;
      assert SortedBy(s[1..], key);
      InsertBySorted(c, s[1..], key);
      InsertByMembers(c, s[1..], key);
      forall x | x in rest ensures key(s[0]) <= key(x) {
        if x != c {
          var k :| 0 <= k < |s[1..]| && s[1..][k] == x;
          assert s[k + 1] == x;
        }
      }
      PrependSorted(s[0], rest, key);
    }
  }

  /** A stable sort by `key` (insertion sort, as `Array.prototype.sort` is stable). */
  function SortBy(s: seq<Card>, key: Card -> int): (r: seq<Card>)
    ensures |r| == |s|
    ensures multiset(r) == multiset(s)
    ensures SortedBy(r, key)
  {
    if |s| == 0 then []
    else
      assert s == [s[0]] + s[1..];
      var rest := SortBy(s[1..], key);
      InsertBySorted(s[0], rest, key);
      InsertBy(s[0], rest, key)
  }

  /** Prepending an element no greater than the rest keeps a list sorted. */
  lemma PrependSorted(h: Card, t: seq<Card>, key: Card -> int)
    requires SortedBy(t, key)
    requires forall x :: x in t ==> key(h) <= key(x)
    ensures SortedBy([h] + t, key)
  {
    var r := [h] + t;
    forall i, j | 0 <= i < j < |r| ensures key(r[i]) <= key(r[j]) {
      assert r[j] == t[j - 1];
      if i > 0 {
        assert r[i] == t[i - 1];
      }
    }
  }

  /** A card of no greater rank than the head, and no greater suit than any element, may go first. */
  lemma LowerRankFirst(c: Card, s: seq<Card>)
    requires SortedBy(s, ValueKey)
    requires forall x :: x in s ==> SuitKey(c) <= SuitKey(x)
    requires |s| > 0 ==> RankKey(c) <= RankKey(s[0])
    ensures SortedBy([c] + s, ValueKey)
  {
    forall x | x in s ensures ValueKey(c) <= ValueKey(x) {
      var k :| 0 <= k < |s| && s[k] == x;
      if k > 0 {
        assert ValueKey(s[0]) <= ValueKey(s[k]);
      }
    }
    PrependSorted(c, s, ValueKey);
  }

  /** Inserting by rank a card whose suit does not exceed any suit in a value-sorted list keeps it value-sorted. */
  lemma {:induction false} InsertByRankKeepsValueOrder(c: Card, s: seq<Card>)
    requires SortedBy(s, ValueKey)
    requires forall x :: x in s ==> SuitKey(c) <= SuitKey(x)
    ensures SortedBy(InsertBy(c, s, RankKey), ValueKey)
  {
    if |s| == 0 || RankKey(c) <= RankKey(s[0]) {
      LowerRankFirst(c, s);
    } else {
      assert s == [s[0]] + s[1..];
      var rest := InsertBy(c, s[1..], RankKey);
      assert InsertBy(c, s, RankKey) == [s[0]] + rest;
      assert SortedBy(s[1..], ValueKey);
      InsertByRankKeepsValueOrder(c, s[1..]);
      InsertByMembers(c, s[1..], RankKey);
      forall x | x in rest ensures ValueKey(s[0]) <= ValueKey(x) {
        if x != c {
          var k :| 0 <= k < |s[1..]| && s[1..][k] == x;
          assert s[k + 1] == x;
        }
      }
      PrependSorted(s[0], rest, ValueKey);
    }
  }

  /** A stable sort by rank of a list already sorted by suit is sorted by value. */
  lemma {:induction false} RankSortOfSuitSorted(s: seq<Card>)
    requires SortedBy(s, SuitKey)
    ensures SortedBy(SortBy(s, RankKey), ValueKey)
  {
    if |s| > 0 {
      assert SortedBy(s[1..], SuitKey);
      RankSortOfSuitSorted(s[1..]);
      var t := SortBy(s[1..], RankKey);
      forall x | x in t ensures SuitKey(s[0]) <= SuitKey(x) {
        assert x in multiset(s[1..]);
        var k :| 0 <= k < |s[1..]| && s[1..][k] == x;
        assert s[k + 1] == x;
      }
      InsertByRankKeepsValueOrder(s[0], t);
    }
  }

  /**
   * `sortCardsByLowestValue`: a stable sort by suit followed by a stable
   * sort by rank, which orders by rank with suit breaking ties.
   */
  function SortByLowestValue(cards: seq<Card>): (r: seq<Card>)
    ensures |r| == |cards|
    ensures multiset(r) == multiset(cards)
    ensures SortedBy(r, ValueKey)
  {
    var bySuit := SortBy(cards, SuitKey);
    RankSortOfSuitSorted(bySuit);
    SortBy(bySuit, RankKey)
  }

  /** The head of a value-sorted list is its least element. */
  lemma SortedHeadIsLeast(a: seq<Card>, x: Card)
    requires SortedBy(a, ValueKey)
    requires x in a
    ensures ValueKey(a[0]) <= ValueKey(x)
  {
    var k :| 0 <= k < |a| && a[k] == x;
    if k > 0 {
      assert ValueKey(a[0]) <= ValueKey(a[k]);
    }
  }

  /** The tail of a sorted list is sorted. */
  lemma SortedTail(a: seq<Card>, key: Card -> int)
    requires SortedBy(a, key) && |a| > 0
    ensures SortedBy(a[1..], key)
  {
    forall i, j | 0 <= i < j < |a| - 1 ensures key(a[1..][i]) <= key(a[1..][j]) {
      assert a[1..][i] == a[i + 1] && a[1..][j] == a[j + 1];
    }
  }

  /** A list whose neighbours are in order is sorted. */
  lemma {:induction false} NeighboursSorted(a: seq<Card>, key: Card -> int)
    requires forall i :: 0 <= i < |a| - 1 ==> key(a[i]) <= key(a[i + 1])
    ensures SortedBy(a, key)
  {
    if |a| > 1 {
      NeighboursSorted(a[1..], key);
      forall j | 1 <= j < |a| ensures key(a[0]) <= key(a[j]) {
        if j > 1 {
          assert key(a[1..][0]) <= key(a[1..][j - 1]);
        }
      }
      forall i, j | 0 <= i < j < |a| ensures key(a[i]) <= key(a[j]) {
        if i > 0 {
          assert key(a[1..][i - 1]) <= key(a[1..][j - 1]);
        }
      }
    }
  }

  /** Two value-sorted lists holding the same cards are equal. */
  lemma {:induction false} SortedPermutationUnique(a: seq<Card>, b: seq<Card>)
    requires multiset(a) == multiset(b)
    requires SortedBy(a, ValueKey) && SortedBy(b, ValueKey)
    ensures a == b
  {
    assert |a| == |multiset(a)| == |multiset(b)| == |b|;
    if |a| > 0 {
      SameHeads(a, b);
      TailMultiset(a);
      TailMultiset(b);
      assert multiset(a[1..]) == multiset(b[1..]);
      SortedTail(a, ValueKey);
      SortedTail(b, ValueKey);
      SortedPermutationUnique(a[1..], b[1..]);
      forall i | 0 <= i < |a| ensures a[i] == b[i] {
        if i > 0 {
          assert a[1..][i - 1] == b[1..][i - 1];
        }
      }
    }
  }

  /** Two non-empty value-sorted lists holding the same cards start with the same card. */
  lemma SameHeads(a: seq<Card>, b: seq<Card>)
    requires multiset(a) == multiset(b) && |a| > 0 && |b| > 0
    requires SortedBy(a, ValueKey) && SortedBy(b, ValueKey)
    ensures a[0] == b[0]
  {
    assert a[0] in multiset(a) && b[0] in multiset(b);
    SortedHeadIsLeast(b, a[0]);
    SortedHeadIsLeast(a, b[0]);
    ValueKeyInjective(a[0], b[0]);
  }

  /** The tail of a list holds its cards but one occurrence of the head. */
  lemma TailMultiset(a: seq<Card>)
    requires |a| > 0
    ensures multiset(a[1..]) == multiset(a) - multiset{a[0]}
  {
    assert a == [a[0]] + a[1..];
  }

  /** `sortCardsByLowestValue` returns the one value-sorted permutation of its input. */
  lemma LowestValueIsTheSortedPermutation(cards: seq<Card>, r: seq<Card>)
    requires multiset(r) == multiset(cards)
    requires SortedBy(r, ValueKey)
    ensures SortByLowestValue(cards) == r
  {
    SortedPermutationUnique(SortByLowestValue(cards), r);
  }

  /** `sortCardsByGreatestValue`: the lowest-value order reversed. */
  function SortByGreatestValue(cards: seq<Card>): (r: seq<Card>)
    ensures |r| == |cards|
    ensures multiset(r) == multiset(cards)
    ensures forall i, j :: 0 <= i < j < |r| ==> ValueKey(r[i]) >= ValueKey(r[j])
    ensures Reverse(r) == SortByLowestValue(cards)
  {
    var low := SortByLowestValue(cards);
    ReverseReverse(low);
    Reverse(low)
  }

  // ---------------------------------------------------------------------
  // Scoring

  function HeartsBasePoints(r: Rank): int {
    match r
    case Seven => 1
    case Eight => 1
    case Nine => 1
    case Ten => 1
    case Jack => 2
    case Queen => 3
    case King => 4
    case Ace => 5
  }

  /**
   * `getCardPoints`: Hearts Seven..Ten score 1 and Jack..Ace 2..5, times the
   * coefficient; the black cat scores 11, or 22 when grilled; the rest 0.
   */
  function CardPoints(heartsCoefficient: int, blackCatGrilled: bool, c: Card): (p: int)
    ensures c.suit == Hearts ==>
      p == heartsCoefficient * (if RankIndex(c.rank) < 4 then 1 else RankIndex(c.rank) - 2)
    ensures c == BlackCat ==> p == (if blackCatGrilled then 22 else 11)
    ensures c.suit != Hearts && c != BlackCat ==> p == 0
  {
    match c.suit
    case Hearts => HeartsBasePoints(c.rank) * heartsCoefficient
    case Spades => if c.rank == Queen then BlackCatPoints * (if blackCatGrilled then 2 else 1) else 0
    case _ => 0
  }

  function HeartsIn(cards: seq<Card>): seq<Card> {
    Filter(cards, (c: Card) => c.suit == Hearts)
  }

  /** 2 when exactly three Hearts were grilled, 3 when exactly six, 1 otherwise. */
  function HeartsCoefficient(grilled: seq<Card>): int {
    var heartsCount := |HeartsIn(grilled)|;
    if heartsCount == 3 then 2 else if heartsCount == 6 then 3 else 1
  }

  /** `getPenaltyPoints(grilledCards)(pile)`: the points of every pile card, summed. */
  function PenaltyPoints(grilled: seq<Card>, pile: seq<Card>): int {
    var coefficient := HeartsCoefficient(grilled);
    var blackCatGrilled := BlackCat in grilled;
    Sum(Map((c: Card) => CardPoints(coefficient, blackCatGrilled, c), pile))
  }

  /** The penalty is 0 on an empty pile and additive over concatenated piles. */
  lemma PenaltyPointsAdditive(grilled: seq<Card>, a: seq<Card>, b: seq<Card>)
    ensures PenaltyPoints(grilled, []) == 0
    ensures PenaltyPoints(grilled, a + b) == PenaltyPoints(grilled, a) + PenaltyPoints(grilled, b)
  {
    var coefficient := HeartsCoefficient(grilled);
    var blackCatGrilled := BlackCat in grilled;
    var f := (c: Card) => CardPoints(coefficient, blackCatGrilled, c);
    assert Map(f, a + b) == Map(f, a) + Map(f, b);
    SumAppend(Map(f, a), Map(f, b));
    SumAppend([], []);
  }
  /** The penalty of a pile depends only on its cards, not on their order. */
  lemma {:induction false} PenaltyOfPermutation(grilled: seq<Card>, a: seq<Card>, b: seq<Card>)
    requires multiset(a) == multiset(b)
    ensures PenaltyPoints(grilled, a) == PenaltyPoints(grilled, b)
    decreases |a|
  {
    if |a| == 0 {
      assert |b| == |multiset(b)| == 0;
    } else {
      assert a[0] in multiset(b);
      var j :| 0 <= j < |b| && b[j] == a[0];
      var rest := b[..j] + b[j + 1..];
      assert a == [a[0]] + a[1..];
      assert b == b[..j] + [b[j]] + b[j + 1..];
      calc {
        multiset(a[1..]) + multiset{a[0]};
        multiset(a);
        multiset(b);
        multiset(b[..j]) + multiset{b[j]} + multiset(b[j + 1..]);
        multiset(rest) + multiset{a[0]};
      }
      assert multiset(a[1..]) == multiset(a[1..]) + multiset{a[0]} - multiset{a[0]};
      assert multiset(rest) == multiset(rest) + multiset{a[0]} - multiset{a[0]};
      PenaltyOfPermutation(grilled, a[1..], rest);
      PenaltyPointsAdditive(grilled, [a[0]], a[1..]);
      PenaltyPointsAdditive(grilled, b[..j] + [b[j]], b[j + 1..]);
      PenaltyPointsAdditive(grilled, b[..j], [b[j]]);
      PenaltyPointsAdditive(grilled, b[..j], b[j + 1..]);
    }
  }


  /** The total of eight numbers, spelled out. */
  lemma TotalOfEight(xs: seq<int>)
    requires |xs| == 8
    ensures Total(xs) == xs[0] + xs[1] + xs[2] + xs[3] + xs[4] + xs[5] + xs[6] + xs[7]
  {
    assert xs[0..][1..] == xs[1..];
    assert xs[1..][1..] == xs[2..];
    assert xs[2..][1..] == xs[3..];
    assert xs[3..][1..] == xs[4..];
    assert xs[4..][1..] == xs[5..];
    assert xs[5..][1..] == xs[6..];
    assert xs[6..][1..] == xs[7..];
    assert xs[7..][1..] == xs[8..];
    assert xs[8..] == [];
    assert Total(xs[7..]) == xs[7] + Total(xs[8..]);
    assert Total(xs[6..]) == xs[6] + Total(xs[7..]);
    assert Total(xs[5..]) == xs[5] + Total(xs[6..]);
    assert Total(xs[4..]) == xs[4] + Total(xs[5..]);
    assert Total(xs[3..]) == xs[3] + Total(xs[4..]);
    assert Total(xs[2..]) == xs[2] + Total(xs[3..]);
    assert Total(xs[1..]) == xs[1] + Total(xs[2..]);
    assert Total(xs[0..]) == xs[0] + Total(xs[1..]);
    assert xs[0..] == xs;
  }

  // ---------------------------------------------------------------------
  // The deck

  /** One suit, Seven to Ace. */
  function SuitCards(s: Suit): (r: seq<Card>)
    ensures |r| == 8
    ensures forall i :: 0 <= i < 8 ==> r[i] == Card(s, Ranks[i])
  {
    seq(8, i requires 0 <= i < 8 => Card(s, Ranks[i]))
  }

  /** The deck is the four suit blocks Spades, Hearts, Diamonds, Clubs. */
  lemma DeckBlocks()
    ensures Flatten(Map(SuitCards, Suits))
      == SuitCards(Spades) + SuitCards(Hearts) + SuitCards(Diamonds) + SuitCards(Clubs)
  {
    var blocks := Map(SuitCards, Suits);
    FlattenInOrder(blocks);
    var b1, b2, b3 := blocks[1..], blocks[2..], blocks[3..];
    assert b1[1..] == b2 && b2[1..] == b3 && b3[1..] == [];
    assert Concat(b3) == blocks[3] + Concat([]);
    assert Concat(b2) == blocks[2] + Concat(b3);
    assert Concat(b1) == blocks[1] + Concat(b2);
    assert Concat(blocks) == blocks[0] + Concat(b1);
  }

  /** Where `createDeck` places a card: suit block first, then rank. */
  function DeckPosition(c: Card): (i: nat)
    ensures i < 32
  {
    var block := match c.suit case Spades => 0 case Hearts => 1 case Diamonds => 2 case Clubs => 3;
    8 * block + RankIndex(c.rank)
  }

  /** Position `i` of the deck holds rank `i % 8` of suit block `i / 8`. */
  lemma DeckLayout()
    ensures |Flatten(Map(SuitCards, Suits))| == 32
    ensures forall i :: 0 <= i < 32 ==> Flatten(Map(SuitCards, Suits))[i] == Card(Suits[i / 8], Ranks[i % 8])
  {
    DeckBlocks();
    var d := Flatten(Map(SuitCards, Suits));
    forall i | 0 <= i < 32 ensures d[i] == Card(Suits[i / 8], Ranks[i % 8]) {
      if i < 8 { assert d[i] == SuitCards(Spades)[i]; }
      else if i < 16 { assert d[i] == SuitCards(Hearts)[i - 8]; }
      else if i < 24 { assert d[i] == SuitCards(Diamonds)[i - 16]; }
      else { assert d[i] == SuitCards(Clubs)[i - 24]; }
    }
  }

  /** Distinct positions of the layout hold distinct cards, and `DeckPosition` finds each card. */
  lemma LayoutDistinct(d: seq<Card>)
    requires |d| == 32
    requires forall i :: 0 <= i < 32 ==> d[i] == Card(Suits[i / 8], Ranks[i % 8])
    ensures NoDup(d)
    ensures forall c: Card :: d[DeckPosition(c)] == c
  {
    forall i, j | 0 <= i < j < 32 ensures d[i] != d[j] {
      if i / 8 == j / 8 {
        assert i % 8 != j % 8;
      }
    }
    forall c: Card ensures d[DeckPosition(c)] == c {
      var p := DeckPosition(c);
      assert p / 8 < 4 && p % 8 == RankIndex(c.rank);
    }
  }

  /**
   * `createDeck`: for each suit in the order Spades, Hearts, Diamonds, Clubs,
   * the eight ranks Seven..Ace; 32 distinct cards, every card once.
   */
  function CreateDeck(): (d: seq<Card>)
    ensures |d| == 32
    ensures forall i :: 0 <= i < 32 ==> d[i] == Card(Suits[i / 8], Ranks[i % 8])
    ensures forall c: Card :: d[DeckPosition(c)] == c
    ensures NoDup(d)
  {
    DeckLayout();
    LayoutDistinct(Flatten(Map(SuitCards, Suits)));
    Flatten(Map(SuitCards, Suits))
  }

  /** Every card occurs in the deck. */
  lemma DeckComplete(c: Card)
    ensures c in CreateDeck()
  {
    assert CreateDeck()[DeckPosition(c)] == c;
  }

  /** One suit's penalty: 18 times the coefficient for Hearts, the black cat's points for Spades, 0 otherwise. */
  lemma PenaltyOfSuit(grilled: seq<Card>, s: Suit)
    ensures PenaltyPoints(grilled, SuitCards(s)) ==
      if s == Hearts then 18 * HeartsCoefficient(grilled)
      else if s == Spades then (if BlackCat in grilled then 22 else 11)
      else 0
  {
    var coefficient := HeartsCoefficient(grilled);
    var blackCatGrilled := BlackCat in grilled;
    var f := (c: Card) => CardPoints(coefficient, blackCatGrilled, c);
    var xs := Map(f, SuitCards(s));
    FoldSumIsTotal(0, xs);
    TotalOfEight(xs);
    assert forall i :: 0 <= i < 8 ==> xs[i] == CardPoints(coefficient, blackCatGrilled, Card(s, Ranks[i]));
  }

  /**
   * A pile holding the whole deck scores 18 per Hearts coefficient plus 11
   * for the black cat (22 when grilled): 29, 47 or 65 without the cat
   * grilled and 40, 58 or 76 with it, for coefficients 1, 2 and 3.
   */
  lemma PenaltyOfFullDeck(grilled: seq<Card>)
    ensures PenaltyPoints(grilled, CreateDeck())
      == 18 * HeartsCoefficient(grilled) + (if BlackCat in grilled then 22 else 11)
  {
    DeckBlocks();
    var spades, hearts, diamonds, clubs := SuitCards(Spades), SuitCards(Hearts), SuitCards(Diamonds), SuitCards(Clubs);
    PenaltyPointsAdditive(grilled, spades + hearts + diamonds, clubs);
    PenaltyPointsAdditive(grilled, spades + hearts, diamonds);
    PenaltyPointsAdditive(grilled, spades, hearts);
    PenaltyOfSuit(grilled, Spades);
    PenaltyOfSuit(grilled, Hearts);
    PenaltyOfSuit(grilled, Diamonds);
    PenaltyOfSuit(grilled, Clubs);
  }

  /**
   * Grilling some Hearts, with or without the black cat before them, and
   * then taking every card: the coefficient follows the number of Hearts
   * grilled and the cat counts double when grilled.
   */
  lemma FullPileTotals(hearts: seq<Card>, catGrilled: bool)
    requires forall c :: c in hearts ==> c.suit == Hearts
    ensures var grilled := (if catGrilled then [BlackCat] else []) + hearts;
      PenaltyPoints(grilled, CreateDeck())
      == (if catGrilled then 22 else 11) + 18 * (if |hearts| == 3 then 2 else if |hearts| == 6 then 3 else 1)
  {
    var front: seq<Card> := if catGrilled then [BlackCat] else [];
    var grilled := front + hearts;
    PenaltyOfFullDeck(grilled);
    FilterAppend(front, hearts, (c: Card) => c.suit == Hearts);
    assert |HeartsIn(front)| == 0;
    assert multiset(HeartsIn(hearts)) == multiset(hearts);
    assert |HeartsIn(grilled)| == |hearts|;
    assert BlackCat in grilled <==> catGrilled;
  }

  /** The coefficient only ever takes the values 1, 2 and 3. */
  lemma HeartsCoefficientRange(grilled: seq<Card>)
    ensures HeartsCoefficient(grilled) in {1, 2, 3}
    ensures HeartsCoefficient(grilled) == 2 <==> |HeartsIn(grilled)| == 3
    ensures HeartsCoefficient(grilled) == 3 <==> |HeartsIn(grilled)| == 6
  {
  }

  // ---------------------------------------------------------------------
  // Tricks

  predicate OfSuit(suit: Suit, c: Card) { c.suit == suit }

  /** No card of `suit` among `cards`. */
  predicate NoneOfSuit(cards: seq<Card>, suit: Suit) {
    forall c :: c in cards ==> c.suit != suit
  }

  /**
   * `getHighestCardOnTable`: among the cards of the first card's suit, the
   * highest by rank. The program dereferences the first card, so an empty
   * table is outside its domain.
   */
  function HighestCardOnTable(table: seq<Card>): (c: Card)
    requires |table| > 0
    ensures c in table && c.suit == table[0].suit
    ensures forall x :: x in table && x.suit == table[0].suit ==> RankIndex(x.rank) <= RankIndex(c.rank)
  {
    var firstCard := table[0];
    var ofSuit := Filter(table, (x: Card) => OfSuit(firstCard.suit, x));
    assert multiset(ofSuit)[firstCard] == multiset(table)[firstCard] > 0;
    var sorted := SortBy(ofSuit, RankKey);
    assert sorted[|sorted| - 1] in multiset(ofSuit);
    assert forall x :: x in table && x.suit == firstCard.suit ==> RankIndex(x.rank) <= RankIndex(sorted[|sorted| - 1].rank) by {
      forall x | x in table && x.suit == firstCard.suit
        ensures RankIndex(x.rank) <= RankIndex(sorted[|sorted| - 1].rank)
      {
        assert x in multiset(sorted);
        var k :| 0 <= k < |sorted| && sorted[k] == x;
        if k < |sorted| - 1 {
          assert RankKey(sorted[k]) <= RankKey(sorted[|sorted| - 1]);
        }
      }
    }
    Last(sorted).value
  }

  /** The highest card is the one card of the lead suit that no other card of that suit outranks. */
  lemma HighestCardCharacterised(table: seq<Card>, x: Card)
    requires x in table && x.suit == table[0].suit
    requires forall y :: y in table && y.suit == x.suit ==> RankIndex(y.rank) <= RankIndex(x.rank)
    ensures HighestCardOnTable(table) == x
  {
    var c := HighestCardOnTable(table);
    IndicesInjective(c, x);
  }

  /** The table from the cards module's example: Clubs Ten, Jack, Nine, Ace is won by the Clubs Ace. */
  lemma HighestCardExample(table: seq<Card>)
    requires table == [Card(Clubs, Ten), Card(Clubs, Jack), Card(Clubs, Nine), Card(Clubs, Ace)]
    ensures HighestCardOnTable(table) == Card(Clubs, Ace)
  {
    HighestCardCharacterised(table, Card(Clubs, Ace));
  }

  // ---------------------------------------------------------------------
  // The bot's card choice

  /** `c` is a lowest-valued card of `m`. */
  ghost predicate IsLeast(c: Card, m: multiset<Card>) {
    c in m && forall x :: x in m ==> ValueKey(c) <= ValueKey(x)
  }

  /** `c` is a highest-valued card of `m`. */
  ghost predicate IsGreatest(c: Card, m: multiset<Card>) {
    c in m && forall x :: x in m ==> ValueKey(x) <= ValueKey(c)
  }

  /** The head of the lowest-value sort is the least card. */
  lemma LowestSortHead(cards: seq<Card>)
    requires |cards| > 0
    ensures IsLeast(SortByLowestValue(cards)[0], multiset(cards))
  {
    var sorted := SortByLowestValue(cards);
    forall x | x in multiset(cards) ensures ValueKey(sorted[0]) <= ValueKey(x) {
      assert x in multiset(sorted);
      SortedHeadIsLeast(sorted, x);
    }
  }

  /** The head of the greatest-value sort is the greatest card. */
  lemma GreatestSortHead(cards: seq<Card>)
    requires |cards| > 0
    ensures IsGreatest(SortByGreatestValue(cards)[0], multiset(cards))
  {
    var sorted := SortByGreatestValue(cards);
    assert forall k :: 0 <= k < |sorted| ==> ValueKey(sorted[k]) <= ValueKey(sorted[0]);
    assert forall x :: x in multiset(cards) ==> x in sorted;
  }

  /** Only one card can be least (or greatest) in a collection. */
  lemma ExtremesUnique(c: Card, d: Card, m: multiset<Card>)
    ensures IsLeast(c, m) && IsLeast(d, m) ==> c == d
    ensures IsGreatest(c, m) && IsGreatest(d, m) ==> c == d
  {
    ValueKeyInjective(c, d);
  }

  /** After the least card of a value-sorted list, the next one is least among the rest. */
  lemma SecondLowest(sorted: seq<Card>)
    requires SortedBy(sorted, ValueKey) && |sorted| > 1
    ensures IsLeast(sorted[1], multiset(sorted) - multiset{sorted[0]})
  {
    assert sorted == [sorted[0]] + sorted[1..];
    assert multiset(sorted[1..]) == multiset(sorted) - multiset{sorted[0]};
    SortedTail(sorted, ValueKey);
    forall x | x in multiset(sorted[1..]) ensures ValueKey(sorted[1..][0]) <= ValueKey(x) {
      SortedHeadIsLeast(sorted[1..], x);
    }
  }

  /**
   * What `bestCardToPlay` yields: a card to play, the program's `undefined`
   * (no card), or the `TypeError` it throws when it leads from no cards at
   * all, where `cardNotEqual(lowestCard)` reads a property of `undefined`.
   */
  datatype Choice = Plays(card: Card) | Undefined | Crashes {

    /** The card as a message carries it: `undefined` for no card. */
    function AsOption(): Option<Card> {
      if Plays? then Some(card) else None
    }
  }

  /** Leading a trick: the lowest card, or the second lowest when the lowest is the black cat. */
  function LeadCard(playable: seq<Card>): (r: Choice)
    ensures r.Plays? ==> r.card in playable
    ensures r.Crashes? <==> |playable| == 0
    ensures r.Undefined? <==> playable == [BlackCat]
    ensures forall c :: IsLeast(c, multiset(playable)) && c != BlackCat ==> r == Plays(c)
    ensures IsLeast(BlackCat, multiset(playable)) && |playable| > 1 ==>
      r.Plays? && IsLeast(r.card, multiset(playable) - multiset{BlackCat})
  {
    var sorted := SortByLowestValue(playable);
    if |sorted| == 0 then Crashes
    else
      LowestSortHead(playable);
      assert forall c :: IsLeast(c, multiset(playable)) ==> c == sorted[0] by {
        forall c | IsLeast(c, multiset(playable)) ensures c == sorted[0] {
          ExtremesUnique(c, sorted[0], multiset(playable));
        }
      }
      if sorted[0] != BlackCat then Plays(sorted[0])
      else if |sorted| > 1 then
        assert sorted[1] in multiset(playable);
        SecondLowest(sorted);
        Plays(sorted[1])
      else
        assert playable[0] in multiset(sorted);
        assert playable == [BlackCat];
        Undefined
  }

  /** Unable to follow suit: the black cat when the lead is not Spades, else the highest card. */
  function DiscardCard(playable: seq<Card>, tableSuit: Suit): (r: Option<Card>)
    ensures r.Some? ==> r.value in playable
    ensures r.None? <==> |playable| == 0
    ensures tableSuit != Spades && BlackCat in playable ==> r == Some(BlackCat)
    ensures !(tableSuit != Spades && BlackCat in playable) && |playable| > 0 ==>
      r.Some? && IsGreatest(r.value, multiset(playable))
  {
    var holdsBlackCat := Find(playable, (c: Card) => c == BlackCat).Some?;
    assert holdsBlackCat <==> BlackCat in playable;
    if tableSuit != Spades && holdsBlackCat then
      Some(BlackCat)
    else
      var sorted := SortByGreatestValue(playable);
      if |sorted| > 0 then
        assert sorted[0] in multiset(playable);
        GreatestSortHead(playable);
        First(sorted)
      else First(sorted)
  }

  /** The descending sort of one suit puts higher ranks first. */
  lemma DescendingOneSuit(sorted: seq<Card>, suit: Suit, i: int, j: int)
    requires forall a, b :: 0 <= a < b < |sorted| ==> ValueKey(sorted[a]) >= ValueKey(sorted[b])
    requires forall c :: c in sorted ==> c.suit == suit
    requires 0 <= i <= j < |sorted|
    ensures RankIndex(sorted[j].rank) <= RankIndex(sorted[i].rank)
  {
    if i < j {
      assert sorted[i] in sorted && sorted[j] in sorted;
    }
  }

  /** The last card of the descending sort of one suit has the lowest rank. */
  lemma LastOfDescendingIsLowest(sorted: seq<Card>, suit: Suit)
    requires forall a, b :: 0 <= a < b < |sorted| ==> ValueKey(sorted[a]) >= ValueKey(sorted[b])
    requires forall c :: c in sorted ==> c.suit == suit
    requires |sorted| > 0
    ensures forall x :: x in sorted ==> RankIndex(sorted[|sorted| - 1].rank) <= RankIndex(x.rank)
  {
    forall x | x in sorted ensures RankIndex(sorted[|sorted| - 1].rank) <= RankIndex(x.rank) {
      var i :| 0 <= i < |sorted| && sorted[i] == x;
      DescendingOneSuit(sorted, suit, i, |sorted| - 1);
    }
  }

  /** What `find` returns on the descending sort: the highest card ranking below `top`. */
  lemma FindHighestBelow(sorted: seq<Card>, suit: Suit, below: Card -> bool, top: int, r: Option<Card>)
    requires forall a, b :: 0 <= a < b < |sorted| ==> ValueKey(sorted[a]) >= ValueKey(sorted[b])
    requires forall c :: c in sorted ==> c.suit == suit
    requires forall c :: below(c) <==> RankIndex(c.rank) < top
    requires r == Find(sorted, below)
    ensures r.Some? <==> exists x :: x in sorted && RankIndex(x.rank) < top
    ensures r.Some? ==> r.value in sorted && RankIndex(r.value.rank) < top
    ensures r.Some? ==> forall x :: x in sorted && RankIndex(x.rank) < top ==> RankIndex(x.rank) <= RankIndex(r.value.rank)
  {
    if r.Some? {
      var k :| 0 <= k < |sorted| && sorted[k] == r.value && below(r.value)
        && forall i :: 0 <= i < k ==> !below(sorted[i]);
      forall x | x in sorted && RankIndex(x.rank) < top ensures RankIndex(x.rank) <= RankIndex(r.value.rank) {
        var i :| 0 <= i < |sorted| && sorted[i] == x;
        assert below(sorted[i]);
        DescendingOneSuit(sorted, suit, k, i);
      }
    } else {
      forall x | x in sorted ensures RankIndex(x.rank) >= top {
        var i :| 0 <= i < |sorted| && sorted[i] == x;
        assert !below(sorted[i]);
      }
    }
  }

  /**
   * Following suit: the highest card of the suit ranking below the table's
   * greatest card, or, when there is none, the lowest card of the suit.
   */
  function FollowCard(ofSuit: seq<Card>, greatestOnTable: Card): (r: Card)
    requires |ofSuit| > 0
    requires forall c :: c in ofSuit ==> c.suit == greatestOnTable.suit
    ensures r in ofSuit
    ensures RankIndex(r.rank) < RankIndex(greatestOnTable.rank)
      <==> exists x :: x in ofSuit && RankIndex(x.rank) < RankIndex(greatestOnTable.rank)
    ensures RankIndex(r.rank) < RankIndex(greatestOnTable.rank) ==>
      forall x :: x in ofSuit && RankIndex(x.rank) < RankIndex(greatestOnTable.rank) ==>
        RankIndex(x.rank) <= RankIndex(r.rank)
    ensures RankIndex(r.rank) >= RankIndex(greatestOnTable.rank) ==>
      forall x :: x in ofSuit ==> RankIndex(r.rank) <= RankIndex(x.rank)
  {
    var sorted := SortByGreatestValue(ofSuit);
    var lowerCard := Find(sorted, RanksBelow(greatestOnTable));
    var r := if lowerCard.Some? then lowerCard.value else First(Reverse(sorted)).value;
    FollowChoice(ofSuit, greatestOnTable, sorted, lowerCard, r);
    r
  }

  /** Whether a card ranks below `top` (`compareByRank(card, top) === -1`). */
  function RanksBelow(top: Card): Card -> bool {
    (c: Card) => CompareByRank(c, top) == -1
  }

  /** Why the follow choice is the highest card below the top, or else the lowest card. */
  lemma FollowChoice(ofSuit: seq<Card>, greatestOnTable: Card, sorted: seq<Card>, lowerCard: Option<Card>, r: Card)
    requires |ofSuit| > 0
    requires forall c :: c in ofSuit ==> c.suit == greatestOnTable.suit
    requires sorted == SortByGreatestValue(ofSuit)
    requires lowerCard == Find(sorted, RanksBelow(greatestOnTable))
    requires r == if lowerCard.Some? then lowerCard.value else First(Reverse(sorted)).value
    ensures r in ofSuit
    ensures RankIndex(r.rank) < RankIndex(greatestOnTable.rank)
      <==> exists x :: x in ofSuit && RankIndex(x.rank) < RankIndex(greatestOnTable.rank)
    ensures RankIndex(r.rank) < RankIndex(greatestOnTable.rank) ==>
      forall x :: x in ofSuit && RankIndex(x.rank) < RankIndex(greatestOnTable.rank) ==>
        RankIndex(x.rank) <= RankIndex(r.rank)
    ensures RankIndex(r.rank) >= RankIndex(greatestOnTable.rank) ==>
      forall x :: x in ofSuit ==> RankIndex(r.rank) <= RankIndex(x.rank)
  {
    var top := RankIndex(greatestOnTable.rank);
    assert forall c :: c in sorted <==> c in ofSuit by {
      forall c ensures c in sorted <==> c in ofSuit {
        assert c in sorted <==> c in multiset(sorted);
      }
    }
    FindHighestBelow(sorted, greatestOnTable.suit, RanksBelow(greatestOnTable), top, lowerCard);
    if lowerCard.None? {
      assert Reverse(sorted)[0] == sorted[|sorted| - 1];
      LastOfDescendingIsLowest(sorted, greatestOnTable.suit);
    }
  }

  /** The cards of `suit` among `cards`, in order. */
  function CardsOfSuit(cards: seq<Card>, suit: Suit): (r: seq<Card>)
    ensures forall c :: c in r <==> c in cards && c.suit == suit
    ensures |r| == 0 <==> NoneOfSuit(cards, suit)
  {
    var r := Filter(cards, (c: Card) => OfSuit(suit, c));
    assert forall c :: c in r <==> c in cards && c.suit == suit by {
      forall c ensures c in r <==> c in cards && c.suit == suit {
        assert c in r <==> c in multiset(r);
        assert c in cards <==> c in multiset(cards);
      }
    }
    if |r| > 0 then assert r[0] in r; r else r
  }

  /** The first of the table's lead-suit cards sorted by greatest value: the trick's current top card. */
  function GreatestOnTable(table: seq<Card>): (g: Card)
    requires |table| > 0
    ensures g in table && g.suit == table[0].suit
    ensures RankIndex(g.rank) == RankIndex(HighestCardOnTable(table).rank)
  {
    var tableOfSuit := CardsOfSuit(table, table[0].suit);
    assert table[0] in tableOfSuit;
    GreatestSortHead(tableOfSuit);
    var g := SortByGreatestValue(tableOfSuit)[0];
    var h := HighestCardOnTable(table);
    assert h in multiset(tableOfSuit);
    g
  }

  /**
   * `bestCardToPlay`: the bot's choice among its hand and its grilled cards.
   * It yields `undefined` when void with nothing to discard, or when leading
   * with a lone black cat; it throws when leading with no cards.
   */
  function BestCardToPlay(hand: seq<Card>, grill: seq<Card>, table: seq<Card>): (r: Choice)
    ensures r.Plays? ==> r.card in hand + grill
    ensures r.Plays? && |table| > 0 ==>
      r.card.suit == table[0].suit || NoneOfSuit(hand + grill, table[0].suit)
    ensures r.Crashes? <==> |table| == 0 && |hand + grill| == 0
    ensures r.Undefined? <==>
      (|table| > 0 && |hand + grill| == 0) || (|table| == 0 && hand + grill == [BlackCat])
  {
    var playable := hand + grill;
    if |table| == 0 then LeadCard(playable)
    else
      var tableSuit := table[0].suit;
      var ofSuit := CardsOfSuit(playable, tableSuit);
      if |ofSuit| == 0 then
        match DiscardCard(playable, tableSuit)
        case Some(c) => Plays(c)
        case None => Undefined
      else
        var greatestOnTable := GreatestOnTable(table);
        assert forall c :: c in ofSuit ==> c.suit == greatestOnTable.suit;
        var card := FollowCard(ofSuit, greatestOnTable);
        Plays(card)
  }

  /** Leading: the lowest card; if that is the black cat, the lowest of the others. */
  lemma BestCardWhenLeading(hand: seq<Card>, grill: seq<Card>)
    ensures forall c :: IsLeast(c, multiset(hand + grill)) && c != BlackCat ==>
      BestCardToPlay(hand, grill, []) == Plays(c)
    ensures IsLeast(BlackCat, multiset(hand + grill)) && |hand + grill| > 1 ==>
      BestCardToPlay(hand, grill, []).Plays?
      && IsLeast(BestCardToPlay(hand, grill, []).card, multiset(hand + grill) - multiset{BlackCat})
  {
  }

  /**
   * Void in the lead suit: the black cat when it is held and the lead is
   * not Spades, otherwise the highest-valued card held.
   */
  lemma BestCardWhenVoid(hand: seq<Card>, grill: seq<Card>, table: seq<Card>)
    requires |table| > 0 && NoneOfSuit(hand + grill, table[0].suit)
    ensures table[0].suit != Spades && BlackCat in hand + grill ==>
      BestCardToPlay(hand, grill, table) == Plays(BlackCat)
    ensures !(table[0].suit != Spades && BlackCat in hand + grill) && |hand + grill| > 0 ==>
      BestCardToPlay(hand, grill, table).Plays?
      && IsGreatest(BestCardToPlay(hand, grill, table).card, multiset(hand + grill))
  {
  }

  /** A card of the lead suit that ranks below the trick's current top card. */
  ghost predicate Undercuts(c: Card, table: seq<Card>)
    requires |table| > 0
  {
    c.suit == table[0].suit && RankIndex(c.rank) < RankIndex(HighestCardOnTable(table).rank)
  }

  /**
   * Following suit: the highest card that stays under the top card when
   * there is one, otherwise the lowest card of the suit.
   */
  lemma BestCardWhenFollowing(hand: seq<Card>, grill: seq<Card>, table: seq<Card>)
    requires |table| > 0 && !NoneOfSuit(hand + grill, table[0].suit)
    ensures BestCardToPlay(hand, grill, table).Plays?
    ensures BestCardToPlay(hand, grill, table).card.suit == table[0].suit
    ensures (exists x :: x in hand + grill && Undercuts(x, table)) ==>
      Undercuts(BestCardToPlay(hand, grill, table).card, table)
      && forall x :: x in hand + grill && Undercuts(x, table) ==>
        RankIndex(x.rank) <= RankIndex(BestCardToPlay(hand, grill, table).card.rank)
    ensures (forall x :: x in hand + grill ==> !Undercuts(x, table)) ==>
      forall x :: x in hand + grill && x.suit == table[0].suit ==>
        RankIndex(BestCardToPlay(hand, grill, table).card.rank) <= RankIndex(x.rank)
  {
    var playable := hand + grill;
    var ofSuit := CardsOfSuit(playable, table[0].suit);
    var g := GreatestOnTable(table);
    assert BestCardToPlay(hand, grill, table) == Plays(FollowCard(ofSuit, g));
  }

  /** When following suit, the card the bot plays is determined by its ranks: no other choice fits. */
  lemma FollowChoiceDetermined(hand: seq<Card>, grill: seq<Card>, table: seq<Card>, x: Card)
    requires |table| > 0 && x in hand + grill && Undercuts(x, table)
    requires forall y :: y in hand + grill && Undercuts(y, table) ==> RankIndex(y.rank) <= RankIndex(x.rank)
    ensures BestCardToPlay(hand, grill, table) == Plays(x)
  {
    BestCardWhenFollowing(hand, grill, table);
    IndicesInjective(x, BestCardToPlay(hand, grill, table).card);
  }

  /** When void in the lead suit without a black cat to shed, the bot plays its greatest card. */
  lemma VoidChoiceDetermined(hand: seq<Card>, grill: seq<Card>, table: seq<Card>, x: Card)
    requires |table| > 0 && NoneOfSuit(hand + grill, table[0].suit)
    requires table[0].suit == Spades || BlackCat !in hand + grill
    requires IsGreatest(x, multiset(hand + grill))
    ensures BestCardToPlay(hand, grill, table) == Plays(x)
  {
    BestCardWhenVoid(hand, grill, table);
    ExtremesUnique(x, BestCardToPlay(hand, grill, table).card, multiset(hand + grill));
  }

  /**
   * Leading with the black cat lowest, the bot plays the least of its other
   * cards; `playable` names the hand and grill together.
   */
  lemma LeadPastBlackCatDetermined(hand: seq<Card>, grill: seq<Card>, playable: seq<Card>, x: Card)
    requires playable == hand + grill
    requires IsLeast(BlackCat, multiset(playable)) && |playable| > 1
    requires IsLeast(x, multiset(playable) - multiset{BlackCat})
    ensures BestCardToPlay(hand, grill, []) == Plays(x)
  {
    var r := LeadCard(playable);
    ExtremesUnique(r.card, x, multiset(playable) - multiset{BlackCat});
  }

  /** Following Spades under the Spades Nine with the Spades Eight and Queen: the Eight. */
  lemma BestCardFollowExample(hand: seq<Card>, table: seq<Card>)
    requires hand == [Card(Clubs, Seven), Card(Spades, Eight), Card(Hearts, Jack), Card(Spades, Queen)]
    requires table == [Card(Spades, Nine), Card(Hearts, King), Card(Spades, Eight)]
    ensures BestCardToPlay(hand, [], table) == Plays(Card(Spades, Eight))
  {
    assert hand + [] == hand;
    HighestCardCharacterised(table, Card(Spades, Nine));
    FollowChoiceDetermined(hand, [], table, Card(Spades, Eight));
  }

  /** Void in Spades and no black cat: the highest card, the Diamonds Ace. */
  lemma BestCardVoidExample(hand: seq<Card>, table: seq<Card>)
    requires hand == [Card(Clubs, Seven), Card(Diamonds, Ace), Card(Hearts, Jack), Card(Hearts, King)]
    requires table == [Card(Spades, Nine), Card(Hearts, King), Card(Spades, Eight)]
    ensures BestCardToPlay(hand, [], table) == Plays(Card(Diamonds, Ace))
  {
    assert hand + [] == hand;
    VoidChoiceDetermined(hand, [], table, Card(Diamonds, Ace));
  }

  /** Void in Clubs while holding the black cat: the black cat. */
  lemma BestCardBlackCatExample(hand: seq<Card>, table: seq<Card>)
    requires hand == [Card(Spades, Ace), Card(Diamonds, Ace), Card(Spades, Queen), Card(Hearts, King)]
    requires table == [Card(Clubs, Nine), Card(Hearts, King), Card(Spades, Eight)]
    ensures BestCardToPlay(hand, [], table) == Plays(BlackCat)
  {
    assert hand + [] == hand;
    assert hand[2] == BlackCat;
    BestCardWhenVoid(hand, [], table);
  }

  /** A list element whose value is at most every element's is the least of the list. */
  lemma LeastOfList(x: Card, s: seq<Card>, k: nat)
    requires k < |s| && s[k] == x && forall i :: 0 <= i < |s| ==> ValueKey(x) <= ValueKey(s[i])
    ensures IsLeast(x, multiset(s))
  {
    forall y | y in multiset(s) ensures ValueKey(x) <= ValueKey(y) {
      var i :| 0 <= i < |s| && s[i] == y;
    }
  }

  /** Taking one occurrence of an element out of a list's multiset leaves the rest of the list. */
  lemma WithoutAt(s: seq<Card>, i: nat)
    requires i < |s|
    ensures multiset(s) - multiset{s[i]} == multiset(s[..i] + s[i + 1..])
  {
    assert s == s[..i] + [s[i]] + s[i + 1..];
  }

  /** Leading with the Clubs Seven as the lowest card. */
  lemma BestCardLeadExample(hand: seq<Card>)
    requires hand == [Card(Clubs, Seven), Card(Spades, Eight), Card(Hearts, Jack), Card(Spades, Queen)]
      || hand == [Card(Clubs, Seven), Card(Diamonds, Ace), Card(Hearts, Jack), Card(Hearts, King)]
    ensures BestCardToPlay(hand, [], []) == Plays(Card(Clubs, Seven))
  {
    assert hand + [] == hand;
    assert hand[0] == Card(Clubs, Seven);
    LeastOfList(Card(Clubs, Seven), hand, 0);
    BestCardWhenLeading(hand, []);
  }

  /** Leading when the black cat is the lowest card: the next lowest, the Hearts King. */
  lemma BestCardLeadPastBlackCatExample(hand: seq<Card>)
    requires hand == [Card(Spades, Ace), Card(Diamonds, Ace), Card(Spades, Queen), Card(Hearts, King)]
    ensures BestCardToPlay(hand, [], []) == Plays(Card(Hearts, King))
  {
    var others := [Card(Spades, Ace), Card(Diamonds, Ace), Card(Hearts, King)];
    BlackCatHandRest(hand, others);
    LeastOfList(BlackCat, hand, 2);
    LeastOfList(Card(Hearts, King), others, 2);
    LeadPastBlackCatDetermined(hand, [], hand, Card(Hearts, King));
  }

  /** The example hand without its black cat. */
  lemma BlackCatHandRest(hand: seq<Card>, others: seq<Card>)
    requires hand == [Card(Spades, Ace), Card(Diamonds, Ace), Card(Spades, Queen), Card(Hearts, King)]
    requires others == [Card(Spades, Ace), Card(Diamonds, Ace), Card(Hearts, King)]
    ensures multiset(hand) - multiset{BlackCat} == multiset(others)
  {
    WithoutAt(hand, 2);
    assert hand[..2] + hand[3..] == others;
  }
}

=== FILE: connection_handlers.dfy ===
/**
 * The connection handlers (src/logic/messageHandlers/connection.ts):
 * registering a name, creating, joining and leaving rooms, and
 * disconnecting, each as a function from the state before the message to
 * a `Step` whose replies are what the acting client is sent. Whether a
 * room still seats a real player, and the bot nickname pick, are
 * parameters.
 */
module ConnectionHandlers {
  import opened Wrappers
  import opened Seqs
  import opened ArrayPolyfill
  import opened Entities
  import opened StateMessages
  import LM = LogicMessages
  import SV = ServerMessages
  import opened PlayersReducer
  import opened RoomsReducer
  import opened GamesReducer
  import opened Store
  import opened Queries
  import opened Steps
  import opened RoomHandlers

  // ---------------------------------------------------------------------
  // Registering

  /**
   * `onRegister`: a player without a name takes a free name of at most
   * 100 UTF-16 code units and is told so together with the list of rooms;
   * otherwise the player is told the name is taken.
   */
  function Register(s: State, player: Player, name: Name): (r: Step)
    ensures !r.crashed && r.fired.None? && |r.replies| >= 1
    ensures r.replies[0] == SV.Registered(name) <==> PlayerCanRegister(s, player, name)
    ensures !PlayerCanRegister(s, player, name) ==> r.state == s
  {
    if PlayerCanRegister(s, player, name) then
      var s1 := Apply(s, PlayerChangeName(player, name));
      Step(s1, None, [SV.Registered(name), SV.AvailableRooms(RoomsAvailability(s1))], false)
    else Step(s, None, [SV.NameTaken], false)
  }

  /**
   * Registering the record found by its id renames exactly the records
   * with that id, leaves rooms and games alone, and replies `REGISTERED`
   * and the room list; a refused name changes nothing and replies
   * `NAME_TAKEN`.
   */
  lemma RegisterEffect(s: State, player: Player, name: Name)
    requires FindPlayerById(s, player.id) == Some(player)
    ensures var r := Register(s, player, name);
      !r.crashed && r.fired.None?
      && (PlayerCanRegister(s, player, name) ==>
        r.state.rooms == s.rooms && r.state.games == s.games && |r.state.players| == |s.players|
        && (forall i :: 0 <= i < |s.players| ==>
          r.state.players[i] == (if s.players[i].id == player.id then s.players[i].(name := Some(name)) else s.players[i]))
        && r.replies == [SV.Registered(name), SV.AvailableRooms(RoomsAvailability(s))])
      && (!PlayerCanRegister(s, player, name) ==> r.state == s && r.replies == [SV.NameTaken])
  {
    if PlayerCanRegister(s, player, name) {
      NamelessRename(s, player, name);
    }
  }

  /** Renaming a record without a (truthy) name renames exactly the records of its id, and no room or game. */
  lemma NamelessRename(s: State, player: Player, name: Name)
    requires FindPlayerById(s, player.id) == Some(player) && !TruthyName(player.name)
    ensures var t := Apply(s, PlayerChangeName(player, name));
      t.rooms == s.rooms && t.games == s.games && |t.players| == |s.players|
      && forall i :: 0 <= i < |s.players| ==>
        t.players[i] == (if s.players[i].id == player.id then s.players[i].(name := Some(name)) else s.players[i])
  {
    NamelessRenameKeepsRooms(s, player, name);
  }

  /** Renaming a record that has no (truthy) name touches no room, since no seat holds it. */
  lemma NamelessRenameKeepsRooms(s: State, player: Player, name: Name)
    requires FindPlayerById(s, player.id) == Some(player) && !TruthyName(player.name)
    ensures ReduceRooms(s, PlayerChangeName(player, name)) == s.rooms
  {
    var m := PlayerChangeName(player, name);
    assert PlayerRoom(s, player.id) == RoomOfName(s, player.name);
    assert ChangeRoom(s, m).None?;
    forall j | 0 <= j < |s.rooms| ensures ReduceRooms(s, m)[j] == s.rooms[j] {
      assert !TargetsRoom(m, ChangeRoom(s, m), s.rooms[j]);
    }
  }

  /** Once a name is registered, nobody else can register it. */
  lemma RegisteredNameIsTaken(s: State, player: Player, other: Player, name: Name)
    requires FindPlayerById(s, player.id) == Some(player) && PlayerCanRegister(s, player, name)
    ensures var t := Register(s, player, name).state;
      Register(t, other, name) == Step(t, None, [SV.NameTaken], false)
  {
    RegisterEffect(s, player, name);
    var t := Register(s, player, name).state;
    var k :| 0 <= k < |s.players| && s.players[k] == player;
    assert t.players[k].name == Some(name);
  }

  // ---------------------------------------------------------------------
  // Creating and joining rooms

  /**
   * `onCreateRoom`: a player in no room creates a room of a fresh name of
   * at most 100 UTF-16 code units, while fewer than four rooms exist, sitting in
   * its only seat; the player is told so and sent the room list. Otherwise
   * the player is told the room name is taken.
   */
  function OpenRoom(s: State, player: Player, name: Name): (r: Step)
    requires player.name.Some?
    ensures !r.crashed && r.fired.None? && |r.replies| >= 1
    ensures r.replies[0] == SV.RoomCreated(name) <==> PlayerCanCreateRoom(s, name, player)
    ensures !PlayerCanCreateRoom(s, name, player) ==> r.state == s
  {
    if PlayerCanCreateRoom(s, name, player) then
      var s1 := Apply(s, AddRoom(CreateRoom(name, player.name.value)));
      Step(s1, None, [SV.RoomCreated(name), SV.AvailableRooms(RoomsAvailability(s1))], false)
    else Step(s, None, [SV.RoomNameTaken], false)
  }

  /**
   * An accepted room is appended with the creator seated, becomes the
   * room found by that name, and is listed as available; a refused one
   * changes nothing and replies `ROOM_NAME_TAKEN`.
   */
  lemma OpenRoomEffect(s: State, player: Player, name: Name)
    requires player.name.Some?
    ensures var r := OpenRoom(s, player, name);
      var room := CreateRoom(name, player.name.value);
      !r.crashed && r.fired.None?
      && (PlayerCanCreateRoom(s, name, player) ==>
        r.state.rooms == s.rooms + [room] && r.state.players == s.players && r.state.games == s.games
        && FindRoom(r.state, Some(name)) == Some(room)
        && r.replies == [SV.RoomCreated(name), SV.AvailableRooms(RoomsAvailability(s) + [SV.RoomAvailability(name, true)])])
      && (!PlayerCanCreateRoom(s, name, player) ==> r.state == s && r.replies == [SV.RoomNameTaken])
  {
    if PlayerCanCreateRoom(s, name, player) {
      var room := CreateRoom(name, player.name.value);
      var t := Apply(s, AddRoom(room));
      assert OpenRoom(s, player, name) == Step(t, None, [SV.RoomCreated(name), SV.AvailableRooms(RoomsAvailability(t))], false);
      assert t.rooms == s.rooms + [room] && t.players == s.players && t.games == s.games;
      CanCreateRoomMeans(s, name, player);
      FoundAtFirst(t, name, |s.rooms|);
      AppendedRoomListed(s, t, room);
    }
  }

  /** A room appended to the list is listed last, as available when it has a free seat. */
  lemma AppendedRoomListed(s: State, t: State, room: Room)
    requires t.rooms == s.rooms + [room]
    ensures RoomsAvailability(t) == RoomsAvailability(s) + [SV.RoomAvailability(room.name, |room.players| < 4)]
  {
  }

  /** Once a room is created, its name is taken for everyone. */
  lemma CreatedRoomNameIsTaken(s: State, player: Player, other: Player, name: Name)
    requires player.name.Some? && other.name.Some? && PlayerCanCreateRoom(s, name, player)
    ensures var t := OpenRoom(s, player, name).state;
      OpenRoom(t, other, name) == Step(t, None, [SV.RoomNameTaken], false)
  {
    OpenRoomEffect(s, player, name);
  }

  /**
   * The creator's record, found by its id and carrying a non-empty name,
   * sits in the new room afterwards.
   */
  lemma CreatorSitsInRoom(s: State, player: Player, name: Name)
    requires player.name.Some? && player.name.value != "" && FindPlayerById(s, player.id) == Some(player)
    requires PlayerCanCreateRoom(s, name, player)
    ensures PlayerRoom(OpenRoom(s, player, name).state, player.id) == Some(CreateRoom(name, player.name.value))
  {
    var room := CreateRoom(name, player.name.value);
    var t := Apply(s, AddRoom(room));
    assert OpenRoom(s, player, name).state == t;
    assert t.rooms == s.rooms + [room] && t.players == s.players;
    assert FindPlayerById(t, player.id) == Some(player);
    assert RoomOfName(s, player.name).None?;
    SeatedInAppendedRoom(s, t, room, player.name.value);
  }

  /** A name no room seats, once seated in a room appended last, is found in that room. */
  lemma SeatedInAppendedRoom(s: State, t: State, room: Room, name: Name)
    requires t.rooms == s.rooms + [room] && name != "" && name in room.players
    requires RoomOfName(s, Some(name)).None?
    ensures RoomOfName(t, Some(name)) == Some(room)
  {
    assert t.rooms[|s.rooms|] == room;
    assert forall x :: x in t.rooms && name in x.players ==> x == room;
  }

  /**
   * `onJoinRoom`: a player in no game, whose name no seat of the room
   * holds, joins an existing room with a free seat: the name is seated
   * last, the player is sent the room's seats and the room list, and the
   * room is told someone joined. Otherwise nothing happens.
   */
  function EnterRoom(s: State, player: Player, name: Name): (r: Step)
    requires player.name.Some?
    ensures r.fired.Some? ==> r.fired == Some(LM.PlayerJoinedRoom(name)) && PlayerCanJoinRoom(s, name, player)
    ensures !PlayerCanJoinRoom(s, name, player) ==> r.state == s && r.replies == [] && !r.crashed && r.fired.None?
  {
    if !PlayerCanJoinRoom(s, name, player) then Step(s, None, [], false)
    else
      var s1 := Apply(s, AddPlayerToRoom(player.name.value, name));
      match FindRoom(s1, Some(name))
      case None => Crash(s1)
      case Some(room) =>
        Step(s1, Some(LM.PlayerJoinedRoom(name)),
          [SV.RoomJoined(name, room.players), SV.AvailableRooms(RoomsAvailability(s1))], false)
  }

  /** `STATE_ADD_PLAYER_TO_ROOM` seats the name in every room so named and changes nothing else. */
  lemma PlayerSeated(s: State, name: Name, roomName: Name)
    ensures var t := Apply(s, AddPlayerToRoom(name, roomName));
      t.players == s.players && t.games == s.games && |t.rooms| == |s.rooms|
      && forall i :: 0 <= i < |s.rooms| ==>
        t.rooms[i] == (if s.rooms[i].name == roomName then SeatAdded(s.rooms[i], name) else s.rooms[i])
  {
    forall i | 0 <= i < |s.rooms| {
      AddPlayerSeatsLast(s, name, roomName, i);
    }
  }

  /**
   * A refused join changes nothing and sends nothing. An accepted one
   * never throws: the room found by that name gains the player's seat
   * last, the reply lists its seats, and `LOGIC_PLAYER_JOINED_ROOM` names
   * it.
   */
  lemma EnterRoomEffect(s: State, player: Player, name: Name)
    requires player.name.Some?
    ensures var r := EnterRoom(s, player, name);
      (!PlayerCanJoinRoom(s, name, player) ==> r == Step(s, None, [], false))
      && (PlayerCanJoinRoom(s, name, player) ==>
        var room := FindRoom(s, Some(name)).value;
        var joined := SeatAdded(room, player.name.value);
        !r.crashed && r.fired == Some(LM.PlayerJoinedRoom(name))
        && r.state.players == s.players && r.state.games == s.games
        && FindRoom(r.state, Some(name)) == Some(joined)
        && r.replies == [SV.RoomJoined(name, room.players + [player.name.value]), SV.AvailableRooms(RoomsAvailability(r.state))])
  {
    if PlayerCanJoinRoom(s, name, player) {
      var room := FindRoom(s, Some(name)).value;
      PlayerSeated(s, player.name.value, name);
      SeatAddedFound(s, Apply(s, AddPlayerToRoom(player.name.value, name)), room, player.name.value);
    }
  }

  /** The player taking a room's fourth seat makes the following join start the room. */
  lemma FourthJoinStartsRoom(s: State, player: Player, name: Name)
    requires player.name.Some? && PlayerCanJoinRoom(s, name, player)
    requires |FindRoom(s, Some(name)).value.players| == 3
    ensures var r := EnterRoom(s, player, name);
      r.fired == Some(LM.PlayerJoinedRoom(name)) && PlayerJoinedRoom(r.state, name).fired == Some(LM.RoomStart(name))
  {
    EnterRoomEffect(s, player, name);
  }

  // ---------------------------------------------------------------------
  // Leaving

  /**
   * `replacePlayerWithBot`: a bot under a free nickname, holding the
   * leaver's cards and flags, is appended and takes over the leaver's
   * seats, score rows, starting turn and turn. With every nickname taken
   * no bot is made.
   */
  function ReplaceWithBot(s: State, player: Player, name: Name, nicks: seq<Name>, pick: nat): (r: State)
    ensures |r.rooms| == |s.rooms| && |r.games| == |s.games|
    ensures s.players <= r.players && |r.players| <= |s.players| + 1
  {
    match RandomNick(s, nicks, pick)
    case None => s
    case Some(nick) => Apply(s, ReplacePlayerWithBot(name, MakeBot(nick, Some(player))))
  }

  /**
   * The bot holds the leaver's cards and flags and is appended to the
   * players; every room keeps its seat count and seats the bot wherever
   * it seated the leaver, who then sits there no more; every game the
   * leaver was on turn in has the bot on turn.
   */
  lemma ReplaceWithBotEffect(s: State, player: Player, name: Name, nicks: seq<Name>, pick: nat)
    requires name != "" && RandomNick(s, nicks, pick).Some?
    ensures var nick := RandomNick(s, nicks, pick).value;
      var bot := MakeBot(nick, Some(player));
      var t := ReplaceWithBot(s, player, name, nicks, pick);
      t.players == s.players + [bot] && AllCardsOf(bot) == AllCardsOf(player)
      && |t.rooms| == |s.rooms| && |t.games| == |s.games|
      && (forall j :: 0 <= j < |s.rooms| ==>
        t.rooms[j].name == s.rooms[j].name && |t.rooms[j].players| == |s.rooms[j].players|
        && (name in s.rooms[j].players ==>
          (forall k :: 0 <= k < |s.rooms[j].players| ==>
            t.rooms[j].players[k] == (if s.rooms[j].players[k] == name then nick else s.rooms[j].players[k]))
          && (nick != name ==> name !in t.rooms[j].players))
        && (name !in s.rooms[j].players ==> t.rooms[j] == s.rooms[j]))
      && forall g :: 0 <= g < |s.games| ==>
        t.games[g] == (if s.games[g].playerOnTurn == Some(name) then s.games[g].(playerOnTurn := Some(nick)) else s.games[g])
  {
    var nick := RandomNick(s, nicks, pick).value;
    var bot := MakeBot(nick, Some(player));
    forall j | 0 <= j < |s.rooms| {
      ReplaceKeepsSeats(s, name, bot, j);
    }
  }

  /** The five dispatches of `resetPlayerCardsAndFlags`, in order. */
  function ResetMessages(name: Name): seq<StateMessage> {
    [RemovePlayerCards(name), SetPlayerPassedHandOver(name, false), SetPlayerShouldPassHandOver(name, false),
      SetPlayerWantsNewGame(name, true), SetPlayerWaitForMe(name, false)]
  }

  /** A record with no cards, not passed, not asked to pass, not waited for, and wanting a new game. */
  function Reset(p: Player): (r: Player)
    ensures r.id == p.id && r.name == p.name && r.isBot == p.isBot
    ensures AllCardsOf(r) == ([], [], [], []) && Truthy(r.wantsNewGame)
    ensures r.didPassedHandOver == Some(false) && r.shouldPassHandOver == Some(false) && r.waitForMe == Some(false)
  {
    p.(hand := [], handOver := [], grills := [], pile := [], didPassedHandOver := Some(false),
      shouldPassHandOver := Some(false), wantsNewGame := Some(true), waitForMe := Some(false))
  }

  /** `resetPlayerCardsAndFlags`. */
  function ResetCardsAndFlags(s: State, name: Name): State {
    ApplyAll(s, ResetMessages(name))
  }

  /** Resetting a name resets exactly the records carrying it and leaves rooms and games alone. */
  lemma ResetEffect(s: State, name: Name)
    ensures var t := ResetCardsAndFlags(s, name);
      t.rooms == s.rooms && t.games == s.games && |t.players| == |s.players|
      && forall i :: 0 <= i < |s.players| ==>
        t.players[i] == (if s.players[i].name == Some(name) then Reset(s.players[i]) else s.players[i])
  {
    var ms := ResetMessages(name);
    ApplyNamedAll(s, ms, name);
    forall i | 0 <= i < |s.players| && s.players[i].name == Some(name)
      ensures UpdateAll(ms, s.players[i]) == Reset(s.players[i])
    {
      ResetUpdates(name, s.players[i]);
    }
  }

  /** On a record carrying the name, the five dispatches compose to `Reset`. */
  lemma ResetUpdates(name: Name, p: Player)
    requires p.name == Some(name)
    ensures UpdateAll(ResetMessages(name), p) == Reset(p)
  {
    var ms := ResetMessages(name);
    UpdateFive(ms, p);
    ResetChain(name, p);
  }

  /** Five messages compose one after the other. */
  lemma UpdateFive(ms: seq<StateMessage>, p: Player)
    requires |ms| == 5
    ensures UpdateAll(ms, p)
      == UpdatePlayer(ms[4], UpdatePlayer(ms[3], UpdatePlayer(ms[2], UpdatePlayer(ms[1], UpdatePlayer(ms[0], p)))))
  {
    var p1 := UpdatePlayer(ms[0], p);
    var p2 := UpdatePlayer(ms[1], p1);
    var p3 := UpdatePlayer(ms[2], p2);
    UpdateStep(ms, p);
    UpdateStep(ms[1..], p1);
    UpdateStep(ms[2..], p2);
    UpdateTwo(ms[3..], p3);
  }

  /** The five reset dispatches, one by one, on a record carrying the name. */
  lemma ResetChain(name: Name, p: Player)
    requires p.name == Some(name)
    ensures var ms := ResetMessages(name);
      UpdatePlayer(ms[4], UpdatePlayer(ms[3], UpdatePlayer(ms[2], UpdatePlayer(ms[1], UpdatePlayer(ms[0], p))))) == Reset(p)
  {
    var p1 := UpdatePlayer(RemovePlayerCards(name), p);
    assert p1 == Act(ClearCards, p);
    FlagUpdate(PassedHandOver, name, false, p1);
    var p2 := WithFlag(PassedHandOver, p1, false);
    FlagUpdate(ShouldPassHandOver, name, false, p2);
    var p3 := WithFlag(ShouldPassHandOver, p2, false);
    FlagUpdate(WantsNewGame, name, true, p3);
    var p4 := WithFlag(WantsNewGame, p3, true);
    FlagUpdate(WaitForMe, name, false, p4);
  }

  /** The first message applies first. */
  lemma UpdateStep(ms: seq<StateMessage>, p: Player)
    requires |ms| > 0
    ensures UpdateAll(ms, p) == UpdateAll(ms[1..], UpdatePlayer(ms[0], p))
  {
  }

  /** Whether a record is a bot. */
  function IsBotRecord(): Player -> bool {
    (p: Player) => p.isBot
  }

  /** The ids of records, in order. */
  function IdsOf(players: seq<Player>): (r: seq<Id>)
    ensures |r| == |players| && forall i :: 0 <= i < |r| ==> r[i] == players[i].id
  {
    Map((p: Player) => p.id, players)
  }

  /** The bots seated in a room, as `getPlayersInRoom` finds them. */
  function BotsIn(s: State, roomName: Name): seq<Player> {
    Filter(PlayersInRoom(s, Some(roomName)), IsBotRecord())
  }

  /** `STATE_REMOVE_PLAYER` for each id in turn. */
  function RemoveAll(s: State, ids: seq<Id>): State
    decreases |ids|
  {
    if |ids| == 0 then s else RemoveAll(Apply(s, RemovePlayer(ids[0])), ids[1..])
  }

  /** Removing ids one by one keeps exactly the records whose id is none of them, and the rooms and games. */
  lemma {:induction false} RemoveAllEffect(s: State, ids: seq<Id>)
    ensures var t := RemoveAll(s, ids);
      t.rooms == s.rooms && t.games == s.games
      && forall p :: p in t.players <==> p in s.players && p.id !in ids
    decreases |ids|
  {
    if |ids| > 0 {
      var s1 := Apply(s, RemovePlayer(ids[0]));
      RemoveAllEffect(s1, ids[1..]);
      assert forall id :: id in ids <==> id == ids[0] || id in ids[1..];
    }
  }

  /**
   * `removeRoom`: the bots seated in the room are removed by id, then the
   * room's game, then the room itself.
   */
  function RemoveRoomAndBots(s: State, roomName: Name): (r: State)
    ensures forall room :: room in r.rooms ==> room in s.rooms && room.name != roomName
    ensures forall g :: g in r.games ==> g in s.games && g.room != roomName
  {
    RemoveAllEffect(s, IdsOf(BotsIn(s, roomName)));
    var s1 := RemoveAll(s, IdsOf(BotsIn(s, roomName)));
    GameAndRoomGone(s1, roomName);
    Apply(Apply(s1, RemoveGame(roomName)), RemoveRoom(roomName))
  }

  /**
   * Removing a room keeps exactly the records that share an id with none
   * of its bots, the rooms of other names, and the games of other rooms.
   */
  lemma RemoveRoomEffect(s: State, roomName: Name)
    ensures var t := RemoveRoomAndBots(s, roomName);
      var bots := IdsOf(BotsIn(s, roomName));
      (forall p :: p in t.players <==> p in s.players && p.id !in bots)
      && (forall room :: room in t.rooms <==> room in s.rooms && room.name != roomName)
      && (forall g :: g in t.games <==> g in s.games && g.room != roomName)
  {
    var s1 := RemoveAll(s, IdsOf(BotsIn(s, roomName)));
    RemoveAllEffect(s, IdsOf(BotsIn(s, roomName)));
    GameAndRoomGone(s1, roomName);
  }

  /** Removing a room's game and then the room keeps the players and every other room and game. */
  lemma GameAndRoomGone(s: State, roomName: Name)
    ensures var t := Apply(Apply(s, RemoveGame(roomName)), RemoveRoom(roomName));
      t.players == s.players
      && (forall room :: room in t.rooms <==> room in s.rooms && room.name != roomName)
      && (forall g :: g in t.games <==> g in s.games && g.room != roomName)
  {
    var s2 := Apply(s, RemoveGame(roomName));
    RemoveGameDrops(s, roomName);
    RemoveRoomDrops(s2, roomName);
  }

  /** `STATE_REMOVE_GAME` drops exactly that room's games and keeps the rest of the state. */
  lemma RemoveGameDrops(s: State, roomName: Name)
    ensures var t := Apply(s, RemoveGame(roomName));
      t.games == RemoveByRoom(s.games, roomName) && t.rooms == s.rooms && t.players == s.players
  {
  }

  /** `STATE_REMOVE_ROOM` drops exactly the rooms of that name and keeps the rest of the state. */
  lemma RemoveRoomDrops(s: State, roomName: Name)
    ensures var t := Apply(s, RemoveRoom(roomName));
      t.rooms == RemoveByName(s.rooms, roomName) && t.games == s.games && t.players == s.players
  {
  }

  /** `STATE_REMOVE_PLAYER` keeps exactly the records of other ids, and the rooms and games. */
  lemma RemovePlayerDrops(s: State, id: Id)
    ensures var t := Apply(s, RemovePlayer(id));
      t.rooms == s.rooms && t.games == s.games
      && forall p :: p in t.players <==> p in s.players && p.id != id
  {
  }

  /** Every bot seated in a removed room is gone with it. */
  lemma RemovedRoomBotsGone(s: State, roomName: Name, b: Player)
    requires b in PlayersInRoom(s, Some(roomName)) && b.isBot
    ensures forall p :: p in RemoveRoomAndBots(s, roomName).players ==> p.id != b.id
  {
    RemoveRoomEffect(s, roomName);
    var bots := BotsIn(s, roomName);
    assert b in bots by {
      assert b in multiset(PlayersInRoom(s, Some(roomName)));
      assert b in multiset(bots);
    }
    var k :| 0 <= k < |bots| && bots[k] == b;
    assert IdsOf(bots)[k] == b.id;
  }

  /**
   * `onLeaveRoom`: a player in a room hands the seat to a bot while a
   * real player remains there, or else the room is removed (and the room
   * list sent); either way the leaver's cards and flags are then reset.
   * A player in no room is ignored.
   */
  function LeaveRoom(s: State, player: Player, realPlayerInRoom: bool, nicks: seq<Name>, pick: nat): (r: Step)
    requires player.name.Some?
    ensures !r.crashed && r.fired.None? && |r.replies| <= 1
    ensures PlayerRoom(s, player.id).None? ==> r.state == s && r.replies == []
    ensures r.replies != [] <==> PlayerRoom(s, player.id).Some? && !realPlayerInRoom
  {
    var name := player.name.value;
    match PlayerRoom(s, player.id)
    case None => Done(s)
    case Some(room) =>
      if realPlayerInRoom then Done(ResetCardsAndFlags(ReplaceWithBot(s, player, name, nicks, pick), name))
      else
        var s1 := RemoveRoomAndBots(s, room.name);
        Step(ResetCardsAndFlags(s1, name), None, [SV.AvailableRooms(RoomsAvailability(s1))], false)
  }

  /**
   * Handing a seat to a bot loses no card: the bot, a record of a fresh
   * nickname appended last, holds exactly the cards the leaver's record
   * held, and the leaver's records keep none; the bot takes the leaver's
   * seats and turns.
   */
  lemma LeaveHandsCardsToBot(s: State, player: Player, nicks: seq<Name>, pick: nat)
    requires player.name.Some? && FindPlayerById(s, player.id) == Some(player)
    requires PlayerRoom(s, player.id).Some? && RandomNick(s, nicks, pick).Some?
    ensures var r := LeaveRoom(s, player, true, nicks, pick);
      var nick := RandomNick(s, nicks, pick).value;
      !r.crashed && r.fired.None? && r.replies == [] && |r.state.players| == |s.players| + 1 && |r.state.rooms| == |s.rooms|
      && r.state.players[|s.players|] == MakeBot(nick, Some(player))
      && AllCardsOf(r.state.players[|s.players|]) == AllCardsOf(player)
      && (forall i :: 0 <= i < |s.players| ==>
        r.state.players[i] == (if s.players[i].name == player.name then Reset(s.players[i]) else s.players[i]))
      && forall j :: 0 <= j < |s.rooms| ==> player.name.value !in r.state.rooms[j].players
  {
    var name := player.name.value;
    var t := ReplaceWithBot(s, player, name, nicks, pick);
    assert LeaveRoom(s, player, true, nicks, pick) == Done(ResetCardsAndFlags(t, name));
    BotTakesOver(s, player, nicks, pick);
    ResetAfterBot(s, t, player, MakeBot(RandomNick(s, nicks, pick).value, Some(player)));
  }

  /** The bot's nickname differs from the leaver's name, and the leaver's name leaves every seat. */
  lemma BotTakesOver(s: State, player: Player, nicks: seq<Name>, pick: nat)
    requires player.name.Some? && FindPlayerById(s, player.id) == Some(player)
    requires PlayerRoom(s, player.id).Some? && RandomNick(s, nicks, pick).Some?
    ensures var t := ReplaceWithBot(s, player, player.name.value, nicks, pick);
      RandomNick(s, nicks, pick).value != player.name.value
      && t.players == s.players + [MakeBot(RandomNick(s, nicks, pick).value, Some(player))]
      && |t.rooms| == |s.rooms| && forall j :: 0 <= j < |s.rooms| ==> player.name.value !in t.rooms[j].players
  {
    var name := player.name.value;
    assert name != "";
    assert RandomNick(s, nicks, pick).value != name by {
      var k :| 0 <= k < |s.players| && s.players[k] == player;
    }
    ReplaceWithBotEffect(s, player, name, nicks, pick);
  }

  /** Resetting the leaver after the bot is appended resets the leaver's records and leaves the bot and the rooms. */
  lemma ResetAfterBot(s: State, t: State, player: Player, bot: Player)
    requires player.name.Some? && bot.name != player.name && t.players == s.players + [bot]
    ensures var u := ResetCardsAndFlags(t, player.name.value);
      u.rooms == t.rooms && |u.players| == |s.players| + 1 && u.players[|s.players|] == bot
      && forall i :: 0 <= i < |s.players| ==>
        u.players[i] == (if s.players[i].name == player.name then Reset(s.players[i]) else s.players[i])
  {
    ResetEffect(t, player.name.value);
    assert t.players[|s.players|] == bot;
  }

  /**
   * Leaving the last real player's room removes the room, its game and
   * its bots, resets the leaver's records, and sends the room list
   * without that room.
   */
  lemma LeaveRemovesRoom(s: State, player: Player, nicks: seq<Name>, pick: nat)
    requires player.name.Some? && PlayerRoom(s, player.id).Some?
    ensures var r := LeaveRoom(s, player, false, nicks, pick);
      var roomName := PlayerRoom(s, player.id).value.name;
      var t := RemoveRoomAndBots(s, roomName);
      !r.crashed && r.fired.None? && r.replies == [SV.AvailableRooms(RoomsAvailability(t))]
      && (forall room :: room in r.state.rooms <==> room in s.rooms && room.name != roomName)
      && (forall g :: g in r.state.games <==> g in s.games && g.room != roomName)
      && |r.state.players| == |t.players|
      && forall i :: 0 <= i < |t.players| ==>
        r.state.players[i] == (if t.players[i].name == player.name then Reset(t.players[i]) else t.players[i])
  {
    var roomName := PlayerRoom(s, player.id).value.name;
    var t := RemoveRoomAndBots(s, roomName);
    var u := ResetCardsAndFlags(t, player.name.value);
    assert LeaveRoom(s, player, false, nicks, pick) == Step(u, None, [SV.AvailableRooms(RoomsAvailability(t))], false);
    RemoveRoomEffect(s, roomName);
    ResetEffect(t, player.name.value);
  }

  // ---------------------------------------------------------------------
  // Disconnecting

  /**
   * `onDisconnect`, for the record the socket's id finds: a seated player
   * is replaced by a bot or the room removed as when leaving, and then
   * every record with the socket's id is removed.
   */
  function Disconnect(s: State, player: Player, realPlayerInRoom: bool, nicks: seq<Name>, pick: nat): (r: Step)
    requires FindPlayerById(s, player.id) == Some(player)
    ensures !r.crashed && r.fired.None? && |r.replies| <= 1
    ensures r.replies != [] <==> PlayerRoom(s, player.id).Some? && !realPlayerInRoom
  {
    match PlayerRoom(s, player.id)
    case None => Done(Apply(s, RemovePlayer(player.id)))
    case Some(room) =>
      if realPlayerInRoom then
        Done(Apply(ReplaceWithBot(s, player, player.name.value, nicks, pick), RemovePlayer(player.id)))
      else
        var s1 := RemoveRoomAndBots(s, room.name);
        Step(Apply(s1, RemovePlayer(player.id)), None, [SV.AvailableRooms(RoomsAvailability(s1))], false)
  }

  /** After a disconnect no record carries the socket's id, and every other record left is one from before or the bot. */
  lemma DisconnectRemoves(s: State, player: Player, realPlayerInRoom: bool, nicks: seq<Name>, pick: nat)
    requires FindPlayerById(s, player.id) == Some(player)
    ensures var r := Disconnect(s, player, realPlayerInRoom, nicks, pick);
      !r.crashed && r.fired.None?
      && (forall p :: p in r.state.players ==> p.id != player.id)
      && (forall p :: p in r.state.players ==> p in s.players || p.isBot)
      && (PlayerRoom(s, player.id).None? ==>
        r.state.rooms == s.rooms && r.state.games == s.games
        && forall p :: p in r.state.players <==> p in s.players && p.id != player.id)
  {
    var r := Disconnect(s, player, realPlayerInRoom, nicks, pick);
    match PlayerRoom(s, player.id)
    case None =>
      assert r.state == Apply(s, RemovePlayer(player.id));
      RemovePlayerDrops(s, player.id);
    case Some(room) =>
      if realPlayerInRoom {
        var s1 := ReplaceWithBot(s, player, player.name.value, nicks, pick);
        assert r.state == Apply(s1, RemovePlayer(player.id));
        BotOnlyAdded(s, player, player.name.value, nicks, pick);
        RemovePlayerDrops(s1, player.id);
      } else {
        var s1 := RemoveRoomAndBots(s, room.name);
        assert r.state == Apply(s1, RemovePlayer(player.id));
        RemoveRoomEffect(s, room.name);
        RemovePlayerDrops(s1, player.id);
      }
  }

  /** Handing a seat to a bot adds at most one record, a bot. */
  lemma BotOnlyAdded(s: State, player: Player, name: Name, nicks: seq<Name>, pick: nat)
    ensures forall p :: p in ReplaceWithBot(s, player, name, nicks, pick).players ==> p in s.players || p.isBot
  {
    match RandomNick(s, nicks, pick)
    case None =>
    case Some(nick) =>
      var bot := MakeBot(nick, Some(player));
      assert ReplaceWithBot(s, player, name, nicks, pick).players == ReducePlayers(s.players, ReplacePlayerWithBot(name, bot));
  }

  // ---------------------------------------------------------------------
  // Listing rooms

  /** `onGetRooms`: the player is sent the room list; nothing changes. */
  function GetRooms(s: State): (r: Step)
    ensures r.state == s && r.fired.None? && !r.crashed
    ensures |r.replies| == 1 && r.replies[0].AvailableRooms? && |r.replies[0].rooms| == |s.rooms|
  {
    Step(s, None, [SV.AvailableRooms(RoomsAvailability(s))], false)
  }
}

=== FILE: entities.dfy ===
/**
 * The server's store: players, rooms and games, without the closures
 * (`send`, `room()`, `game()`) the program attaches to them. The closures
 * become lookups in an explicit `State`.
 */
module Entities {
  import opened Wrappers
  import opened Seqs
  import opened Cards

  type Name = string
  type Id = string

  /**
   * A connected client or a bot. `name` is `None` until the client
   * registers. The four flags are optional booleans in the program, so
   * "unset", `false` and `true` are kept apart.
   */
  datatype Player = Player(
    id: Id,
    name: Option<Name>,
    hand: seq<Card>,
    handOver: seq<Card>,
    grills: seq<Card>,
    pile: seq<Card>,
    isBot: bool,
    waitForMe: Option<bool>,
    shouldPassHandOver: Option<bool>,
    didPassedHandOver: Option<bool>,
    wantsNewGame: Option<bool>)

  /** A player's game results since joining the room; a missing result is `None`. */
  datatype PlayerScore = PlayerScore(player: Name, points: seq<Option<int>>)

  /** One player's penalty points for a finished game. */
  datatype GameScore = GameScore(player: Name, points: int)

  datatype Room = Room(
    name: Name,
    players: seq<Name>,
    scores: seq<PlayerScore>,
    gameStartingPlayer: Option<Name>)

  datatype Game = Game(
    room: Name,
    table: seq<Card>,
    round: int,
    grillsSnapshot: seq<Card>,
    playerOnTurn: Option<Name>)

  datatype State = State(rooms: seq<Room>, players: seq<Player>, games: seq<Game>)

  /** JavaScript truthiness of an optional boolean. */
  predicate Truthy(b: Option<bool>) {
    b == Some(true)
  }

  /** JavaScript truthiness of an optional name: present and not the empty string. */
  predicate TruthyName(n: Option<Name>) {
    n.Some? && n.value != ""
  }

  /** JavaScript `a || b` on optional names. */
  function NameOr(a: Option<Name>, b: Option<Name>): (r: Option<Name>)
    ensures TruthyName(a) ==> r == a
    ensures !TruthyName(a) ==> r == b
  {
    if TruthyName(a) then a else b
  }

  /** A player exactly as the socket layer creates it on connection. */
  function NewPlayer(id: Id): (p: Player)
    ensures p.id == id && p.name.None? && !p.isBot
    ensures p.hand == p.handOver == p.grills == p.pile == []
    ensures Truthy(p.wantsNewGame)
    ensures p.waitForMe.None? && p.shouldPassHandOver.None? && p.didPassedHandOver.None?
  {
    Player(id, None, [], [], [], [], false, None, None, None, Some(true))
  }

  /** `findPlayer`: the first player whose name equals `name` (`None` matches unregistered players). */
  function FindPlayer(s: State, name: Option<Name>): (r: Option<Player>)
    ensures r.None? <==> forall i :: 0 <= i < |s.players| ==> s.players[i].name != name
    ensures r.Some? ==> r.value in s.players && r.value.name == name
  {
    Find(s.players, (p: Player) => p.name == name)
  }

  /** The player record of a socket, by id. */
  function FindPlayerById(s: State, id: Id): (r: Option<Player>)
    ensures r.None? <==> forall i :: 0 <= i < |s.players| ==> s.players[i].id != id
    ensures r.Some? ==> r.value in s.players && r.value.id == id
  {
    Find(s.players, (p: Player) => p.id == id)
  }

  /** `findRoom`: the first room with that name. */
  function FindRoom(s: State, name: Option<Name>): (r: Option<Room>)
    ensures r.None? <==> forall i :: 0 <= i < |s.rooms| ==> Some(s.rooms[i].name) != name
    ensures r.Some? ==> r.value in s.rooms && Some(r.value.name) == name
  {
    Find(s.rooms, (r: Room) => Some(r.name) == name)
  }

  /** `findGame`: the first game of that room. */
  function FindGame(s: State, roomName: Option<Name>): (r: Option<Game>)
    ensures r.None? <==> forall i :: 0 <= i < |s.games| ==> Some(s.games[i].room) != roomName
    ensures r.Some? ==> r.value in s.games && Some(r.value.room) == roomName
  {
    Find(s.games, (g: Game) => Some(g.room) == roomName)
  }

  /**
   * The first room seating `name`. The program tests the seat it finds for
   * truthiness, so an unregistered player, and one named by the empty
   * string, sits nowhere.
   */
  function RoomOfName(s: State, name: Option<Name>): (r: Option<Room>)
    ensures r.None? <==> (!TruthyName(name) || forall i :: 0 <= i < |s.rooms| ==> name.value !in s.rooms[i].players)
    ensures r.Some? ==> r.value in s.rooms && TruthyName(name) && name.value in r.value.players
  {
    Find(s.rooms, (r: Room) => TruthyName(name) && name.value in r.players)
  }

  /**
   * `player.room()`: the room seating the current name of the player with
   * this id. A bot's id is its nickname, so this also covers bots.
   */
  function PlayerRoom(s: State, id: Id): (r: Option<Room>)
    ensures r.Some? ==> r.value in s.rooms
    ensures r.Some? <==>
      exists p :: p in s.players && p.id == id && FindPlayerById(s, id) == Some(p) && RoomOfName(s, p.name).Some?
  {
    match FindPlayerById(s, id)
    case None => None
    case Some(p) => RoomOfName(s, p.name)
  }

  /** No two player records share an id: each socket, and each bot nickname, has one record. */
  predicate UniqueIds(s: State) {
    forall i, j :: 0 <= i < j < |s.players| ==> s.players[i].id != s.players[j].id
  }

  /** With unique ids, looking a record up by its own id finds that record. */
  lemma FindOwnId(s: State, p: Player)
    requires UniqueIds(s) && p in s.players
    ensures FindPlayerById(s, p.id) == Some(p)
    ensures PlayerRoom(s, p.id) == RoomOfName(s, p.name)
  {
    var q := FindPlayerById(s, p.id);
    var k :| 0 <= k < |s.players| && s.players[k] == p;
    var j :| 0 <= j < |s.players| && s.players[j] == q.value;
  }

  /** `player.game()`: the game of the player's room. */
  function PlayerGame(s: State, id: Id): (r: Option<Game>)
    ensures r.Some? ==> r.value in s.games && PlayerRoom(s, id).Some? && r.value.room == PlayerRoom(s, id).value.name
    ensures PlayerRoom(s, id).None? ==> r.None?
  {
    match PlayerRoom(s, id)
    case None => None
    case Some(room) => FindGame(s, Some(room.name))
  }
}

=== FILE: game_handlers.dfy ===
/**
 * The game-phase handlers (src/logic/messageHandlers/game.ts): dealing,
 * starting and ending a game, the hand-over and grill phase, and the
 * readiness hand-shakes, each as a function from the state before the
 * message to a `Step`. The one-second pauses are dropped. Of the
 * messages to clients, only those to the acting player are modelled, as
 * the step's replies.
 */
module GameHandlers {
  import opened Wrappers
  import opened Seqs
  import opened ArrayPolyfill
  import opened Cards
  import opened Entities
  import opened StateMessages
  import LM = LogicMessages
  import opened Validators
  import opened PlayersReducer
  import opened RoomsReducer
  import opened GamesReducer
  import opened Store
  import opened Queries
  import opened Steps
  import SV = ServerMessages

  // ---------------------------------------------------------------------
  // Dealing

  /** The cards `dealCards` hands to seat `seat`: deck positions 8 * seat up to 8 * seat + 8, clipped to the deck. */
  function Hand(deck: seq<Card>, seat: nat): (r: seq<Card>)
    ensures |r| <= 8
    ensures forall k :: 0 <= k < |r| ==> 8 * seat + k < |deck| && r[k] == deck[8 * seat + k]
    ensures |deck| >= 8 * seat + 8 ==> |r| == 8
  {
    var lo := if 8 * seat <= |deck| then 8 * seat else |deck|;
    var hi := if 8 * seat + 8 <= |deck| then 8 * seat + 8 else |deck|;
    deck[lo..hi]
  }

  /**
   * Four seats share a shuffled 32-card deck: the four hands, in seat
   * order, are the deck, eight cards each, and no card is dealt twice.
   */
  lemma DealtHandsPartition(deck: seq<Card>)
    requires multiset(deck) == multiset(CreateDeck())
    ensures Hand(deck, 0) + Hand(deck, 1) + Hand(deck, 2) + Hand(deck, 3) == deck
    ensures forall k :: 0 <= k < 4 ==> |Hand(deck, k)| == 8
    ensures forall a, b, c :: 0 <= a < b < 4 && c in Hand(deck, a) ==> c !in Hand(deck, b)
  {
    assert |deck| == |multiset(deck)| == |CreateDeck()| == 32;
    NoDupMultiplicity(CreateDeck());
    NoDupMultiplicity(deck);
    assert deck == deck[0..8] + deck[8..16] + deck[16..24] + deck[24..32];
    forall a, b, c | 0 <= a < b < 4 && c in Hand(deck, a) ensures c !in Hand(deck, b) {
      var x :| 0 <= x < 8 && Hand(deck, a)[x] == c;
      assert deck[8 * a + x] == c;
    }
  }

  /** A record after `dealCards` reached it: the hand extended, and waited for. */
  function Dealt(p: Player, hand: seq<Card>): Player {
    p.(hand := p.hand + hand, waitForMe := Some(true))
  }

  /** `dealCards` from seat `seat` on: each name gets its hand, then is waited for. */
  function DealFrom(s: State, names: seq<Name>, deck: seq<Card>, seat: nat): State
    decreases |names|
  {
    if |names| == 0 then s
    else
      var s1 := Apply(s, CardsToHand(names[0], Hand(deck, seat)));
      var s2 := Apply(s1, SetPlayerWaitForMe(names[0], true));
      DealFrom(s2, names[1..], deck, seat + 1)
  }

  /** `dealCards`, with the shuffled deck given. */
  function DealCards(s: State, room: Name, deck: seq<Card>): State {
    DealFrom(s, RoomNames(s, room), deck, 0)
  }

  /** One seat's two dispatches. */
  lemma DealOne(s: State, name: Name, hand: seq<Card>)
    ensures var r := Apply(Apply(s, CardsToHand(name, hand)), SetPlayerWaitForMe(name, true));
      r.rooms == s.rooms && r.games == s.games && |r.players| == |s.players|
      && forall i :: 0 <= i < |s.players| ==>
        r.players[i] == (if s.players[i].name == Some(name) then Dealt(s.players[i], hand) else s.players[i])
  {
    var s1 := Apply(s, CardsToHand(name, hand));
    var r := Apply(s1, SetPlayerWaitForMe(name, true));
    forall i | 0 <= i < |s.players|
      ensures r.players[i] == (if s.players[i].name == Some(name) then Dealt(s.players[i], hand) else s.players[i])
    {
      assert s1.players[i] == UpdatePlayer(CardsToHand(name, hand), s.players[i]);
      assert r.players[i] == UpdatePlayer(SetPlayerWaitForMe(name, true), s1.players[i]);
    }
  }

  /**
   * Dealing to distinct names gives the record named `names[k]` the hand
   * of seat `seat + k`; nobody else and nothing else changes.
   */
  lemma {:induction false} DealFromEffect(s: State, names: seq<Name>, deck: seq<Card>, seat: nat)
    requires NoDup(names)
    ensures var r := DealFrom(s, names, deck, seat);
      r.rooms == s.rooms && r.games == s.games && |r.players| == |s.players|
      && forall i :: 0 <= i < |s.players| ==> r.players[i] == DealtTo(s.players[i], names, deck, seat)
    decreases |names|
  {
    if |names| > 0 {
      var s2 := Apply(Apply(s, CardsToHand(names[0], Hand(deck, seat))), SetPlayerWaitForMe(names[0], true));
      DealOne(s, names[0], Hand(deck, seat));
      NoDupTail(names);
      DealFromEffect(s2, names[1..], deck, seat + 1);
      var r := DealFrom(s, names, deck, seat);
      assert r == DealFrom(s2, names[1..], deck, seat + 1);
      forall i | 0 <= i < |s.players| ensures r.players[i] == DealtTo(s.players[i], names, deck, seat) {
        DealtToStep(s.players[i], s2.players[i], names, deck, seat);
      }
    }
  }

  /** What dealing to `names` from seat `seat` makes of one record. */
  function DealtTo(p: Player, names: seq<Name>, deck: seq<Card>, seat: nat): Player {
    if p.name.Some? && p.name.value in names then Dealt(p, Hand(deck, seat + IndexOf(names, p.name.value))) else p
  }

  /** One record through the first seat's dispatches and then the rest. */
  lemma DealtToStep(p: Player, q: Player, names: seq<Name>, deck: seq<Card>, seat: nat)
    requires NoDup(names) && |names| > 0
    requires q == (if p.name == Some(names[0]) then Dealt(p, Hand(deck, seat)) else p)
    ensures DealtTo(q, names[1..], deck, seat + 1) == DealtTo(p, names, deck, seat)
  {
    NoDupTail(names);
    if p.name.Some? && p.name.value in names && p.name != Some(names[0]) {
      IndexOfTail(names, p.name.value);
    }
  }

  /** When every seat of a room has a record, the room's names are its seats. */
  lemma RoomNamesAreSeats(s: State, room: Room)
    requires FindRoom(s, Some(room.name)) == Some(room)
    requires forall k :: 0 <= k < |room.players| ==> FindPlayer(s, Some(room.players[k])).Some?
    ensures RoomNames(s, room.name) == room.players
  {
    PlayersOfAllFound(s, room.players);
  }

  /**
   * `dealCards` on a room whose distinct seats all have records: the record
   * in seat `k` gets deck positions 8k to 8k + 7 and is waited for; no
   * other record, room or game changes.
   */
  lemma DealGivesSeatHands(s: State, room: Room, deck: seq<Card>)
    requires FindRoom(s, Some(room.name)) == Some(room) && NoDup(room.players)
    requires forall k :: 0 <= k < |room.players| ==> FindPlayer(s, Some(room.players[k])).Some?
    ensures var r := DealCards(s, room.name, deck);
      r.rooms == s.rooms && r.games == s.games && |r.players| == |s.players|
      && (forall i, k :: 0 <= i < |s.players| && 0 <= k < |room.players| && s.players[i].name == Some(room.players[k]) ==>
        r.players[i] == Dealt(s.players[i], Hand(deck, k)))
      && (forall i :: 0 <= i < |s.players| && (s.players[i].name.None? || s.players[i].name.value !in room.players) ==>
        r.players[i] == s.players[i])
  {
    DealCardsEffect(s, room, deck);
    forall i, k | 0 <= i < |s.players| && 0 <= k < |room.players| && s.players[i].name == Some(room.players[k])
      ensures IndexOf(room.players, s.players[i].name.value) == k
    {
      IndexOfNoDup(room.players, k);
    }
  }

  /** `dealCards` on a room whose distinct seats all have records deals each record by its seat. */
  lemma DealCardsEffect(s: State, room: Room, deck: seq<Card>)
    requires FindRoom(s, Some(room.name)) == Some(room) && NoDup(room.players)
    requires forall k :: 0 <= k < |room.players| ==> FindPlayer(s, Some(room.players[k])).Some?
    ensures var r := DealCards(s, room.name, deck);
      r.rooms == s.rooms && r.games == s.games && |r.players| == |s.players|
      && forall i :: 0 <= i < |s.players| ==> r.players[i] == DealtTo(s.players[i], room.players, deck, 0)
  {
    RoomNamesAreSeats(s, room);
    DealFromEffect(s, room.players, deck, 0);
  }

  // ---------------------------------------------------------------------
  // Starting and ending a game

  /**
   * `onGameStart`, with `Math.random` and the shuffle given as `pick` and
   * `deck`: nobody in the room wants a new game any more; the starting
   * player is chosen and recorded; a game is created with that player on
   * turn; the cards are dealt.
   */
  function GameStart(s: State, roomName: Name, newRoom: bool, pick: nat, deck: seq<Card>): (r: Step)
    ensures r.fired.None? && r.replies == []
    ensures GameStartingPlayer(ClearWishes(s, roomName), roomName, pick, newRoom).Throws? ==> r.crashed
  {
    var s1 := ClearWishes(s, roomName);
    match GameStartingPlayer(s1, roomName, pick, newRoom)
    case Throws => Crash(s1)
    case Returns(starter) => OpenGame(s1, roomName, starter, deck)
  }

  /** The first dispatches of `onGameStart`: no room player wants a new game. */
  function ClearWishes(s: State, roomName: Name): State {
    ForEach(s, SetFlag(WantsNewGame, false), RoomNames(s, roomName))
  }

  /** The rest of `onGameStart` once the starter is known; finding no room throws. */
  function OpenGame(s: State, roomName: Name, starter: Option<Name>, deck: seq<Card>): Step {
    var s2 := Apply(s, SetGameStartingPlayer(roomName, starter));
    var s3 := Apply(s2, CreateGame(roomName, starter));
    if FindRoom(s3, Some(roomName)).None? then Crash(s3)
    else Done(DealCards(s3, roomName, deck))
  }

  /**
   * Starting a game throws exactly when no starting player can be found.
   * Otherwise the starter, as chosen from the state before the message, is
   * recorded in the room and put on turn in a fresh round-0 game appended
   * to the games; no other room changes.
   */
  lemma GameStartRecordsStarter(s: State, roomName: Name, newRoom: bool, pick: nat, deck: seq<Card>)
    ensures GameStart(s, roomName, newRoom, pick, deck).crashed <==> GameStartingPlayer(s, roomName, pick, newRoom).Throws?
    ensures var r := GameStart(s, roomName, newRoom, pick, deck).state;
      GameStartingPlayer(s, roomName, pick, newRoom).Returns? ==>
        var starter := GameStartingPlayer(s, roomName, pick, newRoom).value;
        r.games == s.games + [NewGame(roomName, starter)]
        && r.rooms == StarterSet(s.rooms, roomName, starter)
  {
    var s1 := ClearWishes(s, roomName);
    StartClearsWishes(s, roomName, newRoom, pick);
    match GameStartingPlayer(s1, roomName, pick, newRoom)
    case Throws =>
    case Returns(starter) =>
      StarterRoomExists(s1, roomName, pick, newRoom);
      OpenGameRecordsStarter(s1, roomName, starter, deck);
  }

  /** Opening the game: one room's starter set, one game appended; it throws only when the room is gone. */
  lemma OpenGameRecordsStarter(s: State, roomName: Name, starter: Option<Name>, deck: seq<Card>)
    ensures OpenGame(s, roomName, starter, deck).crashed <==> FindRoom(s, Some(roomName)).None?
    ensures var r := OpenGame(s, roomName, starter, deck).state;
      r.games == s.games + [NewGame(roomName, starter)]
      && r.rooms == StarterSet(s.rooms, roomName, starter)
  {
    var s3 := Apply(Apply(s, SetGameStartingPlayer(roomName, starter)), CreateGame(roomName, starter));
    StarterAndGame(s, roomName, starter);
    DealKeepsRoomsAndGames(s3, roomName, deck);
  }

  /**
   * A game started in a room whose distinct seats all have records: each
   * seated record no longer wants a new game and is dealt by its seat (see
   * `StartedSeat`); every other record is as it was.
   */
  lemma GameStartDealsSeats(s: State, room: Room, newRoom: bool, pick: nat, deck: seq<Card>)
    requires FindRoom(s, Some(room.name)) == Some(room) && NoDup(room.players)
    requires forall k :: 0 <= k < |room.players| ==> FindPlayer(s, Some(room.players[k])).Some?
    requires GameStartingPlayer(s, room.name, pick, newRoom).Returns?
    ensures var r := GameStart(s, room.name, newRoom, pick, deck);
      !r.crashed && |r.state.players| == |s.players|
      && forall i :: 0 <= i < |s.players| ==> r.state.players[i] == StartedRecord(s.players[i], room.players, deck)
  {
    var starter := GameStartingPlayer(s, room.name, pick, newRoom).value;
    GameStartOpens(s, room.name, newRoom, pick, deck);
    ClearThenOpen(s, room, starter, deck);
  }

  /** What starting a game makes of a record, given the room's seats. */
  function StartedRecord(p: Player, seats: seq<Name>, deck: seq<Card>): Player {
    if p.name.Some? && p.name.value in seats
    then Dealt(WithFlag(WantsNewGame, p, false), Hand(deck, IndexOf(seats, p.name.value)))
    else p
  }

  /**
   * With distinct seats, the record in seat `k` no longer wants a new
   * game, gets deck positions 8k to 8k + 7 and is waited for; a record
   * in no seat is left alone.
   */
  lemma StartedSeat(p: Player, seats: seq<Name>, deck: seq<Card>, k: int)
    requires NoDup(seats) && 0 <= k < |seats|
    ensures p.name == Some(seats[k]) ==>
      StartedRecord(p, seats, deck) == Dealt(WithFlag(WantsNewGame, p, false), Hand(deck, k))
    ensures (p.name.None? || p.name.value !in seats) ==> StartedRecord(p, seats, deck) == p
  {
    IndexOfNoDup(seats, k);
  }

  /** Once a starter is found, starting is clearing the wishes and opening the game with that starter. */
  lemma GameStartOpens(s: State, roomName: Name, newRoom: bool, pick: nat, deck: seq<Card>)
    requires GameStartingPlayer(s, roomName, pick, newRoom).Returns?
    ensures GameStart(s, roomName, newRoom, pick, deck)
      == OpenGame(ClearWishes(s, roomName), roomName, GameStartingPlayer(s, roomName, pick, newRoom).value, deck)
  {
    StartClearsWishes(s, roomName, newRoom, pick);
  }

  /** Clearing the wishes of a room whose distinct seats all have records, then opening its game. */
  lemma ClearThenOpen(s: State, room: Room, starter: Option<Name>, deck: seq<Card>)
    requires FindRoom(s, Some(room.name)) == Some(room) && NoDup(room.players)
    requires forall k :: 0 <= k < |room.players| ==> FindPlayer(s, Some(room.players[k])).Some?
    ensures var r := OpenGame(ClearWishes(s, room.name), room.name, starter, deck);
      !r.crashed && |r.state.players| == |s.players|
      && forall i :: 0 <= i < |s.players| ==> r.state.players[i] == StartedRecord(s.players[i], room.players, deck)
  {
    var s1 := ClearWishes(s, room.name);
    ClearWishesSeats(s, room);
    OpenGameDealsSeats(s1, room, starter, deck);
    ClearThenDeal(s.players, s1.players, OpenGame(s1, room.name, starter, deck).state.players, room.players, deck);
  }

  /** Clearing the new-game wishes keeps rooms, games and the choice of starter. */
  lemma StartClearsWishes(s: State, roomName: Name, newRoom: bool, pick: nat)
    ensures var s1 := ClearWishes(s, roomName);
      s1.rooms == s.rooms && s1.games == s.games && SameRoster(s, s1)
      && GameStartingPlayer(s1, roomName, pick, newRoom) == GameStartingPlayer(s, roomName, pick, newRoom)
  {
    var s1 := ClearWishes(s, roomName);
    ForEachKeepsRoster(s, SetFlag(WantsNewGame, false), RoomNames(s, roomName));
    ForEachEffect(s, SetFlag(WantsNewGame, false), RoomNames(s, roomName));
    GameStartingPlayerSameRoster(s, s1, roomName, pick, newRoom);
  }

  /** In a room whose seats all have records, clearing the wishes reaches exactly the seated records, which stay findable. */
  lemma ClearWishesSeats(s: State, room: Room)
    requires FindRoom(s, Some(room.name)) == Some(room)
    requires forall k :: 0 <= k < |room.players| ==> FindPlayer(s, Some(room.players[k])).Some?
    ensures var s1 := ClearWishes(s, room.name);
      |s1.players| == |s.players|
      && (forall i :: 0 <= i < |s.players| ==>
        s1.players[i] == (if s.players[i].name.Some? && s.players[i].name.value in room.players
          then Act(SetFlag(WantsNewGame, false), s.players[i]) else s.players[i]))
      && FindRoom(s1, Some(room.name)) == Some(room)
      && forall k :: 0 <= k < |room.players| ==> FindPlayer(s1, Some(room.players[k])).Some?
  {
    var s1 := ClearWishes(s, room.name);
    RoomNamesAreSeats(s, room);
    ForEachEffect(s, SetFlag(WantsNewGame, false), room.players);
    ForEachKeepsRoster(s, SetFlag(WantsNewGame, false), room.players);
    FindRoomSameRooms(s, s1, Some(room.name));
    forall k | 0 <= k < |room.players| ensures FindPlayer(s1, Some(room.players[k])).Some? {
      FindPlayerSameRoster(s, s1, Some(room.players[k]));
    }
  }

  /** Opening a game in a room whose distinct seats all have records deals each record by its seat. */
  lemma OpenGameDealsSeats(s: State, room: Room, starter: Option<Name>, deck: seq<Card>)
    requires FindRoom(s, Some(room.name)) == Some(room) && NoDup(room.players)
    requires forall k :: 0 <= k < |room.players| ==> FindPlayer(s, Some(room.players[k])).Some?
    ensures var r := OpenGame(s, room.name, starter, deck);
      !r.crashed && |r.state.players| == |s.players|
      && forall i :: 0 <= i < |s.players| ==> r.state.players[i] == DealtTo(s.players[i], room.players, deck, 0)
  {
    var s3 := Apply(Apply(s, SetGameStartingPlayer(room.name, starter)), CreateGame(room.name, starter));
    StarterAndGame(s, room.name, starter);
    FindRoomSameSeating(s, s3, Some(room.name));
    var room3 := FindRoom(s3, Some(room.name)).value;
    forall k | 0 <= k < |room.players| ensures FindPlayer(s3, Some(room.players[k])).Some? {
      FindPlayerSameRoster(s, s3, Some(room.players[k]));
    }
    DealCardsEffect(s3, room3, deck);
  }

  /** Record by record: wishes cleared for the seats, then the seats dealt. */
  lemma ClearThenDeal(ps: seq<Player>, ps1: seq<Player>, ps2: seq<Player>, seats: seq<Name>, deck: seq<Card>)
    requires |ps1| == |ps| == |ps2|
    requires forall i :: 0 <= i < |ps| ==>
      ps1[i] == (if ps[i].name.Some? && ps[i].name.value in seats then Act(SetFlag(WantsNewGame, false), ps[i]) else ps[i])
    requires forall i :: 0 <= i < |ps| ==> ps2[i] == DealtTo(ps1[i], seats, deck, 0)
    ensures forall i :: 0 <= i < |ps| ==> ps2[i] == StartedRecord(ps[i], seats, deck)
  {
  }

  /** Recording the starter and opening the game: one room's starter set, one game appended. */
  lemma StarterAndGame(s: State, roomName: Name, starter: Option<Name>)
    ensures var s3 := Apply(Apply(s, SetGameStartingPlayer(roomName, starter)), CreateGame(roomName, starter));
      s3.games == s.games + [NewGame(roomName, starter)]
      && s3.players == s.players && SameSeating(s, s3)
      && (FindRoom(s3, Some(roomName)).Some? <==> FindRoom(s, Some(roomName)).Some?)
      && s3.rooms == StarterSet(s.rooms, roomName, starter)
  {
    var s2 := Apply(s, SetGameStartingPlayer(roomName, starter));
    var s3 := Apply(s2, CreateGame(roomName, starter));
    assert s3.rooms == s2.rooms && s3.players == s2.players == s.players;
    assert s2.games == s.games && s3.games == s.games + [NewGame(roomName, starter)];
    ApplyKeepsSeating(s, SetGameStartingPlayer(roomName, starter));
    ApplyKeepsSeating(s2, CreateGame(roomName, starter));
    SameSeatingTrans(s, s2, s3);
    FindRoomSameSeating(s, s3, Some(roomName));
    StarterRooms(s, roomName, starter);
  }

  /** `STATE_SET_GAME_STARTING_PLAYER` sets that room's starter and no other room's. */
  lemma StarterRooms(s: State, roomName: Name, starter: Option<Name>)
    ensures Apply(s, SetGameStartingPlayer(roomName, starter)).rooms == StarterSet(s.rooms, roomName, starter)
  {
    var r := Apply(s, SetGameStartingPlayer(roomName, starter)).rooms;
    forall j | 0 <= j < |s.rooms|
      ensures r[j] == (if s.rooms[j].name == roomName then s.rooms[j].(gameStartingPlayer := starter) else s.rooms[j])
    {
      SetStarterOnlyStarter(s, roomName, starter, j);
    }
  }

  /** The rooms with the starting player of `roomName` set to `starter`; the others as they were. */
  function StarterSet(rooms: seq<Room>, roomName: Name, starter: Option<Name>): (r: seq<Room>)
    ensures |r| == |rooms|
    ensures forall j :: 0 <= j < |rooms| ==>
      r[j] == (if rooms[j].name == roomName then rooms[j].(gameStartingPlayer := starter) else rooms[j])
  {
    Map((room: Room) => if room.name == roomName then room.(gameStartingPlayer := starter) else room, rooms)
  }

  /** A starting player is only ever found for an existing room. */
  lemma StarterRoomExists(s: State, roomName: Name, pick: nat, newRoom: bool)
    ensures GameStartingPlayer(s, roomName, pick, newRoom).Returns? ==> FindRoom(s, Some(roomName)).Some?
  {
  }

  /** Dealing touches neither rooms nor games. */
  lemma DealKeepsRoomsAndGames(s: State, room: Name, deck: seq<Card>)
    ensures DealCards(s, room, deck).rooms == s.rooms && DealCards(s, room, deck).games == s.games
  {
    DealFromRooms(s, RoomNames(s, room), deck, 0);
  }

  /** `DealFrom` touches neither rooms nor games, nor any id or name. */
  lemma {:induction false} DealFromRooms(s: State, names: seq<Name>, deck: seq<Card>, seat: nat)
    ensures DealFrom(s, names, deck, seat).rooms == s.rooms && DealFrom(s, names, deck, seat).games == s.games
    ensures SameRoster(s, DealFrom(s, names, deck, seat))
    decreases |names|
  {
    if |names| > 0 {
      var s2 := Apply(Apply(s, CardsToHand(names[0], Hand(deck, seat))), SetPlayerWaitForMe(names[0], true));
      DealOne(s, names[0], Hand(deck, seat));
      DealFromRooms(s2, names[1..], deck, seat + 1);
    }
  }

  // ---------------------------------------------------------------------
  // Ending a game

  /**
   * `onGameEnd`: the game's scores are added to the room's rows, the game
   * is removed, and every room player loses all cards and the passed flag.
   * Finding no game (scoring) or no room afterwards throws.
   */
  function GameEnd(s: State, roomName: Name): (r: Step)
    ensures r.fired.None? && r.replies == []
    ensures GameScores(s, roomName).Throws? ==> r.crashed && r.state == s
  {
    match GameScores(s, roomName)
    case Throws => Crash(s)
    case Returns(scores) => CloseGame(Apply(s, AddScores(roomName, scores)), roomName)
  }

  /** The rest of `onGameEnd` once the scores are in. */
  function CloseGame(s: State, roomName: Name): Step {
    if FindRoom(s, Some(roomName)).None? then Crash(s)
    else Done(ResetRoomPlayers(Apply(s, RemoveGame(roomName)), roomName))
  }

  /** The two `forEach` loops of `onGameEnd`, each over the room's players as they stand. */
  function ResetRoomPlayers(s: State, roomName: Name): State {
    var s1 := ForEach(s, ClearCards, RoomNames(s, roomName));
    ForEach(s1, SetFlag(PassedHandOver, false), RoomNames(s1, roomName))
  }

  /** A record after `onGameEnd` reached it: no cards anywhere, hand-over not passed. */
  function Ended(p: Player): (r: Player)
    ensures AllCards(r) == [] && r.didPassedHandOver == Some(false)
    ensures r.id == p.id && r.name == p.name && r.isBot == p.isBot && r.waitForMe == p.waitForMe
    ensures r.shouldPassHandOver == p.shouldPassHandOver && r.wantsNewGame == p.wantsNewGame
  {
    p.(hand := [], handOver := [], grills := [], pile := [], didPassedHandOver := Some(false))
  }

  /** The rooms with the game's results appended to the rows of `roomName`. */
  function ScoresAdded(rooms: seq<Room>, roomName: Name, gameScores: seq<GameScore>): (r: seq<Room>)
    ensures |r| == |rooms|
    ensures forall j :: 0 <= j < |rooms| ==>
      r[j] == (if rooms[j].name == roomName then rooms[j].(scores := AppendScores(rooms[j].scores, gameScores)) else rooms[j])
  {
    Map((room: Room) => if room.name == roomName then room.(scores := AppendScores(room.scores, gameScores)) else room, rooms)
  }

  /**
   * Ending a game throws exactly when the room has no game or no room.
   * Otherwise the room's score rows each get the game's result, no game
   * of that room is left and the others stay, and exactly the records of
   * the room's players are emptied of cards with the passed flag cleared.
   */
  lemma GameEndResets(s: State, roomName: Name)
    ensures var r := GameEnd(s, roomName);
      r.crashed <==> FindGame(s, Some(roomName)).None? || FindRoom(s, Some(roomName)).None?
    ensures var r := GameEnd(s, roomName);
      !r.crashed ==>
        r.state.rooms == ScoresAdded(s.rooms, roomName, GameScores(s, roomName).value)
        && (forall g :: g in r.state.games <==> g in s.games && g.room != roomName)
        && |r.state.players| == |s.players|
        && forall i :: 0 <= i < |s.players| ==>
          r.state.players[i] == (if s.players[i].name.Some? && s.players[i].name.value in RoomNames(s, roomName)
            then Ended(s.players[i]) else s.players[i])
  {
    match GameScores(s, roomName)
    case Throws =>
    case Returns(scores) =>
      var s1 := Apply(s, AddScores(roomName, scores));
      assert GameEnd(s, roomName) == CloseGame(s1, roomName);
      ScoresFrame(s, roomName, scores);
      FindRoomSameSeating(s, s1, Some(roomName));
      RoomNamesSameSeating(s, s1, roomName);
      assert s1.players == s.players && RoomNames(s1, roomName) == RoomNames(s, roomName);
      CloseGameResets(s1, roomName);
  }

  /** Adding the scores moves nobody and touches only the rows of that room. */
  lemma ScoresFrame(s: State, roomName: Name, gameScores: seq<GameScore>)
    ensures var s1 := Apply(s, AddScores(roomName, gameScores));
      SameSeating(s, s1) && s1.players == s.players && s1.games == s.games
      && s1.rooms == ScoresAdded(s.rooms, roomName, gameScores)
  {
    ApplyKeepsSeating(s, AddScores(roomName, gameScores));
    var s1 := Apply(s, AddScores(roomName, gameScores));
    forall j | 0 <= j < |s.rooms|
      ensures s1.rooms[j] == (if s.rooms[j].name == roomName then s.rooms[j].(scores := AppendScores(s.rooms[j].scores, gameScores)) else s.rooms[j])
    {
      assert s1.rooms[j] == UpdateRoom(AddScores(roomName, gameScores), None, s.rooms[j]);
    }
  }

  /** Closing a game: it throws when the room is gone; otherwise the game goes and the room players are reset. */
  lemma CloseGameResets(s: State, roomName: Name)
    ensures CloseGame(s, roomName).crashed <==> FindRoom(s, Some(roomName)).None?
    ensures var r := CloseGame(s, roomName).state;
      FindRoom(s, Some(roomName)).Some? ==>
        r.rooms == s.rooms
        && (forall g :: g in r.games <==> g in s.games && g.room != roomName)
        && |r.players| == |s.players|
        && forall i :: 0 <= i < |s.players| ==>
          r.players[i] == (if s.players[i].name.Some? && s.players[i].name.value in RoomNames(s, roomName)
            then Ended(s.players[i]) else s.players[i])
  {
    if FindRoom(s, Some(roomName)).Some? {
      var s2 := Apply(s, RemoveGame(roomName));
      GameRemoved(s, roomName);
      ResetRoomPlayersEffect(s2, roomName);
    }
  }

  /** `STATE_REMOVE_GAME` removes that room's games only, and moves nobody. */
  lemma GameRemoved(s: State, roomName: Name)
    ensures var r := Apply(s, RemoveGame(roomName));
      r.rooms == s.rooms && r.players == s.players
      && (forall g :: g in r.games <==> g in s.games && g.room != roomName)
      && RoomNames(r, roomName) == RoomNames(s, roomName)
  {
    var r := Apply(s, RemoveGame(roomName));
    ApplyKeepsSeating(s, RemoveGame(roomName));
    RoomNamesSameSeating(s, r, roomName);
  }

  /** The two loops of `onGameEnd` turn exactly the room players' records into `Ended` ones. */
  lemma ResetRoomPlayersEffect(s: State, roomName: Name)
    ensures var r := ResetRoomPlayers(s, roomName);
      r.rooms == s.rooms && r.games == s.games && |r.players| == |s.players|
      && forall i :: 0 <= i < |s.players| ==>
        r.players[i] == (if s.players[i].name.Some? && s.players[i].name.value in RoomNames(s, roomName)
          then Ended(s.players[i]) else s.players[i])
  {
    var names := RoomNames(s, roomName);
    var s1 := ForEach(s, ClearCards, names);
    ForEachEffect(s, ClearCards, names);
    ForEachKeepsRoster(s, ClearCards, names);
    RoomNamesSameSeating(s, s1, roomName);
    ForEachEffect(s1, SetFlag(PassedHandOver, false), names);
  }

  // ---------------------------------------------------------------------
  // The dealt deck and the hand-over

  /** Whether a record has acknowledged its deal (`waitForMe === false`). */
  function Acknowledged(): Player -> bool {
    (p: Player) => p.waitForMe == Some(false)
  }

  /** The records of a room's players that have acknowledged their deal, in seat order. */
  function AcknowledgedIn(s: State, roomName: Name): seq<Player> {
    Filter(PlayersInRoom(s, Some(roomName)), Acknowledged())
  }

  /**
   * `onPlayerDeckDealt`: a player holding a fresh deal of eight cards
   * acknowledges it; once the four room players have, every one of them
   * is asked for the hand-over with `DO_PASS_HANDOVER`, the acting player
   * too when its own record is among the four. The room is the player's
   * room before the message; a player in a game always has one.
   */
  function DeckDealt(s: State, player: Player): (r: Step)
    requires player.name.Some?
    ensures !r.crashed && r.fired.None?
    ensures r.replies == [] || r.replies == [SV.DoPassHandOver]
    ensures !PlayerCanHaveDealtDeck(player, PlayerGame(s, player.id)) ==> r.state == s && r.replies == []
    ensures r.replies != [] <==>
      PlayerCanHaveDealtDeck(player, PlayerGame(s, player.id))
      && CompletesFour(s, player, PlayerRoom(s, player.id).value.name)
  {
    if !PlayerCanHaveDealtDeck(player, PlayerGame(s, player.id)) then Done(s)
    else
      var roomName := PlayerRoom(s, player.id).value.name;
      Step(Acknowledge(s, player.name.value, roomName), None,
        if CompletesFour(s, player, roomName) then [SV.DoPassHandOver] else [], false)
  }

  /**
   * Whether `player`'s acknowledgement makes the fourth in the room, with
   * a record of the player's own among the four to be asked.
   */
  function CompletesFour(s: State, player: Player, roomName: Name): bool
    requires player.name.Some?
  {
    var acked := AcknowledgedIn(Apply(s, SetPlayerWaitForMe(player.name.value, false)), roomName);
    |acked| == 4 && exists k :: 0 <= k < |acked| && acked[k].id == player.id
  }

  /** The acknowledgement: `name` is waited for no more, then the room is asked for the hand-over if all four have acknowledged. */
  function Acknowledge(s: State, name: Name, roomName: Name): State {
    AskWhenAllDealt(Apply(s, SetPlayerWaitForMe(name, false)), roomName)
  }

  /** The tail of `onPlayerDeckDealt`: with four acknowledgements, ask each of those players for the hand-over. */
  function AskWhenAllDealt(s: State, roomName: Name): State {
    var acked := AcknowledgedIn(s, roomName);
    if |acked| == 4 then ForEach(s, AskForHandOver, NamesOf(acked)) else s
  }

  /**
   * Asking for the hand-over happens only on four acknowledgements, then
   * reaches every acknowledged player, and never a record outside the room.
   */
  lemma AskWhenAllDealtEffect(s: State, roomName: Name)
    ensures var r := AskWhenAllDealt(s, roomName);
      var acked := AcknowledgedIn(s, roomName);
      r.rooms == s.rooms && r.games == s.games && |r.players| == |s.players|
      && forall i :: 0 <= i < |s.players| ==>
        (r.players[i] == s.players[i] || r.players[i] == Act(AskForHandOver, s.players[i]))
        && (|acked| != 4 ==> r.players[i] == s.players[i])
        && (|acked| == 4 && s.players[i].name.Some? && s.players[i].name.value in NamesOf(acked) ==>
          r.players[i] == Act(AskForHandOver, s.players[i]))
        && (s.players[i].name.None? || s.players[i].name.value !in RoomNames(s, roomName) ==>
          r.players[i] == s.players[i])
  {
    var acked := AcknowledgedIn(s, roomName);
    if |acked| == 4 {
      ForEachEffect(s, AskForHandOver, NamesOf(acked));
      forall n | n in NamesOf(acked) ensures n in RoomNames(s, roomName) {
        FilteredNames(PlayersInRoom(s, Some(roomName)), Acknowledged(), n);
      }
    }
  }

  /**
   * An acknowledgement moves no card and touches no room or game; the
   * acknowledging player either waits no more or, completing the four, is
   * asked for the hand-over; no record outside the room changes.
   */
  lemma AcknowledgeEffect(s: State, name: Name, roomName: Name)
    ensures var r := Acknowledge(s, name, roomName);
      r.rooms == s.rooms && r.games == s.games && |r.players| == |s.players|
      && forall i :: 0 <= i < |s.players| ==>
        var p, q := s.players[i], r.players[i];
        q.id == p.id && q.name == p.name && AllCards(q) == AllCards(p)
        && q.didPassedHandOver == p.didPassedHandOver && q.wantsNewGame == p.wantsNewGame
        && (p.name == Some(name) ==>
          q.waitForMe == Some(false) || (q.waitForMe == Some(true) && q.shouldPassHandOver == Some(true)))
        && (p.name != Some(name) && (p.name.None? || p.name.value !in RoomNames(s, roomName)) ==> q == p)
  {
    var s1 := Apply(s, SetPlayerWaitForMe(name, false));
    WaitNoMore(s, name, roomName);
    AskWhenAllDealtEffect(s1, roomName);
    AcknowledgeThenAsk(s.players, s1.players, Acknowledge(s, name, roomName).players, name, RoomNames(s, roomName));
  }

  /** `STATE_SET_PLAYER_WAIT_FOR_ME` to false clears the flag of the named records only, and moves nobody. */
  lemma WaitNoMore(s: State, name: Name, roomName: Name)
    ensures var r := Apply(s, SetPlayerWaitForMe(name, false));
      r.rooms == s.rooms && r.games == s.games && |r.players| == |s.players|
      && (forall i :: 0 <= i < |s.players| ==>
        r.players[i] == (if s.players[i].name == Some(name) then WithFlag(WaitForMe, s.players[i], false) else s.players[i]))
      && RoomNames(r, roomName) == RoomNames(s, roomName)
  {
    var r := Apply(s, SetPlayerWaitForMe(name, false));
    FlagOnName(s, WaitForMe, name, false);
    ApplyKeepsSeating(s, SetPlayerWaitForMe(name, false));
    RoomNamesSameSeating(s, r, roomName);
  }

  /** Record by record: setting the acknowledgement, then perhaps asking for the hand-over within the room. */
  lemma AcknowledgeThenAsk(ps: seq<Player>, ps1: seq<Player>, ps2: seq<Player>, name: Name, seated: seq<Name>)
    requires |ps1| == |ps| && |ps2| == |ps|
    requires forall i :: 0 <= i < |ps| ==>
      ps1[i] == (if ps[i].name == Some(name) then WithFlag(WaitForMe, ps[i], false) else ps[i])
    requires forall i :: 0 <= i < |ps| ==>
      (ps2[i] == ps1[i] || ps2[i] == Act(AskForHandOver, ps1[i]))
      && (ps1[i].name.None? || ps1[i].name.value !in seated ==> ps2[i] == ps1[i])
    ensures forall i :: 0 <= i < |ps| ==>
      var p, q := ps[i], ps2[i];
      q.id == p.id && q.name == p.name && AllCards(q) == AllCards(p)
      && q.didPassedHandOver == p.didPassedHandOver && q.wantsNewGame == p.wantsNewGame
      && (p.name == Some(name) ==>
        q.waitForMe == Some(false) || (q.waitForMe == Some(true) && q.shouldPassHandOver == Some(true)))
      && (p.name != Some(name) && (p.name.None? || p.name.value !in seated) ==> q == p)
  {
  }

  /**
   * A deal acknowledgement outside the dealt-deck phase changes nothing;
   * inside it, nothing throws or is fired and the acknowledgement takes
   * effect in the player's room as it stood before the message.
   */
  lemma DeckDealtEffect(s: State, player: Player)
    requires player.name.Some?
    ensures !PlayerCanHaveDealtDeck(player, PlayerGame(s, player.id)) ==> DeckDealt(s, player) == Done(s)
    ensures PlayerCanHaveDealtDeck(player, PlayerGame(s, player.id)) ==>
      PlayerRoom(s, player.id).Some?
      && DeckDealt(s, player).state == Acknowledge(s, player.name.value, PlayerRoom(s, player.id).value.name)
  {
  }

  /**
   * When the acting player is sent `DO_PASS_HANDOVER`, its record in the
   * new state is indeed waited for and owes the hand-over.
   */
  lemma DeckDealtAsksActor(s: State, player: Player)
    requires player.name.Some?
    ensures var r := DeckDealt(s, player);
      r.replies != [] ==>
        |r.state.players| == |s.players|
        && exists i :: 0 <= i < |s.players| && AskedRecord(s, r.state, i, player.id)
  {
    var r := DeckDealt(s, player);
    if r.replies != [] {
      var roomName := PlayerRoom(s, player.id).value.name;
      assert r.state == Acknowledge(s, player.name.value, roomName);
      CompletingAsks(s, player, roomName);
    }
  }

  /** Record `i` belongs to `id` and, in `t`, is waited for and owes the hand-over. */
  predicate AskedRecord(s: State, t: State, i: int, id: Id)
    requires 0 <= i < |s.players| && i < |t.players|
  {
    s.players[i].id == id && t.players[i].waitForMe == Some(true) && t.players[i].shouldPassHandOver == Some(true)
  }

  /** Where the `k`-th acknowledged record of a room sits among the records, named as the list of names has it. */
  lemma AckedRecordIndex(s: State, roomName: Name, k: int) returns (i: int)
    requires 0 <= k < |AcknowledgedIn(s, roomName)|
    ensures 0 <= i < |s.players| && s.players[i] == AcknowledgedIn(s, roomName)[k]
    ensures s.players[i].name == Some(NamesOf(AcknowledgedIn(s, roomName))[k])
  {
    var acked := AcknowledgedIn(s, roomName);
    assert acked[k] in PlayersInRoom(s, Some(roomName));
    i :| 0 <= i < |s.players| && s.players[i] == acked[k];
  }

  /** A record whose name is among those asked for the hand-over is asked. */
  lemma AskedAmongNames(s: State, s1: State, names: seq<Name>, i: int, id: Id)
    requires |s1.players| == |s.players| && 0 <= i < |s.players|
    requires s1.players[i].id == id && s.players[i].id == id
    requires s1.players[i].name.Some? && s1.players[i].name.value in names
    ensures var t := ForEach(s1, AskForHandOver, names);
      |t.players| == |s.players| && AskedRecord(s, t, i, id)
  {
    ForEachEffect(s1, AskForHandOver, names);
  }

  /** The acknowledgement that completes the four asks the acknowledging player's own record. */
  lemma CompletingAsks(s: State, player: Player, roomName: Name)
    requires player.name.Some? && CompletesFour(s, player, roomName)
    ensures var t := Acknowledge(s, player.name.value, roomName);
      |t.players| == |s.players| && exists i :: 0 <= i < |s.players| && AskedRecord(s, t, i, player.id)
  {
    var s1 := Apply(s, SetPlayerWaitForMe(player.name.value, false));
    var acked := AcknowledgedIn(s1, roomName);
    var k :| 0 <= k < |acked| && acked[k].id == player.id;
    var i := AckedRecordIndex(s1, roomName, k);
    WaitNoMore(s, player.name.value, roomName);
    AskedAmongNames(s, s1, NamesOf(acked), i, player.id);
  }

  /**
   * `onPlayHandOver`: three valid cards go to the player on the left. The
   * lookup of that player throws, or finds nobody, before any dispatch.
   */
  function PlayHandOver(s: State, player: Player, handOver: seq<Card>): (r: Step)
    requires player.name.Some?
    ensures r.fired.None?
    ensures r.crashed ==> HandOverIsValid(handOver, player) && r.state == s && r.replies == []
    ensures !HandOverIsValid(handOver, player) ==> r.state == s && !r.crashed && r.replies == []
    ensures HandOverIsValid(handOver, player) && !r.crashed ==>
      r.replies == (if |player.handOver| == 3 then [SV.DoTakeHandOver(player.handOver)] else [])
  {
    if !HandOverIsValid(handOver, player) then Done(s)
    else
      match PlayerOnLeft(s, player.name)
      case Throws => Crash(s)
      case Returns(left) =>
        if left.None? then Crash(s)
        else Step(PassToLeft(s, player.name.value, handOver, left.value.name), None, TakeOwnHandOver(player), false)
  }

  /**
   * The reply to a passer who already holds the three cards passed to it
   * (`playerHasHandover`): take them. It carries the cards of the record
   * the message came with.
   */
  function TakeOwnHandOver(player: Player): (r: seq<SV.ServerMessage>)
    ensures |r| <= 1
    ensures r != [] <==> |player.handOver| == 3
    ensures forall m :: m in r ==> m == SV.DoTakeHandOver(player.handOver)
  {
    if |player.handOver| == 3 then [SV.DoTakeHandOver(player.handOver)] else []
  }

  /** The two dispatches of `onPlayHandOver`: the cards move, and the passer owes no hand-over. */
  function PassToLeft(s: State, from: Name, handOver: seq<Card>, to: Option<Name>): State {
    Apply(Apply(s, PassHandOver(handOver, from, to)), SetPlayerShouldPassHandOver(from, false))
  }

  /**
   * An invalid hand-over changes nothing; a valid one throws exactly when
   * there is no player on the left, and otherwise is passed to that player,
   * and a passer already holding a hand-over of three is told to take it.
   */
  lemma PlayHandOverPasses(s: State, player: Player, handOver: seq<Card>)
    requires player.name.Some?
    ensures !HandOverIsValid(handOver, player) ==> PlayHandOver(s, player, handOver) == Done(s)
    ensures var r := PlayHandOver(s, player, handOver);
      var left := PlayerOnLeft(s, player.name);
      HandOverIsValid(handOver, player) ==>
        (r.crashed <==> left.Throws? || left.value.None?)
        && (!r.crashed ==>
              r.state == PassToLeft(s, player.name.value, handOver, left.value.value.name) && r.fired.None?
              && (r.replies != [] <==> |player.handOver| == 3)
              && (r.replies != [] ==> r.replies == [SV.DoTakeHandOver(player.handOver)]))
  {
  }

  /** Passing the hand-over touches no room or game and only the records of the passer and the receiver. */
  lemma PassToLeftFrame(s: State, from: Name, handOver: seq<Card>, to: Option<Name>)
    ensures var r := PassToLeft(s, from, handOver, to);
      r.rooms == s.rooms && r.games == s.games && |r.players| == |s.players|
      && forall k :: 0 <= k < |s.players| ==>
        r.players[k].id == s.players[k].id && r.players[k].name == s.players[k].name
        && (s.players[k].name != Some(from) && s.players[k].name != to ==> r.players[k] == s.players[k])
  {
    var m := PassHandOver(handOver, from, to);
    MapCasesFrame(s.players, m);
    ApplyKeepsSeating(s, m);
    FlagOnName(Apply(s, m), ShouldPassHandOver, from, false);
  }

  /**
   * Passing the hand-over: the passer (record `i`) loses exactly the
   * passed cards, keeping five of a duplicate-free hand of eight when
   * three distinct held cards go, is marked as having passed and owes no
   * hand-over; the receiver (record `j`) has exactly the passed cards
   * waiting, and the same hand.
   */
  lemma PassToLeftMoves(s: State, from: Name, handOver: seq<Card>, to: Option<Name>, i: int, j: int)
    requires 0 <= i < |s.players| && s.players[i].name == Some(from)
    requires 0 <= j < |s.players| && s.players[j].name == to && to != Some(from)
    ensures var r := PassToLeft(s, from, handOver, to);
      var p, q := r.players[i], r.players[j];
      (forall c :: c in p.hand <==> c in s.players[i].hand && c !in handOver)
      && p.handOver == s.players[i].handOver && p.grills == s.players[i].grills
      && p.didPassedHandOver == Some(true) && p.shouldPassHandOver == Some(false)
      && q.handOver == handOver && q.hand == s.players[j].hand
    ensures (NoDup(s.players[i].hand) && |s.players[i].hand| == 8 && NoDup(handOver) && |handOver| == 3
      && forall c :: c in handOver ==> c in s.players[i].hand) ==>
      |PassToLeft(s, from, handOver, to).players[i].hand| == 5
  {
    var m := PassHandOver(handOver, from, to);
    PassHandOverMoves(s.players, handOver, from, to, i, j);
    ApplyKeepsSeating(s, m);
    FlagOnName(Apply(s, m), ShouldPassHandOver, from, false);
  }

  /** A valid hand-over from a duplicate-free hand leaves the passer five cards in hand. */
  lemma PlayHandOverLeavesFive(s: State, player: Player, handOver: seq<Card>, i: int, j: int)
    requires player.name.Some? && NoDup(player.hand)
    requires 0 <= i < |s.players| && s.players[i] == player
    requires 0 <= j < |s.players|
    ensures var r := PlayHandOver(s, player, handOver);
      var left := PlayerOnLeft(s, player.name);
      HandOverIsValid(handOver, player) && left.Returns? && left.value.Some?
        && s.players[j].name == left.value.value.name && s.players[j].name != player.name ==>
        !r.crashed && |r.state.players| == |s.players| && |r.state.players[i].hand| == 5
        && r.state.players[j].handOver == handOver
  {
    var left := PlayerOnLeft(s, player.name);
    if HandOverIsValid(handOver, player) && left.Returns? && left.value.Some?
      && s.players[j].name == left.value.value.name && s.players[j].name != player.name
    {
      HandOverValidMeans(handOver, player);
      PlayHandOverPasses(s, player, handOver);
      PassToLeftFrame(s, player.name.value, handOver, left.value.value.name);
      PassToLeftMoves(s, player.name.value, handOver, left.value.value.name, i, j);
    }
  }

  /** `onTakeHandOver`: a player with three cards waiting and five in hand takes them. */
  function AcceptHandOver(s: State, player: Player): (r: Step)
    requires player.name.Some?
    ensures !r.crashed && r.fired.None? && r.replies == []
    ensures !PlayerCanTakeHandOver(player) ==> r.state == s
    ensures r.state.rooms == s.rooms && r.state.games == s.games
  {
    if !PlayerCanTakeHandOver(player) then Done(s)
    else Done(Apply(s, TakeHandOver(player.name.value)))
  }

  /**
   * Taking the hand-over outside its phase changes nothing. Otherwise each
   * record of the player moves the waiting cards into the hand, losing and
   * gaining no card, and the acting record ends with the full eight;
   * nothing else changes.
   */
  lemma AcceptHandOverEffect(s: State, player: Player)
    requires player.name.Some?
    ensures !PlayerCanTakeHandOver(player) ==> AcceptHandOver(s, player) == Done(s)
    ensures var r := AcceptHandOver(s, player);
      PlayerCanTakeHandOver(player) ==>
        !r.crashed && r.fired.None? && r.state.rooms == s.rooms && r.state.games == s.games
        && |r.state.players| == |s.players|
        && forall i :: 0 <= i < |s.players| ==>
          var p, q := s.players[i], r.state.players[i];
          (p.name == player.name ==>
            q.handOver == [] && multiset(q.hand) == multiset(p.hand) + multiset(p.handOver)
            && multiset(AllCards(q)) == multiset(AllCards(p))
            && (p == player ==> |q.hand| == 8))
          && (p.name != player.name ==> q == p)
  {
    if PlayerCanTakeHandOver(player) {
      var m := TakeHandOver(player.name.value);
      MapCasesFrame(s.players, m);
      forall i | 0 <= i < |s.players| && s.players[i].name == player.name
        ensures var q := Apply(s, m).players[i];
          q.handOver == [] && |q.hand| == |s.players[i].hand| + |s.players[i].handOver|
          && multiset(q.hand) == multiset(s.players[i].hand) + multiset(s.players[i].handOver)
          && multiset(AllCards(q)) == multiset(AllCards(s.players[i]))
      {
        TakeHandOverConserves(s.players, player.name.value, i);
      }
    }
  }

  /** `onPlayGrill`: a valid grill moves from the player's hand to the grills. */
  function PlayGrill(s: State, player: Player, grill: seq<Card>): (r: Step)
    requires player.name.Some?
    ensures !r.crashed && r.fired.None? && r.replies == []
    ensures !GrillIsValid(grill, player, PlayerGame(s, player.id)) ==> r.state == s
    ensures r.state.rooms == s.rooms && r.state.games == s.games
  {
    if !GrillIsValid(grill, player, PlayerGame(s, player.id)) then Done(s)
    else
      GrillFrame(s, grill, player.name.value);
      Done(Apply(s, PassGrill(grill, player.name.value)))
  }

  /**
   * An invalid grill changes nothing. A valid one leaves each record of
   * the player's hand without the grilled cards and appends them to the
   * grills; nothing else changes.
   */
  lemma PlayGrillEffect(s: State, player: Player, grill: seq<Card>)
    requires player.name.Some?
    ensures !GrillIsValid(grill, player, PlayerGame(s, player.id)) ==> PlayGrill(s, player, grill) == Done(s)
    ensures var r := PlayGrill(s, player, grill);
      GrillIsValid(grill, player, PlayerGame(s, player.id)) ==>
        !r.crashed && r.fired.None? && r.state.rooms == s.rooms && r.state.games == s.games
        && |r.state.players| == |s.players|
        && forall i :: 0 <= i < |s.players| ==>
          var p, q := s.players[i], r.state.players[i];
          (p.name == player.name ==>
            (forall c :: c in q.hand <==> c in p.hand && c !in grill) && q.grills == p.grills + grill)
          && (p.name != player.name ==> q == p)
  {
    GrillMoves(s, grill, player.name.value);
  }

  /** `STATE_PASS_GRILL` leaves the rooms and the games alone. */
  lemma GrillFrame(s: State, grill: seq<Card>, name: Name)
    ensures Apply(s, PassGrill(grill, name)).rooms == s.rooms && Apply(s, PassGrill(grill, name)).games == s.games
  {
    ApplyKeepsSeating(s, PassGrill(grill, name));
  }

  /** `STATE_PASS_GRILL` moves the grill out of the hand and onto the grills of the named records only. */
  lemma GrillMoves(s: State, grill: seq<Card>, name: Name)
    ensures var r := Apply(s, PassGrill(grill, name));
      r.rooms == s.rooms && r.games == s.games && |r.players| == |s.players|
      && forall i :: 0 <= i < |s.players| ==>
        var p, q := s.players[i], r.players[i];
        (p.name == Some(name) ==>
          (forall c :: c in q.hand <==> c in p.hand && c !in grill) && q.grills == p.grills + grill)
        && (p.name != Some(name) ==> q == p)
  {
    var m := PassGrill(grill, name);
    MapCasesFrame(s.players, m);
    forall i | 0 <= i < |s.players| && s.players[i].name == Some(name)
      ensures var q := Apply(s, m).players[i];
        (forall c :: c in q.hand <==> c in s.players[i].hand && c !in grill)
        && q.grills == s.players[i].grills + grill
    {
      PassGrillMoves(s.players, grill, name, i);
    }
  }

  /** For the acting record with a duplicate-free hand, a valid grill keeps hand and grills together the same cards. */
  lemma PlayGrillConserves(s: State, player: Player, grill: seq<Card>, i: int)
    requires player.name.Some? && NoDup(player.hand)
    requires 0 <= i < |s.players| && s.players[i] == player
    ensures var r := PlayGrill(s, player, grill);
      |r.state.players| == |s.players|
      && (GrillIsValid(grill, player, PlayerGame(s, player.id)) ==>
        var q := r.state.players[i];
        multiset(q.hand + q.grills) == multiset(player.hand + player.grills)
        && |q.hand| + |q.grills| == |player.hand| + |player.grills|)
  {
    var game := PlayerGame(s, player.id);
    if GrillIsValid(grill, player, game) {
      GrillValidMeans(grill, player, game);
      PassGrillMoves(s.players, grill, player.name.value, i);
    }
  }

  // ---------------------------------------------------------------------
  // Readiness

  /** Whether a record is ready to play: passed, not waited for, eight cards between hand and grills, none pending. */
  function ReadyToPlay(): Player -> bool {
    (p: Player) => p.didPassedHandOver == Some(true) && p.waitForMe == Some(false)
      && |p.hand + p.grills| == 8 && |p.handOver| == 0
  }

  /** The ready records of a room's players, in seat order. */
  function ReadyIn(s: State, roomName: Name): seq<Player> {
    Filter(PlayersInRoom(s, Some(roomName)), ReadyToPlay())
  }

  /**
   * `onPlayerIsReady`: a player past the hand-over says it is ready; once
   * four room players are, their passed flags are cleared and the first
   * round is announced with `LOGIC_PLAYERS_READY`.
   */
  function PlayerIsReady(s: State, player: Player): (r: Step)
    requires player.name.Some?
    ensures !r.crashed && r.replies == []
    ensures !PlayerCanBeReady(player, PlayerGame(s, player.id)) ==> r.state == s && r.fired.None?
    ensures r.fired.Some? ==>
      PlayerRoom(s, player.id).Some? && r.fired == Some(LM.PlayersReady(PlayerRoom(s, player.id).value.name))
  {
    if !PlayerCanBeReady(player, PlayerGame(s, player.id)) then Done(s)
    else BecomeReady(s, player.name.value, PlayerRoom(s, player.id).value.name)
  }

  /** The readiness itself: `name` is waited for no more, then the round starts if four are ready. */
  function BecomeReady(s: State, name: Name, roomName: Name): Step {
    StartWhenAllReady(Apply(s, SetPlayerWaitForMe(name, false)), roomName)
  }

  /** The tail of `onPlayerIsReady`. */
  function StartWhenAllReady(s: State, roomName: Name): Step {
    var ready := ReadyIn(s, roomName);
    if |ready| == 4 then Fire(ForEach(s, SetFlag(PassedHandOver, false), NamesOf(ready)), LM.PlayersReady(roomName))
    else Done(s)
  }

  /**
   * With four ready players the round starts: their passed flags are
   * cleared, the room has at least four seated records, and
   * `LOGIC_PLAYERS_READY` names the room. Otherwise nothing is fired and
   * nothing changes. No record outside the room changes either way.
   */
  lemma StartWhenAllReadyEffect(s: State, roomName: Name)
    ensures var r := StartWhenAllReady(s, roomName);
      var ready := ReadyIn(s, roomName);
      !r.crashed && r.state.rooms == s.rooms && r.state.games == s.games && |r.state.players| == |s.players|
      && (r.fired.Some? <==> |ready| == 4)
      && (r.fired.Some? ==> r.fired == Some(LM.PlayersReady(roomName)) && |RoomNames(s, roomName)| >= 4)
      && (r.fired.None? ==> r.state == s)
      && forall i :: 0 <= i < |s.players| ==>
        (r.state.players[i] == s.players[i] || r.state.players[i] == WithFlag(PassedHandOver, s.players[i], false))
        && (r.fired.Some? && s.players[i].name.Some? && s.players[i].name.value in NamesOf(ready) ==>
          r.state.players[i] == WithFlag(PassedHandOver, s.players[i], false))
        && (s.players[i].name.None? || s.players[i].name.value !in RoomNames(s, roomName) ==>
          r.state.players[i] == s.players[i])
  {
    var ready := ReadyIn(s, roomName);
    if |ready| == 4 {
      ForEachEffect(s, SetFlag(PassedHandOver, false), NamesOf(ready));
      forall n | n in NamesOf(ready) ensures n in RoomNames(s, roomName) {
        FilteredNames(PlayersInRoom(s, Some(roomName)), ReadyToPlay(), n);
      }
    }
  }

  /**
   * Becoming ready moves no card and touches no room or game; the player
   * is waited for no more; a fired message is `LOGIC_PLAYERS_READY` for
   * the room; no record outside the room changes.
   */
  lemma BecomeReadyEffect(s: State, name: Name, roomName: Name)
    ensures var r := BecomeReady(s, name, roomName);
      !r.crashed && r.state.rooms == s.rooms && r.state.games == s.games
      && (r.fired.Some? ==> r.fired == Some(LM.PlayersReady(roomName)))
      && |r.state.players| == |s.players|
      && forall i :: 0 <= i < |s.players| ==>
        var p, q := s.players[i], r.state.players[i];
        q.id == p.id && q.name == p.name && AllCards(q) == AllCards(p)
        && (p.name == Some(name) ==> q.waitForMe == Some(false))
        && (p.name != Some(name) && (p.name.None? || p.name.value !in RoomNames(s, roomName)) ==> q == p)
  {
    var s1 := Apply(s, SetPlayerWaitForMe(name, false));
    WaitNoMore(s, name, roomName);
    StartWhenAllReadyEffect(s1, roomName);
    ReadyThenReset(s.players, s1.players, BecomeReady(s, name, roomName).state.players, name, RoomNames(s, roomName));
  }

  /** Record by record: setting readiness, then perhaps clearing the passed flag within the room. */
  lemma ReadyThenReset(ps: seq<Player>, ps1: seq<Player>, ps2: seq<Player>, name: Name, seated: seq<Name>)
    requires |ps1| == |ps| && |ps2| == |ps|
    requires forall i :: 0 <= i < |ps| ==>
      ps1[i] == (if ps[i].name == Some(name) then WithFlag(WaitForMe, ps[i], false) else ps[i])
    requires forall i :: 0 <= i < |ps| ==>
      (ps2[i] == ps1[i] || ps2[i] == WithFlag(PassedHandOver, ps1[i], false))
      && (ps1[i].name.None? || ps1[i].name.value !in seated ==> ps2[i] == ps1[i])
    ensures forall i :: 0 <= i < |ps| ==>
      var p, q := ps[i], ps2[i];
      q.id == p.id && q.name == p.name && AllCards(q) == AllCards(p)
      && (p.name == Some(name) ==> q.waitForMe == Some(false))
      && (p.name != Some(name) && (p.name.None? || p.name.value !in seated) ==> q == p)
  {
  }

  /**
   * Saying "ready" outside its phase changes nothing; inside it, the
   * readiness takes effect in the player's room as it stood before the
   * message.
   */
  lemma PlayerIsReadyEffect(s: State, player: Player)
    requires player.name.Some?
    ensures !PlayerCanBeReady(player, PlayerGame(s, player.id)) ==> PlayerIsReady(s, player) == Done(s)
    ensures PlayerCanBeReady(player, PlayerGame(s, player.id)) ==>
      PlayerRoom(s, player.id).Some?
      && PlayerIsReady(s, player) == BecomeReady(s, player.name.value, PlayerRoom(s, player.id).value.name)
  {
  }

  /** A room player's grills. */
  function GrillsOf(): Player -> seq<Card> {
    (p: Player) => p.grills
  }

  /** The grills of the room's players, concatenated in seat order. */
  function RoomGrills(s: State, roomName: Name): seq<Card> {
    FlatMap(GrillsOf(), PlayersInRoom(s, Some(roomName)))
  }

  /** A card is in the room's grills exactly when some room player grilled it. */
  lemma RoomGrillsHold(s: State, roomName: Name, c: Card)
    ensures c in RoomGrills(s, roomName) <==> exists p :: p in PlayersInRoom(s, Some(roomName)) && c in p.grills
  {
    FlatMapHas(GrillsOf(), PlayersInRoom(s, Some(roomName)), c);
  }

  /**
   * `onPlayersReady`: snapshot the room players' grills into the game,
   * start the next round and announce it. The room record is looked up
   * before the snapshot; `STATE_NEXT_ROUND` without one throws as soon as
   * the games reducer reads it, so only when there is a game at all.
   */
  function PlayersReady(s: State, roomName: Name): (r: Step)
    ensures r.replies == []
    ensures r.crashed ==> FindRoom(s, Some(roomName)).None? && r.fired.None?
    ensures !r.crashed ==> r.fired == Some(LM.NextRound(roomName))
  {
    var room := FindRoom(s, Some(roomName));
    var s1 := Apply(s, CreateGrillsSnapshot(roomName, RoomGrills(s, roomName)));
    if room.None? then
      if |s1.games| > 0 then Crash(s1) else Fire(s1, LM.NextRound(roomName))
    else Fire(Apply(s1, NextRound(room.value, None)), LM.NextRound(roomName))
  }

  /** `STATE_CREATE_GRILLS_SNAPSHOT` sets the snapshot of that room's games and nothing else. */
  lemma SnapshotEffect(s: State, roomName: Name, grills: seq<Card>)
    ensures var r := Apply(s, CreateGrillsSnapshot(roomName, grills));
      r.players == s.players && r.rooms == s.rooms && |r.games| == |s.games|
      && forall i :: 0 <= i < |s.games| ==>
        r.games[i] == (if s.games[i].room == roomName then s.games[i].(grillsSnapshot := grills) else s.games[i])
  {
    ApplyKeepsSeating(s, CreateGrillsSnapshot(roomName, grills));
    forall i | 0 <= i < |s.games|
      ensures Apply(s, CreateGrillsSnapshot(roomName, grills)).games[i]
        == (if s.games[i].room == roomName then s.games[i].(grillsSnapshot := grills) else s.games[i])
    {
      TurnAndSnapshotOneField(s, roomName, None, grills, i);
    }
  }

  /** `STATE_NEXT_ROUND` with no player named advances that room's games and hands the turn to the starting player. */
  lemma NextRoundEffect(s: State, room: Room)
    ensures var r := Apply(s, NextRound(room, None));
      r.players == s.players && r.rooms == s.rooms && |r.games| == |s.games|
      && forall i :: 0 <= i < |s.games| ==>
        r.games[i] == (if s.games[i].room == room.name
          then s.games[i].(round := s.games[i].round + 1, playerOnTurn := room.gameStartingPlayer)
          else s.games[i])
  {
    ApplyKeepsSeating(s, NextRound(room, None));
  }

  /**
   * Starting the round throws exactly when the room is gone while some
   * game exists. Otherwise players and rooms stay, `LOGIC_NEXT_ROUND`
   * names the room, and each game of the room holds the room's grills,
   * moves one round on and gives the turn to the room's starting player;
   * every other game stays.
   */
  lemma PlayersReadyEffect(s: State, roomName: Name)
    ensures PlayersReady(s, roomName).crashed <==> FindRoom(s, Some(roomName)).None? && |s.games| > 0
    ensures var r := PlayersReady(s, roomName);
      !r.crashed ==>
        r.fired == Some(LM.NextRound(roomName)) && r.state.players == s.players && r.state.rooms == s.rooms
        && |r.state.games| == |s.games|
        && forall i :: 0 <= i < |s.games| ==>
          var g, h := s.games[i], r.state.games[i];
          (g.room == roomName ==>
            h.grillsSnapshot == RoomGrills(s, roomName) && h.round == g.round + 1 && h.table == g.table
            && h.playerOnTurn == FindRoom(s, Some(roomName)).value.gameStartingPlayer)
          && (g.room != roomName ==> h == g)
  {
    var grills := RoomGrills(s, roomName);
    var s1 := Apply(s, CreateGrillsSnapshot(roomName, grills));
    SnapshotEffect(s, roomName, grills);
    match FindRoom(s, Some(roomName))
    case None =>
    case Some(room) =>
      NextRoundEffect(s1, room);
  }
}

=== FILE: games_reducer.dfy ===
/**
 * The games reducer. Each game belongs to the room of the same name; the
 * trick cases find the game through the acting player's room as it stood
 * before the message.
 */
module GamesReducer {
  import opened Wrappers
  import opened Seqs
  import opened ArrayPolyfill
  import opened Cards
  import opened Entities
  import opened StateMessages

  /** `player.room()` reduced to its name; `undefined` when the player sits nowhere. */
  function RoomNameOf(s: State, p: Player): (r: Option<Name>)
    ensures r.Some? <==> PlayerRoom(s, p.id).Some?
    ensures r.Some? ==> r.value == PlayerRoom(s, p.id).value.name
  {
    match PlayerRoom(s, p.id)
    case None => None
    case Some(room) => Some(room.name)
  }

  /**
   * Whether a `map` case rewrites game `g`. `actorRoom` is the room name of
   * the player a trick message names.
   */
  predicate TargetsGame(m: StateMessage, actorRoom: Option<Name>, g: Game) {
    match m
    case PassTrick(_, _) => actorRoom == Some(g.room)
    case PlayCard(_, _) => actorRoom == Some(g.room)
    case NextRound(roomRecord, _) => roomRecord.name == g.room
    case NextTurn(room, _) => room == g.room
    case CreateGrillsSnapshot(roomName, _) => roomName == g.room
    case ReplacePlayerWithBot(player, _) => g.playerOnTurn == Some(player)
    case _ => false
  }

  /** The messages the reducer handles with a `map` over the games. */
  predicate IsGameMapCase(m: StateMessage) {
    m.PassTrick? || m.PlayCard? || m.NextRound? || m.NextTurn? || m.CreateGrillsSnapshot? || m.ReplacePlayerWithBot?
  }

  /** One game under a `map` case; an untargeted game comes back as it was. */
  function UpdateGame(m: StateMessage, actorRoom: Option<Name>, g: Game): (r: Game)
    ensures !TargetsGame(m, actorRoom, g) ==> r == g
    ensures r.room == g.room && r.round >= g.round
  {
    if !TargetsGame(m, actorRoom, g) then g
    else
      match m
      case PassTrick(_, _) => g.(table := [])
      case PlayCard(_, card) => g.(table := g.table + [card])
      case NextRound(roomRecord, playerOnTurn) =>
        g.(round := g.round + 1, playerOnTurn := NameOr(playerOnTurn, roomRecord.gameStartingPlayer))
      case NextTurn(_, playerOnTurn) => g.(playerOnTurn := playerOnTurn)
      case CreateGrillsSnapshot(_, grills) => g.(grillsSnapshot := grills)
      case ReplacePlayerWithBot(_, bot) => g.(playerOnTurn := bot.name)
      case _ => g
  }

  /** The room a trick message acts in: the receiver's or the card player's room. */
  function ActorRoom(s: State, m: StateMessage): (r: Option<Name>)
    ensures m.PassTrick? ==> r == RoomNameOf(s, m.receiver)
    ensures m.PlayCard? ==> r == RoomNameOf(s, m.playedBy)
    ensures !m.PassTrick? && !m.PlayCard? ==> r.None?
  {
    match m
    case PassTrick(receiver, _) => RoomNameOf(s, receiver)
    case PlayCard(playedBy, _) => RoomNameOf(s, playedBy)
    case _ => None
  }

  /** `STATE_REMOVE_GAME`: every game of that room goes, the rest stay in order. */
  function RemoveByRoom(games: seq<Game>, room: Name): (r: seq<Game>)
    ensures forall g :: g in r ==> g.room != room && g in games
    ensures forall g :: g in games && g.room != room ==> g in r
    ensures |r| <= |games|
  {
    var r := Filter(games, (g: Game) => g.room != room);
    assert forall g :: g in games && g.room != room ==> g in r by {
      forall g | g in games && g.room != room ensures g in r {
        assert g in multiset(games);
        assert g in multiset(r);
      }
    }
    r
  }

  /** A `map` case applied to every game, in order. */
  function MapGames(games: seq<Game>, m: StateMessage, actorRoom: Option<Name>): (r: seq<Game>)
    ensures |r| == |games|
    ensures forall i :: 0 <= i < |r| ==> r[i] == UpdateGame(m, actorRoom, games[i])
  {
    Map((g: Game) => UpdateGame(m, actorRoom, g), games)
  }

  /** A fresh game: empty table, round 0, no grills snapshot. */
  function NewGame(room: Name, playerOnTurn: Option<Name>): (g: Game)
    ensures g.room == room && g.table == [] && g.round == 0 && g.grillsSnapshot == [] && g.playerOnTurn == playerOnTurn
  {
    Game(room, [], 0, [], playerOnTurn)
  }

  /** The games reducer. */
  function ReduceGames(s: State, m: StateMessage): (r: seq<Game>)
    ensures IsGameMapCase(m) ==> (|r| == |s.games|
      && forall i :: 0 <= i < |r| ==> r[i] == UpdateGame(m, ActorRoom(s, m), s.games[i]))
    ensures m.CreateGame? ==> r == s.games + [NewGame(m.room, m.playerOnTurn)]
    ensures m.RemoveGame? ==> r == RemoveByRoom(s.games, m.room)
    ensures (!IsGameMapCase(m) && !m.CreateGame? && !m.RemoveGame?) ==> r == s.games
  {
    match m
    case CreateGame(room, playerOnTurn) => s.games + [NewGame(room, playerOnTurn)]
    case RemoveGame(room) => RemoveByRoom(s.games, room)
    case _ => if IsGameMapCase(m) then MapGames(s.games, m, ActorRoom(s, m)) else s.games
  }

  /** `STATE_PLAY_CARD` lays the card last on the table of the player's game and on no other table. */
  lemma PlayCardLaysLast(s: State, playedBy: Player, card: Card, i: int)
    requires 0 <= i < |s.games|
    ensures var before := s.games[i];
      var after := ReduceGames(s, PlayCard(playedBy, card))[i];
      (RoomNameOf(s, playedBy) == Some(before.room) ==> after == before.(table := before.table + [card]))
      && (RoomNameOf(s, playedBy) != Some(before.room) ==> after == before)
  {
  }

  /** `STATE_PASS_TRICK` clears the table of the receiver's game and of no other. */
  lemma PassTrickClears(s: State, receiver: Player, trick: seq<Card>, i: int)
    requires 0 <= i < |s.games|
    ensures var before := s.games[i];
      var after := ReduceGames(s, PassTrick(receiver, trick))[i];
      (RoomNameOf(s, receiver) == Some(before.room) ==> after == before.(table := []))
      && (RoomNameOf(s, receiver) != Some(before.room) ==> after == before)
  {
  }

  /**
   * `STATE_NEXT_ROUND` advances the round by exactly one and hands the turn
   * to the named player, or to the room's starting player when that name
   * is missing or empty.
   */
  lemma NextRoundAdvances(s: State, roomRecord: Room, playerOnTurn: Option<Name>, i: int)
    requires 0 <= i < |s.games| && s.games[i].room == roomRecord.name
    ensures var before := s.games[i];
      var after := ReduceGames(s, NextRound(roomRecord, playerOnTurn))[i];
      after.round == before.round + 1 && after.table == before.table && after.grillsSnapshot == before.grillsSnapshot
      && (TruthyName(playerOnTurn) ==> after.playerOnTurn == playerOnTurn)
      && (!TruthyName(playerOnTurn) ==> after.playerOnTurn == roomRecord.gameStartingPlayer)
  {
  }

  /** `STATE_NEXT_TURN` and `STATE_CREATE_GRILLS_SNAPSHOT` change one field of that room's game. */
  lemma TurnAndSnapshotOneField(s: State, room: Name, playerOnTurn: Option<Name>, grills: seq<Card>, i: int)
    requires 0 <= i < |s.games|
    ensures var before := s.games[i];
      (room == before.room ==>
        ReduceGames(s, NextTurn(room, playerOnTurn))[i] == before.(playerOnTurn := playerOnTurn)
        && ReduceGames(s, CreateGrillsSnapshot(room, grills))[i] == before.(grillsSnapshot := grills))
      && (room != before.room ==>
        ReduceGames(s, NextTurn(room, playerOnTurn))[i] == before
        && ReduceGames(s, CreateGrillsSnapshot(room, grills))[i] == before)
  {
  }

  /** `STATE_REPLACE_PLAYER_WITH_BOT` hands the leaver's turn, in any game, to the bot. */
  lemma ReplaceHandsTurn(s: State, player: Name, bot: Player, i: int)
    requires 0 <= i < |s.games|
    ensures var before := s.games[i];
      var after := ReduceGames(s, ReplacePlayerWithBot(player, bot))[i];
      (before.playerOnTurn == Some(player) ==> after == before.(playerOnTurn := bot.name))
      && (before.playerOnTurn != Some(player) ==> after == before)
  {
  }

  /** `STATE_CREATE_GAME` opens one fresh game; `STATE_REMOVE_GAME` leaves none for that room. */
  lemma CreateAndRemoveGame(s: State, room: Name, playerOnTurn: Option<Name>)
    ensures var r := ReduceGames(s, CreateGame(room, playerOnTurn));
      |r| == |s.games| + 1 && r[|s.games|].room == room && r[|s.games|].round == 0 && r[|s.games|].table == []
    ensures forall g :: g in ReduceGames(s, RemoveGame(room)) <==> g in s.games && g.room != room
  {
  }

  /** No message makes a round number negative. */
  lemma ReduceKeepsRoundsNatural(s: State, m: StateMessage)
    requires forall i :: 0 <= i < |s.games| ==> s.games[i].round >= 0
    ensures forall g :: g in ReduceGames(s, m) ==> g.round >= 0
  {
    var r := ReduceGames(s, m);
    forall g | g in r ensures g.round >= 0 {
      var k :| 0 <= k < |r| && r[k] == g;
      if IsGameMapCase(m) {
        assert g == UpdateGame(m, ActorRoom(s, m), s.games[k]);
      } else if m.CreateGame? {
        assert r == s.games + [NewGame(m.room, m.playerOnTurn)];
        if k < |s.games| {
          assert g == s.games[k];
        }
      } else if m.RemoveGame? {
        assert g in s.games;
      } else {
        assert g == s.games[k];
      }
    }
  }
}

=== FILE: messages.dfy ===
/**
 * The four message vocabularies of the server: state messages (reducer
 * inputs), logic messages (internal phase events), client messages (what a
 * player or bot sends) and server messages (what a player receives). Each
 * lives in its own module because the program reuses type names across them.
 */
module StateMessages {
  import opened Wrappers
  import opened Cards
  import opened Entities

  /**
   * A reducer input. Fields the program types as a name but a handler may
   * fill from a failed lookup (a seat index past the end, an unset starting
   * player) are `Option<Name>`.
   */
  datatype StateMessage =
    | CreateNewPlayer(newPlayer: Player)
    | RemovePlayer(id: Id)
    | AddRoom(newRoom: Room)
    | RemoveRoom(room: Name)
    | AddPlayerToRoom(name: Name, room: Name)
    | ReplacePlayerWithBot(player: Name, bot: Player)
    | AddBot(bot: Player, room: Name)
    | CreateGame(room: Name, playerOnTurn: Option<Name>)
    | RemoveGame(room: Name)
    | RemovePlayerCards(player: Name)
    | CardsToHand(player: Name, cards: seq<Card>)
    | PlayerChangeName(renamed: Player, name: Name)
    | SetGameStartingPlayer(room: Name, starter: Option<Name>)
    | SetPlayerWaitForMe(player: Name, value: bool)
    | SetPlayerShouldPassHandOver(player: Name, value: bool)
    | SetPlayerPassedHandOver(player: Name, value: bool)
    | SetPlayerWantsNewGame(player: Name, value: bool)
    | PassHandOver(handOver: seq<Card>, from: Name, to: Option<Name>)
    | TakeHandOver(player: Name)
    | PassGrill(grill: seq<Card>, player: Name)
    | PlayCard(playedBy: Player, card: Card)
    | PassTrick(receiver: Player, trick: seq<Card>)
    | NextRound(roomRecord: Room, playerOnTurn: Option<Name>)
    | NextTurn(room: Name, playerOnTurn: Option<Name>)
    | CreateGrillsSnapshot(roomName: Name, grills: seq<Card>)
    | AddScores(room: Name, gameScores: seq<GameScore>)
    /** Any message the reducers do not handle (logic and client messages also reach the store). */
    | Unhandled
}

module LogicMessages {
  import opened Entities

  datatype LogicMessage =
    | PlayerJoinedRoom(name: Name)
    | RoomStart(name: Name)
    | GameStart(roomName: Name, newRoom: bool)
    | PlayersReady(roomName: Name)
    | NextRound(roomName: Name)
    | FinishRound(roomName: Name)
    | GameEnd(roomName: Name)
}

module ClientMessages {
  import opened Wrappers
  import opened Cards
  import opened Entities

  /**
   * What a client or a bot sends; the sending player is carried alongside.
   * A bot can send `PLAY_CARD` without a card, hence the optional card.
   */
  datatype ClientMessage =
    | Connect
    | Disconnect
    | Register(name: Name)
    | CreateRoom(name: Name)
    | JoinRoom(name: Name)
    | LeaveRoom
    | AddBot
    | PlayHandOver(handOver: seq<Card>)
    | TakeHandOver
    | PlayGrill(grill: seq<Card>)
    | PlayCard(card: Option<Card>)
    | DeckDealt
    | IAmReady
    | IWantNewGame
    | GetRooms
    | SendChatMessage(text: string)
}

module ServerMessages {
  import opened Wrappers
  import opened Cards
  import opened Entities

  datatype RoomAvailability = RoomAvailability(name: Name, available: bool)

  datatype ServerMessage =
    | ConnectionConfirmation
    | ServerFull
    | Registered(name: Name)
    | NameTaken
    | RoomCreated(name: Name)
    | RoomNameTaken
    | RoomJoined(name: Name, players: seq<Name>)
    | RoomFull
    | RoomLeft
    | PlayerJoined(player: Name)
    | PlayerReplacedWithBot(player: Name, bot: Name)
    | GameStarted
    | GameEnded
    | NextRound
    | NextTurn(playerOnTurn: Option<Name>)
    | DealDeck(hand: seq<Card>)
    | DoPassHandOver
    | DoTakeHandOver(handOver: seq<Card>)
    | HandOverPlayed(from: Name)
    | HandOverTaken(player: Name)
    | GrillPlayed(player: Name, grill: seq<Card>)
    | CardPlayed(player: Name, card: Card, cardFromGrill: bool)
    | TrickFinished(receiver: Name)
    | AvailableRooms(rooms: seq<RoomAvailability>)
    | UpdatedScores(scores: seq<GameScore>)
    | ChatMessage(text: string, player: Name)
}

=== FILE: players_reducer.dfy ===
/**
 * The players reducer: a total function from the player list and a state
 * message to the next player list. Every `map` case rewrites the players
 * the message targets and leaves the others, and the list's order, alone.
 */
module PlayersReducer {
  import opened Wrappers
  import opened Seqs
  import opened ArrayPolyfill
  import opened Cards
  import opened Entities
  import opened StateMessages

  /** The messages the reducer handles with a `map` over the players. */
  predicate IsMapCase(m: StateMessage) {
    m.CardsToHand? || m.RemovePlayerCards? || m.SetPlayerWaitForMe? || m.SetPlayerShouldPassHandOver?
    || m.SetPlayerPassedHandOver? || m.SetPlayerWantsNewGame? || m.PassHandOver? || m.TakeHandOver?
    || m.PassTrick? || m.PassGrill? || m.PlayCard? || m.PlayerChangeName?
  }

  /** Whether a `map` case rewrites player `p`: by name, or by id for a name change. */
  predicate Targets(m: StateMessage, p: Player) {
    match m
    case CardsToHand(name, _) => p.name == Some(name)
    case RemovePlayerCards(name) => p.name == Some(name)
    case SetPlayerWaitForMe(name, _) => p.name == Some(name)
    case SetPlayerShouldPassHandOver(name, _) => p.name == Some(name)
    case SetPlayerPassedHandOver(name, _) => p.name == Some(name)
    case SetPlayerWantsNewGame(name, _) => p.name == Some(name)
    case PassHandOver(_, from, to) => p.name == Some(from) || p.name == to
    case TakeHandOver(name) => p.name == Some(name)
    case PassTrick(receiver, _) => p.name == receiver.name
    case PassGrill(_, name) => p.name == Some(name)
    case PlayCard(playedBy, _) => p.name == playedBy.name
    case PlayerChangeName(renamed, _) => p.id == renamed.id
    case _ => false
  }

  /** `cards.filter(cardIsNotIn(removed))`. */
  function Without(cards: seq<Card>, removed: seq<Card>): (r: seq<Card>)
    ensures forall c :: c in r <==> c in cards && c !in removed
    ensures forall c :: c !in removed ==> multiset(r)[c] == multiset(cards)[c]
  {
    var r := Filter(cards, (c: Card) => c !in removed);
    assert forall c :: c in r <==> c in cards && c !in removed by {
      forall c ensures c in r <==> c in cards && c !in removed {
        assert c in r <==> c in multiset(r);
        assert c in cards <==> c in multiset(cards);
      }
    }
    r
  }

  /** One player under a `map` case; an untargeted player comes back as it was. */
  function UpdatePlayer(m: StateMessage, p: Player): (r: Player)
    ensures !Targets(m, p) ==> r == p
    ensures r.id == p.id && r.isBot == p.isBot
    ensures !m.PlayerChangeName? ==> r.name == p.name
  {
    if !Targets(m, p) then p
    else
      match m
      case CardsToHand(_, cards) => p.(hand := p.hand + cards)
      case RemovePlayerCards(_) => p.(hand := [], handOver := [], grills := [], pile := [])
      case SetPlayerWaitForMe(_, value) => p.(waitForMe := Some(value))
      case SetPlayerShouldPassHandOver(_, value) => p.(shouldPassHandOver := Some(value))
      case SetPlayerPassedHandOver(_, value) => p.(didPassedHandOver := Some(value))
      case SetPlayerWantsNewGame(_, value) => p.(wantsNewGame := Some(value))
      case PassHandOver(handOver, from, _) =>
        if p.name == Some(from) then p.(hand := Without(p.hand, handOver), didPassedHandOver := Some(true))
        else p.(handOver := handOver)
      case TakeHandOver(_) => p.(hand := p.hand + p.handOver, handOver := [])
      case PassTrick(_, trick) => p.(pile := p.pile + trick)
      case PassGrill(grill, _) => p.(hand := Without(p.hand, grill), grills := p.grills + grill)
      case PlayCard(_, card) => p.(hand := Without(p.hand, [card]), grills := Without(p.grills, [card]))
      case PlayerChangeName(_, name) => p.(name := Some(name))
      case _ => p
  }

  /** A `map` case applied to every player, in order. */
  function MapPlayers(players: seq<Player>, m: StateMessage): (r: seq<Player>)
    ensures |r| == |players|
    ensures forall i :: 0 <= i < |r| ==> r[i] == UpdatePlayer(m, players[i])
  {
    Map((p: Player) => UpdatePlayer(m, p), players)
  }

  /** `STATE_REMOVE_PLAYER`: every player with that id goes, the rest stay in order. */
  function RemoveById(players: seq<Player>, id: Id): (r: seq<Player>)
    ensures forall p :: p in r ==> p.id != id && p in players
    ensures forall p :: p in players && p.id != id ==> p in r
    ensures |r| <= |players|
  {
    var r := Filter(players, (p: Player) => p.id != id);
    assert forall p :: p in players && p.id != id ==> p in r by {
      forall p | p in players && p.id != id ensures p in r {
        assert p in multiset(players);
        assert p in multiset(r);
      }
    }
    r
  }

  /** The players reducer. */
  function ReducePlayers(players: seq<Player>, m: StateMessage): (r: seq<Player>)
    ensures IsMapCase(m) ==> (|r| == |players|
      && forall i :: 0 <= i < |r| ==> r[i] == UpdatePlayer(m, players[i]))
    ensures m.CreateNewPlayer? ==> r == players + [m.newPlayer]
    ensures m.AddBot? || m.ReplacePlayerWithBot? ==> r == players + [m.bot]
    ensures m.RemovePlayer? ==> r == RemoveById(players, m.id)
    ensures (!IsMapCase(m) && !m.CreateNewPlayer? && !m.AddBot? && !m.ReplacePlayerWithBot?
      && !m.RemovePlayer?) ==> r == players
  {
    match m
    case CreateNewPlayer(p) => players + [p]
    case AddBot(bot, _) => players + [bot]
    case ReplacePlayerWithBot(_, bot) => players + [bot]
    case RemovePlayer(id) => RemoveById(players, id)
    case _ => if IsMapCase(m) then MapPlayers(players, m) else players
  }

  /**
   * Every `map` case keeps the list's length, order and ids, and leaves
   * each player it does not target exactly as it was.
   */
  lemma MapCasesFrame(players: seq<Player>, m: StateMessage)
    requires IsMapCase(m)
    ensures |ReducePlayers(players, m)| == |players|
    ensures forall i :: 0 <= i < |players| ==>
      ReducePlayers(players, m)[i].id == players[i].id
      && (!Targets(m, players[i]) ==> ReducePlayers(players, m)[i] == players[i])
  {
  }

  /** All the cards a player holds in any pile. */
  function AllCards(p: Player): seq<Card> {
    p.hand + p.handOver + p.grills + p.pile
  }

  /** `STATE_CARDS_TO_HAND` adds exactly the given cards to the named player's hand. */
  lemma CardsToHandAdds(players: seq<Player>, name: Name, cards: seq<Card>, i: int)
    requires 0 <= i < |players| && players[i].name == Some(name)
    ensures var p := ReducePlayers(players, CardsToHand(name, cards))[i];
      multiset(p.hand) == multiset(players[i].hand) + multiset(cards)
      && p.handOver == players[i].handOver && p.grills == players[i].grills && p.pile == players[i].pile
      && multiset(AllCards(p)) == multiset(AllCards(players[i])) + multiset(cards)
  {
  }

  /** `STATE_REMOVE_PLAYER_CARDS` leaves the named player holding nothing. */
  lemma RemovePlayerCardsEmpties(players: seq<Player>, name: Name, i: int)
    requires 0 <= i < |players| && players[i].name == Some(name)
    ensures AllCards(ReducePlayers(players, RemovePlayerCards(name))[i]) == []
  {
  }

  /**
   * `STATE_PASS_HANDOVER`: the sender loses every hand card that is in the
   * hand-over and is marked as having passed; the receiver's hand-over is
   * replaced, not extended. With three distinct hand cards passed from a
   * duplicate-free hand of eight, five remain.
   */
  lemma PassHandOverMoves(players: seq<Player>, handOver: seq<Card>, from: Name, to: Option<Name>, i: int, j: int)
    requires 0 <= i < |players| && players[i].name == Some(from)
    requires 0 <= j < |players| && players[j].name == to && to != Some(from)
    ensures var r := ReducePlayers(players, PassHandOver(handOver, from, to));
      (forall c :: c in r[i].hand <==> c in players[i].hand && c !in handOver)
      && r[i].didPassedHandOver == Some(true)
      && r[j].handOver == handOver && r[j].hand == players[j].hand
    ensures (NoDup(players[i].hand) && |players[i].hand| == 8 && NoDup(handOver) && |handOver| == 3
      && (forall c :: c in handOver ==> c in players[i].hand)) ==>
      |ReducePlayers(players, PassHandOver(handOver, from, to))[i].hand| == 5
  {
    var m := PassHandOver(handOver, from, to);
    assert IsMapCase(m) && Targets(m, players[i]) && Targets(m, players[j]);
    var p := UpdatePlayer(m, players[i]);
    var q := UpdatePlayer(m, players[j]);
    assert p.hand == Without(players[i].hand, handOver) && p.didPassedHandOver == Some(true);
    assert q == players[j].(handOver := handOver);
    assert ReducePlayers(players, m)[i] == p && ReducePlayers(players, m)[j] == q;
    var h := players[i].hand;
    if NoDup(h) && |h| == 8 && NoDup(handOver) && |handOver| == 3 && forall c :: c in handOver ==> c in h {
      RemovedCount(h, handOver);
    }
  }

  /** Removing `k` distinct held cards from a duplicate-free list leaves `|cards| - k`. */
  lemma RemovedCount(cards: seq<Card>, removed: seq<Card>)
    requires NoDup(cards) && NoDup(removed) && forall c :: c in removed ==> c in cards
    ensures |Without(cards, removed)| == |cards| - |removed|
    ensures multiset(Without(cards, removed)) + multiset(removed) == multiset(cards)
  {
    var w := Without(cards, removed);
    NoDupMultiplicity(cards);
    NoDupMultiplicity(removed);
    assert multiset(w) + multiset(removed) == multiset(cards) by {
      forall c ensures (multiset(w) + multiset(removed))[c] == multiset(cards)[c] {
        if c in removed {
          assert c in cards && c !in w;
          assert c in multiset(removed) && c in multiset(cards);
        } else {
          assert c !in multiset(removed);
        }
      }
    }
    assert |multiset(w) + multiset(removed)| == |multiset(cards)|;
  }

  /** `STATE_TAKE_HANDOVER` moves the hand-over into the hand: nothing is lost or gained. */
  lemma TakeHandOverConserves(players: seq<Player>, name: Name, i: int)
    requires 0 <= i < |players| && players[i].name == Some(name)
    ensures var p := ReducePlayers(players, TakeHandOver(name))[i];
      p.handOver == []
      && |p.hand| == |players[i].hand| + |players[i].handOver|
      && multiset(p.hand) == multiset(players[i].hand) + multiset(players[i].handOver)
      && multiset(AllCards(p)) == multiset(AllCards(players[i]))
  {
    var q := players[i];
    var p := ReducePlayers(players, TakeHandOver(name))[i];
    assert p == q.(hand := q.hand + q.handOver, handOver := []);
    assert AllCards(p) == q.hand + q.handOver + q.grills + q.pile;
  }

  /**
   * `STATE_PASS_GRILL` moves the grilled cards from the hand to the grills;
   * for distinct held cards from a duplicate-free hand, hand plus grills
   * keeps its cards.
   */
  lemma PassGrillMoves(players: seq<Player>, grill: seq<Card>, name: Name, i: int)
    requires 0 <= i < |players| && players[i].name == Some(name)
    ensures var p := ReducePlayers(players, PassGrill(grill, name))[i];
      (forall c :: c in p.hand <==> c in players[i].hand && c !in grill)
      && p.grills == players[i].grills + grill
    ensures NoDup(players[i].hand) && NoDup(grill) && (forall c :: c in grill ==> c in players[i].hand) ==>
      var p := ReducePlayers(players, PassGrill(grill, name))[i];
      |p.hand| + |p.grills| == |players[i].hand| + |players[i].grills|
      && multiset(p.hand + p.grills) == multiset(players[i].hand + players[i].grills)
  {
    var h := players[i].hand;
    if NoDup(h) && NoDup(grill) && (forall c :: c in grill ==> c in h) {
      RemovedCount(h, grill);
    }
  }

  /**
   * `STATE_PLAY_CARD` removes the card from both hand and grills; from a
   * duplicate-free hand plus grills holding it, exactly that one card goes.
   */
  lemma PlayCardRemoves(players: seq<Player>, playedBy: Player, card: Card, i: int)
    requires 0 <= i < |players| && players[i].name == playedBy.name
    ensures var p := ReducePlayers(players, PlayCard(playedBy, card))[i];
      card !in p.hand && card !in p.grills
      && forall c :: c != card ==> multiset(p.hand + p.grills)[c] == multiset(players[i].hand + players[i].grills)[c]
    ensures NoDup(players[i].hand + players[i].grills) && card in players[i].hand + players[i].grills ==>
      var p := ReducePlayers(players, PlayCard(playedBy, card))[i];
      multiset(p.hand + p.grills) + multiset{card} == multiset(players[i].hand + players[i].grills)
  {
    var m := PlayCard(playedBy, card);
    var q := players[i];
    assert IsMapCase(m) && Targets(m, q);
    var p := UpdatePlayer(m, q);
    assert p.hand == Without(q.hand, [card]) && p.grills == Without(q.grills, [card]);
    assert ReducePlayers(players, m)[i] == p;
    RemoveOneCard(q.hand, q.grills, card);
  }

  /** Removing every copy of one card from two lists takes that card, and only it, out of their union. */
  lemma RemoveOneCard(hand: seq<Card>, grills: seq<Card>, card: Card)
    ensures card !in Without(hand, [card]) && card !in Without(grills, [card])
    ensures forall c :: c != card ==>
      multiset(Without(hand, [card]) + Without(grills, [card]))[c] == multiset(hand + grills)[c]
    ensures NoDup(hand + grills) && card in hand + grills ==>
      multiset(Without(hand, [card]) + Without(grills, [card])) + multiset{card} == multiset(hand + grills)
  {
    var h := Without(hand, [card]);
    var g := Without(grills, [card]);
    assert forall c :: c != card ==> multiset(h + g)[c] == multiset(hand + grills)[c] by {
      forall c | c != card ensures multiset(h + g)[c] == multiset(hand + grills)[c] {
        assert c !in [card];
      }
    }
    if NoDup(hand + grills) && card in hand + grills {
      NoDupMultiplicity(hand + grills);
      assert multiset(hand + grills)[card] == 1;
      assert card !in multiset(h) && card !in multiset(g);
      assert multiset(h + g) + multiset{card} == multiset(hand + grills) by {
        forall c ensures (multiset(h + g) + multiset{card})[c] == multiset(hand + grills)[c] {
        }
      }
    }
  }

  /** `STATE_PASS_TRICK` adds the trick to the receiver's pile. */
  lemma PassTrickAppends(players: seq<Player>, receiver: Player, trick: seq<Card>, i: int)
    requires 0 <= i < |players| && players[i].name == receiver.name
    ensures var p := ReducePlayers(players, PassTrick(receiver, trick))[i];
      p.pile == players[i].pile + trick && p.hand == players[i].hand && p.grills == players[i].grills
      && multiset(AllCards(p)) == multiset(AllCards(players[i])) + multiset(trick)
  {
    var q := players[i];
    var p := ReducePlayers(players, PassTrick(receiver, trick))[i];
    assert p == q.(pile := q.pile + trick);
    assert AllCards(p) == AllCards(q) + trick;
  }
}

=== FILE: queries.dfy ===
/**
 * The state-dependent queries, validators and record creators of the game
 * logic, as functions of an explicit `State`. A query that dereferences a
 * missing lookup throws in the program; it returns `Throws` here.
 */
module Queries {
  import opened Wrappers
  import opened Seqs
  import opened ArrayPolyfill
  import opened Cards
  import opened Entities
  import opened Validators
  import RoomsReducer
  import SV = ServerMessages

  /** The outcome of a query that may throw. */
  datatype Outcome<+T> = Returns(value: T) | Throws

  /** The nicknames bots are given. */
  const BotNicks: seq<Name> := [
    "Geralt of Rivia", "Crach an Craite", "Emiel Regis Rohellec Terzieff-Godefroy", "Vilgefortz",
    "Yennefer of Vengerberg", "Foltest", "Dandelion", "Yarpen Zigrin", "Zoltan Chivay",
    "Sigismund Dijkstra", "Emhyr var Emreis", "Lambert", "Vesemir", "Eskel", "Fringilla Vigo",
    "Vernon Roche", "Moorvran Voorhis", "Margarita Laux-Antille", "Vimme Vivaldi", "Keira Metz",
    "Triss Marigold"]

  // ---------------------------------------------------------------------
  // Lookups

  /** The player records of the seated names, in seat order, skipping names without a record. */
  function PlayersOf(s: State, names: seq<Name>): (r: seq<Player>)
    ensures |r| <= |names|
    ensures forall p :: p in r ==> p in s.players && p.name.Some? && p.name.value in names
    decreases |names|
  {
    if |names| == 0 then []
    else
      var rest := PlayersOf(s, names[1..]);
      assert forall p :: p in rest ==> p.name.value in names by {
        forall p | p in rest ensures p.name.value in names {
          assert p.name.value in names[1..];
        }
      }
      match FindPlayer(s, Some(names[0]))
      case None => rest
      case Some(p) => [p] + rest
  }

  /** When every seated name has a record, the records come one per seat, in seat order. */
  lemma {:induction false} PlayersOfAllFound(s: State, names: seq<Name>)
    requires forall i :: 0 <= i < |names| ==> FindPlayer(s, Some(names[i])).Some?
    ensures |PlayersOf(s, names)| == |names|
    ensures forall i :: 0 <= i < |names| ==> PlayersOf(s, names)[i] == FindPlayer(s, Some(names[i])).value
    decreases |names|
  {
    if |names| > 0 {
      assert forall i :: 0 <= i < |names[1..]| ==> FindPlayer(s, Some(names[1..][i])).Some? by {
        forall i | 0 <= i < |names[1..]| ensures FindPlayer(s, Some(names[1..][i])).Some? {
          assert names[1..][i] == names[i + 1];
        }
      }
      PlayersOfAllFound(s, names[1..]);
      var head := FindPlayer(s, Some(names[0])).value;
      var rest := PlayersOf(s, names[1..]);
      assert PlayersOf(s, names) == [head] + rest;
      forall i | 0 < i < |names|
        ensures PlayersOf(s, names)[i] == FindPlayer(s, Some(names[i])).value
      {
        assert names[1..][i - 1] == names[i];
      }
    }
  }

  /** `getPlayersInRoom`: the records of the room's seats; nobody for an unknown room. */
  function PlayersInRoom(s: State, roomName: Option<Name>): (r: seq<Player>)
    ensures FindRoom(s, roomName).None? ==> r == []
    ensures FindRoom(s, roomName).Some? ==> r == PlayersOf(s, FindRoom(s, roomName).value.players)
    ensures forall p :: p in r ==> p in s.players && p.name.Some?
  {
    match FindRoom(s, roomName)
    case None => []
    case Some(room) => PlayersOf(s, room.players)
  }

  /** `getRoomNamesAndAvailability`: every room in order, available while it seats fewer than four. */
  function RoomsAvailability(s: State): (r: seq<SV.RoomAvailability>)
    ensures |r| == |s.rooms|
    ensures forall i :: 0 <= i < |r| ==> r[i].name == s.rooms[i].name && (r[i].available <==> |s.rooms[i].players| < 4)
  {
    Map((room: Room) => SV.RoomAvailability(room.name, |room.players| < 4), s.rooms)
  }

  // ---------------------------------------------------------------------
  // Seats

  /** The name in seat `k`, or `undefined` past the end. */
  function SeatAt(players: seq<Name>, k: int): (r: Option<Name>)
    ensures r.Some? <==> 0 <= k < |players|
    ensures r.Some? ==> r.value == players[k]
  {
    if 0 <= k < |players| then Some(players[k]) else None
  }

  /** The seat after seat `k` of a four-seat table, wrapping from the last seat to the first. */
  function NextSeat(k: int): (n: int)
    requires 0 <= k < 4
    ensures 0 <= n < 4 && n != k
  {
    if k == 3 then 0 else k + 1
  }

  /**
   * `getPlayerOnLeftName`: the seat after the named player's seat in the
   * player's room (folded once by `normalizePlayerIndex`). It throws when
   * no record has that name or the record sits in no room.
   */
  function PlayerOnLeftName(s: State, name: Option<Name>): (r: Outcome<Option<Name>>)
    ensures r.Returns? <==> FindPlayer(s, name).Some? && PlayerRoom(s, FindPlayer(s, name).value.id).Some?
  {
    match FindPlayer(s, name)
    case None => Throws
    case Some(p) =>
      match PlayerRoom(s, p.id)
      case None => Throws
      case Some(room) =>
        Returns(SeatAt(room.players, NormalizePlayerIndex(SeatOf(room.players, name) + 1)))
  }

  /**
   * In a room of four, the player on the left of the one in seat `k` is
   * the one in seat `k + 1`, wrapping from the last seat to the first.
   */
  lemma LeftNeighbourIsNextSeat(s: State, room: Room, k: int)
    requires UniqueIds(s)
    requires |room.players| == 4 && 0 <= k < 4 && NoDup(room.players) && room.players[k] != ""
    requires FindPlayer(s, Some(room.players[k])).Some?
    requires RoomOfName(s, Some(room.players[k])) == Some(room)
    ensures PlayerOnLeftName(s, Some(room.players[k])) == Returns(Some(room.players[NextSeat(k)]))
  {
    var p := FindPlayer(s, Some(room.players[k])).value;
    FindOwnId(s, p);
    assert PlayerRoom(s, p.id) == Some(room);
    LeftNameFound(s, Some(room.players[k]), p, room);
    IndexOfNoDup(room.players, k);
    var seat := SeatOf(room.players, Some(room.players[k]));
    assert seat == k;
    assert NormalizePlayerIndex(seat + 1) == NextSeat(k);
    assert SeatAt(room.players, NormalizePlayerIndex(seat + 1)) == Some(room.players[NextSeat(k)]);
  }

  /** `getPlayerOnLeftName` once the record and its room are found: the seat after the name's seat. */
  lemma LeftNameFound(s: State, name: Option<Name>, p: Player, r: Room)
    requires FindPlayer(s, name) == Some(p) && PlayerRoom(s, p.id) == Some(r)
    ensures PlayerOnLeftName(s, name) == Returns(SeatAt(r.players, NormalizePlayerIndex(SeatOf(r.players, name) + 1)))
  {
  }

  /** `getPlayerOnLeft`: the record of the left neighbour's name (`findPlayer(undefined)` finds an unregistered player). */
  function PlayerOnLeft(s: State, name: Option<Name>): (r: Outcome<Option<Player>>)
    ensures r.Returns? <==> PlayerOnLeftName(s, name).Returns?
    ensures r.Returns? ==> r.value == FindPlayer(s, PlayerOnLeftName(s, name).value)
  {
    match PlayerOnLeftName(s, name)
    case Throws => Throws
    case Returns(left) => Returns(FindPlayer(s, left))
  }

  /**
   * `getRandomPlayer`, with `Math.random` replaced by `pick`: the name of
   * the room player at index `pick` modulo the count. It throws for an
   * empty or unknown room.
   */
  function RandomPlayer(s: State, roomName: Name, pick: nat): (r: Outcome<Option<Name>>)
    ensures r.Returns? <==> |PlayersInRoom(s, Some(roomName))| > 0
    ensures r.Returns? ==> exists p :: p in PlayersInRoom(s, Some(roomName)) && r.value == p.name
  {
    var players := PlayersInRoom(s, Some(roomName));
    if |players| == 0 then Throws else Returns(players[pick % |players|].name)
  }

  /**
   * `getGameStartingPlayer`: a random room player for a new room;
   * otherwise the left neighbour of the room's previous starting player.
   */
  function GameStartingPlayer(s: State, roomName: Name, pick: nat, newRoom: bool): (r: Outcome<Option<Name>>)
    ensures newRoom ==> r == RandomPlayer(s, roomName, pick)
    ensures !newRoom && FindRoom(s, Some(roomName)).None? ==> r.Throws?
    ensures !newRoom && FindRoom(s, Some(roomName)).Some? ==>
      r == PlayerOnLeftName(s, FindRoom(s, Some(roomName)).value.gameStartingPlayer)
  {
    if newRoom then RandomPlayer(s, roomName, pick)
    else
      match FindRoom(s, Some(roomName))
      case None => Throws
      case Some(room) => PlayerOnLeftName(s, room.gameStartingPlayer)
  }

  /**
   * The starting player moves one seat on per game: in a settled room of
   * four, the next game's starter sits one seat after the previous one.
   */
  lemma StarterMovesOneSeat(s: State, room: Room, k: int, pick: nat)
    requires UniqueIds(s)
    requires |room.players| == 4 && 0 <= k < 4 && NoDup(room.players) && room.players[k] != ""
    requires FindRoom(s, Some(room.name)) == Some(room) && room.gameStartingPlayer == Some(room.players[k])
    requires FindPlayer(s, Some(room.players[k])).Some?
    requires RoomOfName(s, Some(room.players[k])) == Some(room)
    ensures GameStartingPlayer(s, room.name, pick, false) == Returns(Some(room.players[NextSeat(k)]))
  {
    LeftNeighbourIsNextSeat(s, room, k);
  }

  /** Four consecutive starts from seat `k` visit every seat of a four-seat table exactly once. */
  lemma FourStartsVisitEverySeat(k: int)
    requires 0 <= k < 4
    ensures var seats := [k, NextSeat(k), NextSeat(NextSeat(k)), NextSeat(NextSeat(NextSeat(k)))];
      NoDup(seats) && forall j :: 0 <= j < 4 ==> j in seats
  {
  }

  /** `indexOf` of the player on turn among the seats; -1 when unset or not seated. */
  function SeatOf(players: seq<Name>, name: Option<Name>): (r: int)
    ensures -1 <= r < |players|
    ensures r >= 0 ==> name == Some(players[r])
  {
    if name.Some? then IndexOf(players, name.value) else -1
  }

  /**
   * The seat `getPlayerWithHighestCard` picks: the trick is taken to have
   * been led from the seat after the player on turn (the last to play), so
   * the highest card at table index `highest` belongs to that seat plus
   * `highest`, each step folded by `normalizePlayerIndex`. For in-range
   * seats and indices this is seat `onTurn + 1 + highest` modulo 4.
   */
  function WinnerSeat(onTurn: int, highest: int): (r: int)
    ensures 0 <= onTurn < 4 && 0 <= highest < 4 ==> 0 <= r < 4 && r == (onTurn + 1 + highest) % 4
  {
    NormalizeIsOneLap(onTurn);
    NormalizePlayerIndex(NormalizePlayerIndex(onTurn + 1) + highest)
  }

  /** `getPlayerWithHighestCard`: the record in the winning seat. It throws when the room has no game or the table is empty. */
  function PlayerWithHighestCard(s: State, room: Room): (r: Outcome<Option<Player>>)
    ensures r.Returns? <==> FindGame(s, Some(room.name)).Some? && |FindGame(s, Some(room.name)).value.table| > 0
    ensures r.Returns? ==> var game := FindGame(s, Some(room.name)).value;
      var highest := IndexOf(game.table, HighestCardOnTable(game.table));
      0 <= highest < |game.table| && game.table[highest] == HighestCardOnTable(game.table)
      && r.value == FindPlayer(s, SeatAt(room.players, WinnerSeat(SeatOf(room.players, game.playerOnTurn), highest)))
  {
    match FindGame(s, Some(room.name))
    case None => Throws
    case Some(game) =>
      if |game.table| == 0 then Throws
      else
        var highest := IndexOf(game.table, HighestCardOnTable(game.table));
        Returns(FindPlayer(s, SeatAt(room.players, WinnerSeat(SeatOf(room.players, game.playerOnTurn), highest))))
  }

  /**
   * With four distinct seats, at most four cards on the table and the last
   * player to play in seat `k`, the trick goes to the record in seat
   * `WinnerSeat(k, h)`, which is `k + 1 + h` modulo 4 for the table index
   * `h` of the highest card.
   */
  lemma TrickGoesToHighestCardSeat(s: State, room: Room, k: int)
    requires |room.players| == 4 && 0 <= k < 4 && NoDup(room.players)
    requires FindGame(s, Some(room.name)).Some?
    requires var game := FindGame(s, Some(room.name)).value;
      0 < |game.table| <= 4 && game.playerOnTurn == Some(room.players[k])
    ensures var game := FindGame(s, Some(room.name)).value;
      var h := IndexOf(game.table, HighestCardOnTable(game.table));
      0 <= h < |game.table| && game.table[h] == HighestCardOnTable(game.table)
      && 0 <= WinnerSeat(k, h) < 4
      && PlayerWithHighestCard(s, room) == Returns(FindPlayer(s, Some(room.players[WinnerSeat(k, h)])))
  {
    var game := FindGame(s, Some(room.name)).value;
    var c := HighestCardOnTable(game.table);
    assert c in game.table;
    var h := IndexOf(game.table, c);
    IndexOfNoDup(room.players, k);
    assert SeatOf(room.players, game.playerOnTurn) == k;
  }

  /** `getGameScores`: one entry per room player, in seat order, scoring its pile against the grills snapshot. */
  function GameScores(s: State, roomName: Name): (r: Outcome<seq<GameScore>>)
    ensures r.Returns? <==> FindGame(s, Some(roomName)).Some?
    ensures r.Returns? ==> var players := PlayersInRoom(s, Some(roomName));
      |r.value| == |players|
      && forall i :: 0 <= i < |players| ==>
        Some(r.value[i].player) == players[i].name
        && r.value[i].points == PenaltyPoints(FindGame(s, Some(roomName)).value.grillsSnapshot, players[i].pile)
  {
    match FindGame(s, Some(roomName))
    case None => Throws
    case Some(game) =>
      var players := PlayersInRoom(s, Some(roomName));
      Returns(Map((p: Player) => GameScore(p.name.GetOr(""), PenaltyPoints(game.grillsSnapshot, p.pile)), players))
  }

  /** A player's pile of won tricks. */
  function PileOf(): Player -> seq<Card> {
    (p: Player) => p.pile
  }

  /** The points of a list of scores, added up. */
  function ScoreTotal(scores: seq<GameScore>): int
    decreases |scores|
  {
    if |scores| == 0 then 0 else scores[0].points + ScoreTotal(scores[1..])
  }

  /** Scores that each rate one player's pile add up to the rating of all the piles together. */
  lemma {:induction false} ScoresAddUpToPiles(scores: seq<GameScore>, players: seq<Player>, grilled: seq<Card>)
    requires |scores| == |players|
    requires forall i :: 0 <= i < |players| ==> scores[i].points == PenaltyPoints(grilled, players[i].pile)
    ensures ScoreTotal(scores) == PenaltyPoints(grilled, FlatMap(PileOf(), players))
    decreases |players|
  {
    if |players| == 0 {
      assert FlatMap(PileOf(), players) == [];
      PenaltyPointsAdditive(grilled, [], []);
    } else {
      ScoresAddUpToPiles(scores[1..], players[1..], grilled);
      assert players == [players[0]] + players[1..];
      FlatMapAppend(PileOf(), [players[0]], players[1..], players[0]);
      PenaltyPointsAdditive(grilled, players[0].pile, FlatMap(PileOf(), players[1..]));
    }
  }

  /**
   * When the room players' piles hold the 32 cards of the deck between
   * them, the game's scores add up to the deck's penalty: 18 times the
   * hearts coefficient, plus 11 for the black cat, or 22 when it was
   * grilled.
   */
  lemma ScoresTotalFullDeck(s: State, roomName: Name)
    requires FindGame(s, Some(roomName)).Some?
    requires multiset(FlatMap(PileOf(), PlayersInRoom(s, Some(roomName)))) == multiset(CreateDeck())
    ensures var snapshot := FindGame(s, Some(roomName)).value.grillsSnapshot;
      GameScores(s, roomName).Returns?
      && ScoreTotal(GameScores(s, roomName).value) == 18 * HeartsCoefficient(snapshot) + (if BlackCat in snapshot then 22 else 11)
  {
    var snapshot := FindGame(s, Some(roomName)).value.grillsSnapshot;
    var players := PlayersInRoom(s, Some(roomName));
    ScoresAddUpToPiles(GameScores(s, roomName).value, players, snapshot);
    PenaltyOfPermutation(snapshot, FlatMap(PileOf(), players), CreateDeck());
    PenaltyOfFullDeck(snapshot);
  }

  /** The candidate names no player record holds, in order. */
  function FreeNames(s: State, candidates: seq<Name>): (r: seq<Name>)
    ensures forall n :: n in r <==> n in candidates && FindPlayer(s, Some(n)).None?
  {
    var r := Filter(candidates, (n: Name) => FindPlayer(s, Some(n)).None?);
    assert forall n :: n in candidates && FindPlayer(s, Some(n)).None? ==> n in r by {
      forall n | n in candidates && FindPlayer(s, Some(n)).None? ensures n in r {
        assert n in multiset(candidates);
        assert n in multiset(r);
      }
    }
    r
  }

  /**
   * `getRandomNick`, with the shuffle replaced by `pick`: one of the
   * nicknames nobody holds, or `undefined` when every one is taken. The
   * server calls it with `BotNicks`.
   */
  function RandomNick(s: State, nicks: seq<Name>, pick: nat): (r: Option<Name>)
    ensures r.Some? ==> r.value in nicks && FindPlayer(s, r).None?
    ensures r.None? <==> forall n :: n in nicks ==> FindPlayer(s, Some(n)).Some?
  {
    var free := FreeNames(s, nicks);
    if |free| == 0 then None
    else
      assert free[pick % |free|] in free;
      Some(free[pick % |free|])
  }

  // ---------------------------------------------------------------------
  // Validators

  /** `findPlayerInRoom`: the record among the room's players carrying the player's name. */
  function PlayerInRoom(s: State, name: Option<Name>, room: Name): (r: Option<Player>)
    ensures r.Some? ==> r.value in PlayersInRoom(s, Some(room)) && r.value.name == name
    ensures r.None? <==> forall p :: p in PlayersInRoom(s, Some(room)) ==> p.name != name
  {
    var players := PlayersInRoom(s, Some(room));
    var r := Find(players, (p: Player) => p.name == name);
    assert r.None? ==> forall p :: p in players ==> p.name != name by {
      if r.None? {
        forall p | p in players ensures p.name != name {
          var k :| 0 <= k < |players| && players[k] == p;
        }
      }
    }
    r
  }

  /**
   * A string's `length` in JavaScript: its UTF-16 code units, one for a
   * character up to U+FFFF and two (a surrogate pair) for one beyond.
   */
  function Utf16Length(s: string): (n: nat)
    ensures |s| <= n <= 2 * |s|
    ensures n == |s| <==> forall i :: 0 <= i < |s| ==> (s[i] as int) < 0x1_0000
  {
    if |s| == 0 then 0
    else
      var rest := Utf16Length(s[1..]);
      assert forall i :: 1 <= i < |s| ==> s[i] == s[1..][i - 1];
      (if (s[0] as int) < 0x1_0000 then 1 else 2) + rest
  }

  /** The UTF-16 length of two strings together is the sum of their lengths. */
  lemma {:induction false} Utf16LengthAppend(a: string, b: string)
    ensures Utf16Length(a + b) == Utf16Length(a) + Utf16Length(b)
  {
    if |a| > 0 {
      assert (a + b)[1..] == a[1..] + b;
      Utf16LengthAppend(a[1..], b);
    } else {
      assert a + b == b;
    }
  }

  /** Sixty U+1F600 characters are 120 code units: over the 100 a name may have. */
  lemma AstralNameTooLong(s: State, player: Player)
    ensures var name := seq(60, i => '\U{1F600}');
      Utf16Length(name) == 120 && !PlayerCanRegister(s, player, name) && !PlayerCanCreateRoom(s, name, player)
  {
    var name := seq(60, i => '\U{1F600}');
    assert !(forall i :: 0 <= i < |name| ==> (name[i] as int) < 0x1_0000) by {
      assert (name[0] as int) >= 0x1_0000;
    }
    AstralLength(name);
  }

  /** A string of characters all beyond U+FFFF has twice as many code units. */
  lemma {:induction false} AstralLength(s: string)
    requires forall i :: 0 <= i < |s| ==> (s[i] as int) >= 0x1_0000
    ensures Utf16Length(s) == 2 * |s|
  {
    if |s| > 0 {
      assert forall i :: 0 <= i < |s[1..]| ==> s[1..][i] == s[i + 1];
      AstralLength(s[1..]);
    }
  }

  /** `playerCanCreateRoom`, as stateDependentFunctions.ts writes it. */
  function PlayerCanCreateRoom(s: State, name: Name, player: Player): (ok: bool) {
    Utf16Length(name) <= 100 && PlayerInRoom(s, player.name, name).None? && FindRoom(s, Some(name)).None?
    && PlayerRoom(s, player.id).None? && |s.rooms| < 4
  }

  /**
   * A player may create a room exactly when the name has at most 100
   * UTF-16 code units, no room has it, the player sits in no room and fewer than
   * four rooms exist; the program's seat lookup adds nothing.
   */
  lemma CanCreateRoomMeans(s: State, name: Name, player: Player)
    ensures PlayerCanCreateRoom(s, name, player) <==>
      (Utf16Length(name) <= 100 && (forall i :: 0 <= i < |s.rooms| ==> s.rooms[i].name != name)
      && PlayerRoom(s, player.id).None? && |s.rooms| < 4)
  {
    if FindRoom(s, Some(name)).None? {
      assert PlayersInRoom(s, Some(name)) == [];
    }
  }

  /** `playerCanJoinRoom`, as stateDependentFunctions.ts writes it. */
  function PlayerCanJoinRoom(s: State, name: Name, player: Player): (ok: bool) {
    PlayerInRoom(s, player.name, name).None? && PlayerGame(s, player.id).None?
    && FindRoom(s, Some(name)).Some? && |FindRoom(s, Some(name)).value.players| < 4
  }

  /**
   * A player may join a room exactly when the room exists with fewer than
   * four seats taken, none of its seats holds a record with the player's
   * name, and the player is in no game.
   */
  lemma CanJoinRoomMeans(s: State, name: Name, player: Player)
    ensures PlayerCanJoinRoom(s, name, player) <==>
      (exists room :: FindRoom(s, Some(name)) == Some(room) && |room.players| < 4
        && (forall p :: p in PlayersOf(s, room.players) ==> p.name != player.name))
      && PlayerGame(s, player.id).None?
  {
  }

  /** `playerCanRegister`: a name of at most 100 UTF-16 code units, held by nobody, for a player without a (truthy) name. */
  function PlayerCanRegister(s: State, player: Player, name: Name): (ok: bool)
    ensures ok <==> (Utf16Length(name) <= 100 && (forall i :: 0 <= i < |s.players| ==> s.players[i].name != Some(name))
      && (player.name.None? || player.name == Some("")))
  {
    Utf16Length(name) <= 100 && FindPlayer(s, Some(name)).None? && !TruthyName(player.name)
  }

  // ---------------------------------------------------------------------
  // Creators

  /** `createRoom`: the creator in the only seat, with an empty score list, and no starting player yet. */
  function CreateRoom(name: Name, player: Name): (r: Room)
    ensures r.name == name && r.players == [player] && r.gameStartingPlayer.None?
    ensures RoomsReducer.Aligned(r) && r.scores[0].points == []
  {
    Room(name, [player], [PlayerScore(player, [])], None)
  }

  /**
   * The record `createBot` builds: id and name are the nickname; cards and
   * flags are copied from the player it stands in for, if any.
   */
  function MakeBot(nick: Name, from: Option<Player>): (b: Player)
    ensures b.id == nick && b.name == Some(nick) && b.isBot
    ensures from.Some? ==> (AllCardsOf(b) == AllCardsOf(from.value)
      && b.waitForMe == from.value.waitForMe && b.didPassedHandOver == from.value.didPassedHandOver
      && b.wantsNewGame == from.value.wantsNewGame && b.shouldPassHandOver == from.value.shouldPassHandOver)
    ensures from.None? ==> (AllCardsOf(b) == ([], [], [], []) && Truthy(b.wantsNewGame)
      && b.waitForMe.None? && b.didPassedHandOver.None? && b.shouldPassHandOver.None?)
  {
    match from
    case Some(p) =>
      Player(nick, Some(nick), p.hand, p.handOver, p.grills, p.pile, true,
        p.waitForMe, p.shouldPassHandOver, p.didPassedHandOver, p.wantsNewGame)
    case None => Player(nick, Some(nick), [], [], [], [], true, None, None, None, Some(true))
  }

  /** A player's hand, hand-over, grills and pile. */
  function AllCardsOf(p: Player): (seq<Card>, seq<Card>, seq<Card>, seq<Card>) {
    (p.hand, p.handOver, p.grills, p.pile)
  }
}

=== FILE: room_handlers.dfy ===
/**
 * The room handlers (src/logic/messageHandlers/room.ts): starting a full
 * room, asking for another game, counting seats after a join, and adding a
 * bot, each as a function from the state before the message to a `Step`.
 * Of the messages to clients, only those to the acting player are
 * modelled, as the step's replies.
 */
module RoomHandlers {
  import opened Wrappers
  import opened Seqs
  import opened ArrayPolyfill
  import opened Entities
  import opened StateMessages
  import LM = LogicMessages
  import opened PlayersReducer
  import opened RoomsReducer
  import opened Store
  import opened Queries
  import opened Steps
  import SV = ServerMessages

  // ---------------------------------------------------------------------
  // Starting a room

  /** `onRoomStart`: a room that has just filled always starts its first game as a new room. */
  function RoomStart(s: State, name: Name): (r: Step)
    ensures r.state == s && !r.crashed && r.fired == Some(LM.GameStart(name, true))
  {
    Fire(s, LM.GameStart(name, true))
  }

  /**
   * `onPlayerJoinedRoom`: reading the seat count of a room that does not
   * exist throws; a room with exactly four seats taken starts.
   */
  function PlayerJoinedRoom(s: State, name: Name): (r: Step)
    ensures r.state == s && r.replies == []
    ensures r.fired.Some? ==> r.fired == Some(LM.RoomStart(name))
  {
    match FindRoom(s, Some(name))
    case None => Crash(s)
    case Some(room) =>
      if |room.players| == 4 then Fire(s, LM.RoomStart(room.name)) else Done(s)
  }

  /** A join changes nothing, throws exactly when the room is missing, and starts the room exactly when it has four seats taken. */
  lemma PlayerJoinedRoomEffect(s: State, name: Name)
    ensures var r := PlayerJoinedRoom(s, name);
      r.state == s
      && (r.crashed <==> forall i :: 0 <= i < |s.rooms| ==> s.rooms[i].name != name)
      && (r.fired.Some? <==> FindRoom(s, Some(name)).Some? && |FindRoom(s, Some(name)).value.players| == 4)
      && (r.fired.Some? ==> r.fired == Some(LM.RoomStart(name)))
  {
  }

  // ---------------------------------------------------------------------
  // Another game

  /** Whether a record wants another game. */
  function WantsAnother(): Player -> bool {
    (p: Player) => Truthy(p.wantsNewGame)
  }

  /** The records of a room's players that want another game, in seat order. */
  function WishersIn(s: State, roomName: Name): seq<Player> {
    Filter(PlayersInRoom(s, Some(roomName)), WantsAnother())
  }

  /**
   * `onPlayerWantsNewGame`: a player without a room is ignored; otherwise
   * the wish is recorded and, once four room players want another game,
   * every room player's wish is cleared and a game starts (not as a new
   * room).
   */
  function PlayerWantsNewGame(s: State, player: Player): (r: Step)
    requires player.name.Some?
    ensures !r.crashed && r.replies == []
    ensures PlayerRoom(s, player.id).None? ==> r.state == s && r.fired.None?
    ensures r.fired.Some? ==>
      PlayerRoom(s, player.id).Some? && r.fired == Some(LM.GameStart(PlayerRoom(s, player.id).value.name, false))
  {
    match PlayerRoom(s, player.id)
    case None => Done(s)
    case Some(room) => Wish(s, player.name.value, room.name)
  }

  /** The wish itself: recorded for `name`, then the game starts if four want it. */
  function Wish(s: State, name: Name, roomName: Name): Step {
    StartWhenAllWish(Apply(s, SetPlayerWantsNewGame(name, true)), roomName)
  }

  /** The tail of `onPlayerWantsNewGame`. */
  function StartWhenAllWish(s: State, roomName: Name): Step {
    if |WishersIn(s, roomName)| == 4 then
      Fire(ForEach(s, SetFlag(WantsNewGame, false), RoomNames(s, roomName)), LM.GameStart(roomName, false))
    else Done(s)
  }

  /**
   * With four wishes a game starts and every room record's wish is
   * cleared; otherwise nothing changes. Records outside the room, rooms
   * and games never change, and nothing throws.
   */
  lemma StartWhenAllWishEffect(s: State, roomName: Name)
    ensures var r := StartWhenAllWish(s, roomName);
      !r.crashed && r.state.rooms == s.rooms && r.state.games == s.games && |r.state.players| == |s.players|
      && (r.fired.Some? <==> |WishersIn(s, roomName)| == 4)
      && (r.fired.Some? ==> r.fired == Some(LM.GameStart(roomName, false)))
      && (r.fired.None? ==> r.state == s)
      && forall i :: 0 <= i < |s.players| ==>
        r.state.players[i] == (if r.fired.Some? && s.players[i].name.Some? && s.players[i].name.value in RoomNames(s, roomName)
          then WithFlag(WantsNewGame, s.players[i], false) else s.players[i])
  {
    if |WishersIn(s, roomName)| == 4 {
      ForEachEffect(s, SetFlag(WantsNewGame, false), RoomNames(s, roomName));
    }
  }

  /** `STATE_SET_PLAYER_WANTS_NEW_GAME` to true sets the wish of the named records only, and moves nobody. */
  lemma WishRecorded(s: State, name: Name, roomName: Name)
    ensures var r := Apply(s, SetPlayerWantsNewGame(name, true));
      r.rooms == s.rooms && r.games == s.games && |r.players| == |s.players|
      && (forall i :: 0 <= i < |s.players| ==>
        r.players[i] == (if s.players[i].name == Some(name) then WithFlag(WantsNewGame, s.players[i], true) else s.players[i]))
      && RoomNames(r, roomName) == RoomNames(s, roomName)
  {
    var r := Apply(s, SetPlayerWantsNewGame(name, true));
    FlagOnName(s, WantsNewGame, name, true);
    ApplyKeepsSeating(s, SetPlayerWantsNewGame(name, true));
    RoomNamesSameSeating(s, r, roomName);
  }

  /**
   * A wish moves no card and touches no room or game. The wisher's
   * records end wanting another game, unless the game starts, and then
   * every record seated in the room, the wisher's included when seated,
   * wants none; records outside the room, other than the wisher's, never
   * change.
   */
  lemma WishEffect(s: State, name: Name, roomName: Name)
    ensures var r := Wish(s, name, roomName);
      !r.crashed && r.state.rooms == s.rooms && r.state.games == s.games
      && (r.fired.Some? ==> r.fired == Some(LM.GameStart(roomName, false)))
      && |r.state.players| == |s.players|
      && forall i :: 0 <= i < |s.players| ==>
        var p, q := s.players[i], r.state.players[i];
        q.id == p.id && q.name == p.name && AllCards(q) == AllCards(p)
        && q.waitForMe == p.waitForMe && q.shouldPassHandOver == p.shouldPassHandOver
        && q.didPassedHandOver == p.didPassedHandOver
        && (p.name == Some(name) && r.fired.None? ==> q.wantsNewGame == Some(true))
        && (r.fired.Some? && p.name.Some? && p.name.value in RoomNames(s, roomName) ==> q.wantsNewGame == Some(false))
        && (p.name != Some(name) && (r.fired.None? || p.name.None? || p.name.value !in RoomNames(s, roomName)) ==> q == p)
  {
    var s1 := Apply(s, SetPlayerWantsNewGame(name, true));
    var r := Wish(s, name, roomName);
    WishRecorded(s, name, roomName);
    StartWhenAllWishEffect(s1, roomName);
    WishThenReset(s.players, s1.players, r.state.players, name, RoomNames(s, roomName), r.fired.Some?);
  }

  /** Record by record: recording the wish, then perhaps clearing every wish within the room. */
  lemma WishThenReset(ps: seq<Player>, ps1: seq<Player>, ps2: seq<Player>, name: Name, seated: seq<Name>, started: bool)
    requires |ps1| == |ps| && |ps2| == |ps|
    requires forall i :: 0 <= i < |ps| ==>
      ps1[i] == (if ps[i].name == Some(name) then WithFlag(WantsNewGame, ps[i], true) else ps[i])
    requires forall i :: 0 <= i < |ps| ==>
      ps2[i] == (if started && ps1[i].name.Some? && ps1[i].name.value in seated
        then WithFlag(WantsNewGame, ps1[i], false) else ps1[i])
    ensures forall i :: 0 <= i < |ps| ==>
      var p, q := ps[i], ps2[i];
      q.id == p.id && q.name == p.name && AllCards(q) == AllCards(p)
      && q.waitForMe == p.waitForMe && q.shouldPassHandOver == p.shouldPassHandOver
      && q.didPassedHandOver == p.didPassedHandOver
      && (p.name == Some(name) && !started ==> q.wantsNewGame == Some(true))
      && (started && p.name.Some? && p.name.value in seated ==> q.wantsNewGame == Some(false))
      && (p.name != Some(name) && (!started || p.name.None? || p.name.value !in seated) ==> q == p)
  {
  }

  /** A player without a room is ignored; otherwise the wish takes effect in the player's room as it stood before the message. */
  lemma PlayerWantsNewGameEffect(s: State, player: Player)
    requires player.name.Some?
    ensures PlayerRoom(s, player.id).None? ==> PlayerWantsNewGame(s, player) == Done(s)
    ensures PlayerRoom(s, player.id).Some? ==>
      PlayerWantsNewGame(s, player) == Wish(s, player.name.value, PlayerRoom(s, player.id).value.name)
  {
  }

  // ---------------------------------------------------------------------
  // Bots

  /**
   * `onAddBot`: a player whose room has a free seat seats a bot there,
   * named by a free nickname (`pick` stands in for the shuffle) and
   * copying the requesting player's cards and flags, and the room is told
   * someone joined. Every player, the requesting one among them, gets the
   * new room list. A player without a room, or in a full one, is ignored.
   */
  function AddBotToRoom(s: State, player: Player, nicks: seq<Name>, pick: nat): (r: Step)
    ensures !r.crashed
    ensures r.fired.None? ==> r.state == s && r.replies == []
    ensures r.fired.Some? ==>
      PlayerRoom(s, player.id).Some? && |PlayerRoom(s, player.id).value.players| < 4
      && r.fired == Some(LM.PlayerJoinedRoom(PlayerRoom(s, player.id).value.name))
      && r.replies == [SV.AvailableRooms(RoomsAvailability(r.state))]
  {
    match PlayerRoom(s, player.id)
    case None => Done(s)
    case Some(room) =>
      if |room.players| >= 4 then Done(s)
      else
        match RandomNick(s, nicks, pick)
        case None => Done(s)
        case Some(nick) =>
          var s1 := Apply(s, AddBot(MakeBot(nick, Some(player)), room.name));
          Step(s1, Some(LM.PlayerJoinedRoom(room.name)), [SV.AvailableRooms(RoomsAvailability(s1))], false)
  }

  /**
   * `STATE_ADD_BOT`: the bot record is appended, every room of that name
   * seats it last with an empty score list, and other rooms and the games
   * stay as they were.
   */
  lemma BotSeated(s: State, bot: Player, roomName: Name)
    requires bot.name.Some?
    ensures var t := Apply(s, AddBot(bot, roomName));
      t.players == s.players + [bot] && t.games == s.games && |t.rooms| == |s.rooms|
      && forall i :: 0 <= i < |s.rooms| ==>
        t.rooms[i] == (if s.rooms[i].name == roomName then SeatAdded(s.rooms[i], bot.name.value) else s.rooms[i])
  {
    forall i | 0 <= i < |s.rooms|
      ensures Apply(s, AddBot(bot, roomName)).rooms[i] == ReduceRooms(s, AddPlayerToRoom(bot.name.value, roomName))[i]
    {
      AddBotSeatsLast(s, bot, roomName, i);
    }
    forall i | 0 <= i < |s.rooms| {
      AddPlayerSeatsLast(s, bot.name.value, roomName, i);
    }
  }

  /** After `STATE_ADD_BOT` the first room of that name is still the one found, one seat fuller. */
  lemma BotRoomFound(s: State, bot: Player, room: Room)
    requires bot.name.Some? && FindRoom(s, Some(room.name)) == Some(room)
    ensures FindRoom(Apply(s, AddBot(bot, room.name)), Some(room.name)) == Some(SeatAdded(room, bot.name.value))
  {
    BotSeated(s, bot, room.name);
    SeatAddedFound(s, Apply(s, AddBot(bot, room.name)), room, bot.name.value);
  }

  /** A room with `name` seated last and given an empty score list. */
  function SeatAdded(room: Room, name: Name): (r: Room)
    ensures r.name == room.name && r.players == room.players + [name] && r.gameStartingPlayer == room.gameStartingPlayer
    ensures r.scores == room.scores + [PlayerScore(name, [])]
  {
    room.(players := room.players + [name], scores := room.scores + [PlayerScore(name, [])])
  }

  /**
   * When every room named like `room` gains a seat for `name` and the
   * rest stay, the first room of that name is still the one found, with
   * the seat added.
   */
  lemma SeatAddedFound(s: State, t: State, room: Room, name: Name)
    requires FindRoom(s, Some(room.name)) == Some(room) && |t.rooms| == |s.rooms|
    requires forall i :: 0 <= i < |s.rooms| ==>
      t.rooms[i] == (if s.rooms[i].name == room.name then SeatAdded(s.rooms[i], name) else s.rooms[i])
    ensures FindRoom(t, Some(room.name)) == Some(SeatAdded(room, name))
  {
    var k := RoomIndex(s, room.name);
    assert forall i :: 0 <= i < k ==> t.rooms[i].name == s.rooms[i].name;
    FoundAtFirst(t, room.name, k);
  }

  /** A room with that name and none before it is the one `findRoom` finds. */
  lemma FoundAtFirst(s: State, name: Name, k: int)
    requires 0 <= k < |s.rooms| && s.rooms[k].name == name
    requires forall i :: 0 <= i < k ==> s.rooms[i].name != name
    ensures FindRoom(s, Some(name)) == Some(s.rooms[k])
  {
    var j := RoomIndex(s, name);
    assert !(j < k) && !(k < j);
  }

  /** The index of the room `findRoom` finds: the first with that name. */
  function RoomIndex(s: State, name: Name): (k: nat)
    requires FindRoom(s, Some(name)).Some?
    ensures k < |s.rooms| && s.rooms[k] == FindRoom(s, Some(name)).value
    ensures forall i :: 0 <= i < k ==> s.rooms[i].name != name
  {
    var room := FindRoom(s, Some(name)).value;
    var k :| 0 <= k < |s.rooms| && s.rooms[k] == room && Some(room.name) == Some(name)
      && forall i :: 0 <= i < k ==> Some(s.rooms[i].name) != Some(name);
    k
  }

  /**
   * Adding a bot throws nothing. It is ignored without a room, in a full
   * room, or when every nickname is taken; otherwise the bot, a fresh
   * nickname carrying the requester's cards, is appended to the players,
   * seated last in the requester's room with an empty score list, and
   * `LOGIC_PLAYER_JOINED_ROOM` names that room.
   */
  lemma AddBotEffect(s: State, player: Player, nicks: seq<Name>, pick: nat)
    ensures var r := AddBotToRoom(s, player, nicks, pick);
      var room := PlayerRoom(s, player.id);
      var nick := RandomNick(s, nicks, pick);
      !r.crashed
      && (room.None? || |room.value.players| >= 4 || nick.None? ==> r == Done(s))
      && (room.Some? && |room.value.players| < 4 && nick.Some? ==>
        r.fired == Some(LM.PlayerJoinedRoom(room.value.name))
        && |r.replies| == 1 && r.replies[0].AvailableRooms? && |r.replies[0].rooms| == |s.rooms|
        && nick.value in nicks && FindPlayer(s, nick).None?
        && r.state.players == s.players + [MakeBot(nick.value, Some(player))]
        && r.state.games == s.games && |r.state.rooms| == |s.rooms|
        && forall i :: 0 <= i < |s.rooms| ==>
          r.state.rooms[i] == (if s.rooms[i].name == room.value.name then SeatAdded(s.rooms[i], nick.value) else s.rooms[i])
          && r.replies[0].rooms[i].name == s.rooms[i].name
          && (r.replies[0].rooms[i].available <==>
                if s.rooms[i].name == room.value.name then |s.rooms[i].players| < 3 else |s.rooms[i].players| < 4))
  {
    match PlayerRoom(s, player.id)
    case None =>
    case Some(room) =>
      if |room.players| < 4 && RandomNick(s, nicks, pick).Some? {
        var nick := RandomNick(s, nicks, pick).value;
        var bot := MakeBot(nick, Some(player));
        var s1 := Apply(s, AddBot(bot, room.name));
        assert AddBotToRoom(s, player, nicks, pick)
          == Step(s1, Some(LM.PlayerJoinedRoom(room.name)), [SV.AvailableRooms(RoomsAvailability(s1))], false);
        BotSeated(s, bot, room.name);
      }
  }

  /**
   * A bot taking the last free seat of a room (the one `findRoom` finds
   * by that name) makes the following join start the room.
   */
  lemma LastBotStartsRoom(s: State, player: Player, nicks: seq<Name>, pick: nat, room: Room)
    requires PlayerRoom(s, player.id) == Some(room) && FindRoom(s, Some(room.name)) == Some(room)
    requires |room.players| == 3 && RandomNick(s, nicks, pick).Some?
    ensures var r := AddBotToRoom(s, player, nicks, pick);
      r.fired == Some(LM.PlayerJoinedRoom(room.name))
      && PlayerJoinedRoom(r.state, room.name).fired == Some(LM.RoomStart(room.name))
  {
    var bot := MakeBot(RandomNick(s, nicks, pick).value, Some(player));
    BotRoomFound(s, bot, room);
  }
}

=== FILE: rooms_reducer.dfy ===
/**
 * The rooms reducer. Apart from adding and removing whole rooms, every
 * case rewrites the rooms it targets and leaves the others, and the list's
 * order, alone. The name-change case reads the renamed player's room from
 * the state before the message.
 */
module RoomsReducer {
  import opened Wrappers
  import opened Seqs
  import opened ArrayPolyfill
  import opened Entities
  import opened StateMessages

  /** `names.map(n => n === from ? to : n)`. */
  function Rename(names: seq<Name>, from: Name, to: Name): (r: seq<Name>)
    ensures |r| == |names|
    ensures forall i :: 0 <= i < |names| ==> (names[i] == from ==> r[i] == to) && (names[i] != from ==> r[i] == names[i])
  {
    Map((n: Name) => if n == from then to else n, names)
  }

  /** The score rows of a replaced player are handed to the bot. */
  function RenameScores(scores: seq<PlayerScore>, from: Name, to: Name): (r: seq<PlayerScore>)
    ensures |r| == |scores|
    ensures forall i :: 0 <= i < |scores| ==>
      r[i].points == scores[i].points
      && (scores[i].player == from ==> r[i].player == to)
      && (scores[i].player != from ==> r[i].player == scores[i].player)
  {
    Map((ps: PlayerScore) => if ps.player == from then ps.(player := to) else ps, scores)
  }

  /** The first game result reported for `player`, or `undefined`. */
  function ScoreOf(gameScores: seq<GameScore>, player: Name): (r: Option<int>)
    ensures r.None? <==> forall i :: 0 <= i < |gameScores| ==> gameScores[i].player != player
    ensures r.Some? ==> exists k :: (0 <= k < |gameScores| && gameScores[k].player == player
      && gameScores[k].points == r.value
      && forall i :: 0 <= i < k ==> gameScores[i].player != player)
  {
    match Find(gameScores, (g: GameScore) => g.player == player)
    case None => None
    case Some(g) =>
      assert exists k :: (0 <= k < |gameScores| && gameScores[k] == g
        && forall i :: 0 <= i < k ==> gameScores[i].player != player);
      Some(g.points)
  }

  /** Every score row gets exactly one more entry: its player's result for the game. */
  function AppendScores(scores: seq<PlayerScore>, gameScores: seq<GameScore>): (r: seq<PlayerScore>)
    ensures |r| == |scores|
    ensures forall i :: 0 <= i < |scores| ==>
      r[i].player == scores[i].player && r[i].points == scores[i].points + [ScoreOf(gameScores, scores[i].player)]
  {
    Map((ps: PlayerScore) => PlayerScore(ps.player, ps.points + [ScoreOf(gameScores, ps.player)]), scores)
  }

  /**
   * `room.players.find(p => p === player)` is truthy: the name is seated
   * and is not the empty string.
   */
  predicate SeatsTruthy(room: Room, player: Name) {
    player != "" && player in room.players
  }

  /**
   * Whether a per-room case rewrites `room`. `changeRoom` is the name of the
   * room the renamed player sat in before a name change.
   */
  predicate TargetsRoom(m: StateMessage, changeRoom: Option<Name>, room: Room) {
    match m
    case AddPlayerToRoom(_, target) => room.name == target
    case AddBot(bot, target) => room.name == target && bot.name.Some?
    case ReplacePlayerWithBot(player, bot) => SeatsTruthy(room, player) && bot.name.Some?
    case AddScores(target, _) => room.name == target
    case PlayerChangeName(_, _) => changeRoom == Some(room.name)
    case SetGameStartingPlayer(target, _) => room.name == target
    case _ => false
  }

  /** The messages the reducer handles with a `map` over the rooms. */
  predicate IsRoomMapCase(m: StateMessage) {
    m.AddPlayerToRoom? || m.AddBot? || m.ReplacePlayerWithBot? || m.AddScores?
    || m.PlayerChangeName? || m.SetGameStartingPlayer?
  }

  /** One room under a `map` case; an untargeted room comes back as it was. */
  function UpdateRoom(m: StateMessage, changeRoom: Option<Name>, room: Room): (r: Room)
    ensures !TargetsRoom(m, changeRoom, room) ==> r == room
    ensures r.name == room.name
  {
    if !TargetsRoom(m, changeRoom, room) then room
    else
      match m
      case AddPlayerToRoom(name, _) =>
        room.(players := room.players + [name], scores := room.scores + [PlayerScore(name, [])])
      case AddBot(bot, _) =>
        room.(players := room.players + [bot.name.value], scores := room.scores + [PlayerScore(bot.name.value, [])])
      case ReplacePlayerWithBot(player, bot) =>
        room.(players := Rename(room.players, player, bot.name.value),
              scores := RenameScores(room.scores, player, bot.name.value),
              gameStartingPlayer := if room.gameStartingPlayer == Some(player) then bot.name else room.gameStartingPlayer)
      case AddScores(_, gameScores) => room.(scores := AppendScores(room.scores, gameScores))
      case PlayerChangeName(renamed, name) =>
        if renamed.name.Some? then room.(players := Rename(room.players, renamed.name.value, name)) else room
      case SetGameStartingPlayer(_, starter) => room.(gameStartingPlayer := starter)
      case _ => room
  }

  /** The room whose seats a name change rewrites: the renamed player's room before the change. */
  function ChangeRoom(s: State, m: StateMessage): (r: Option<Name>)
    ensures r.Some? <==> m.PlayerChangeName? && PlayerRoom(s, m.renamed.id).Some?
    ensures r.Some? ==> r.value == PlayerRoom(s, m.renamed.id).value.name
  {
    if m.PlayerChangeName? then
      match PlayerRoom(s, m.renamed.id)
      case None => None
      case Some(room) => Some(room.name)
    else None
  }

  /** `STATE_REMOVE_ROOM`: every room with that name goes, the rest stay in order. */
  function RemoveByName(rooms: seq<Room>, name: Name): (r: seq<Room>)
    ensures forall room :: room in r ==> room.name != name && room in rooms
    ensures forall room :: room in rooms && room.name != name ==> room in r
    ensures |r| <= |rooms|
  {
    var r := Filter(rooms, (room: Room) => room.name != name);
    assert forall room :: room in rooms && room.name != name ==> room in r by {
      forall room | room in rooms && room.name != name ensures room in r {
        assert room in multiset(rooms);
        assert room in multiset(r);
      }
    }
    r
  }

  /** A `map` case applied to every room, in order. */
  function MapRooms(rooms: seq<Room>, m: StateMessage, changeRoom: Option<Name>): (r: seq<Room>)
    ensures |r| == |rooms|
    ensures forall i :: 0 <= i < |r| ==> r[i] == UpdateRoom(m, changeRoom, rooms[i])
  {
    Map((room: Room) => UpdateRoom(m, changeRoom, room), rooms)
  }

  /** The rooms reducer. */
  function ReduceRooms(s: State, m: StateMessage): (r: seq<Room>)
    ensures IsRoomMapCase(m) ==> (|r| == |s.rooms|
      && forall i :: 0 <= i < |r| ==> r[i] == UpdateRoom(m, ChangeRoom(s, m), s.rooms[i]))
    ensures m.AddRoom? ==> r == s.rooms + [m.newRoom]
    ensures m.RemoveRoom? ==> r == RemoveByName(s.rooms, m.room)
    ensures (!IsRoomMapCase(m) && !m.AddRoom? && !m.RemoveRoom?) ==> r == s.rooms
  {
    match m
    case AddRoom(room) => s.rooms + [room]
    case RemoveRoom(name) => RemoveByName(s.rooms, name)
    case _ => if IsRoomMapCase(m) then MapRooms(s.rooms, m, ChangeRoom(s, m)) else s.rooms
  }

  /** A room's score rows line up with its seats, one row per seated name, in seat order. */
  predicate Aligned(room: Room) {
    |room.scores| == |room.players| && forall i :: 0 <= i < |room.players| ==> room.scores[i].player == room.players[i]
  }

  /**
   * `STATE_ADD_PLAYER_TO_ROOM` seats the name last and opens an empty score
   * row for it in every room of that name; no capacity is checked here.
   */
  lemma AddPlayerSeatsLast(s: State, name: Name, room: Name, i: int)
    requires 0 <= i < |s.rooms|
    ensures var r := ReduceRooms(s, AddPlayerToRoom(name, room));
      |r| == |s.rooms|
      && (s.rooms[i].name == room ==>
        r[i] == s.rooms[i].(players := s.rooms[i].players + [name], scores := s.rooms[i].scores + [PlayerScore(name, [])]))
      && (s.rooms[i].name != room ==> r[i] == s.rooms[i])
  {
  }

  /** `STATE_ADD_BOT` seats a named bot exactly like a joining player. */
  lemma AddBotSeatsLast(s: State, bot: Player, room: Name, i: int)
    requires 0 <= i < |s.rooms| && bot.name.Some?
    ensures ReduceRooms(s, AddBot(bot, room))[i] == ReduceRooms(s, AddPlayerToRoom(bot.name.value, room))[i]
  {
  }

  /**
   * `STATE_REPLACE_PLAYER_WITH_BOT`: in every room seating the leaver, the
   * bot takes over the leaver's seats, score rows and starting turn, in
   * place; a room that does not seat the leaver is untouched.
   */
  lemma ReplaceKeepsSeats(s: State, player: Name, bot: Player, i: int)
    requires 0 <= i < |s.rooms| && bot.name.Some? && player != ""
    ensures var before := s.rooms[i];
      var after := ReduceRooms(s, ReplacePlayerWithBot(player, bot))[i];
      |after.players| == |before.players| && |after.scores| == |before.scores|
      && (player in before.players ==>
        (forall k :: 0 <= k < |before.players| ==>
          after.players[k] == (if before.players[k] == player then bot.name.value else before.players[k]))
        && (bot.name.value != player ==> player !in after.players)
        && (before.gameStartingPlayer == Some(player) ==> after.gameStartingPlayer == bot.name))
      && (player !in before.players ==> after == before)
  {
    var m := ReplacePlayerWithBot(player, bot);
    assert ReduceRooms(s, m)[i] == UpdateRoom(m, ChangeRoom(s, m), s.rooms[i]);
  }

  /** `STATE_ADD_SCORES` appends exactly one result, the player's own or `undefined`, to every row of the room. */
  lemma AddScoresAppendsOne(s: State, room: Name, gameScores: seq<GameScore>, i: int)
    requires 0 <= i < |s.rooms| && s.rooms[i].name == room
    ensures var before := s.rooms[i];
      var after := ReduceRooms(s, AddScores(room, gameScores))[i];
      after.players == before.players && |after.scores| == |before.scores|
      && forall k :: 0 <= k < |before.scores| ==>
        after.scores[k].player == before.scores[k].player
        && |after.scores[k].points| == |before.scores[k].points| + 1
        && after.scores[k].points[..|before.scores[k].points|] == before.scores[k].points
        && (after.scores[k].points[|before.scores[k].points|].Some? <==>
          exists g :: g in gameScores && g.player == before.scores[k].player)
  {
    var before := s.rooms[i];
    var after := ReduceRooms(s, AddScores(room, gameScores))[i];
    forall k | 0 <= k < |before.scores|
      ensures after.scores[k].points[|before.scores[k].points|].Some? <==>
        exists g :: g in gameScores && g.player == before.scores[k].player
    {
      var o := ScoreOf(gameScores, before.scores[k].player);
      assert after.scores[k].points[|before.scores[k].points|] == o;
      if o.None? {
        forall g | g in gameScores ensures g.player != before.scores[k].player {
          var j :| 0 <= j < |gameScores| && gameScores[j] == g;
        }
      }
    }
  }

  /** `STATE_SET_GAME_STARTING_PLAYER` changes the starting player of that room and nothing else. */
  lemma SetStarterOnlyStarter(s: State, room: Name, starter: Option<Name>, i: int)
    requires 0 <= i < |s.rooms|
    ensures var after := ReduceRooms(s, SetGameStartingPlayer(room, starter))[i];
      (s.rooms[i].name == room ==> after == s.rooms[i].(gameStartingPlayer := starter))
      && (s.rooms[i].name != room ==> after == s.rooms[i])
  {
  }

  /**
   * `STATE_PLAYER_CHANGE_NAME` renames the player's seats in the room the
   * player sat in before the change, and no other room; score rows keep
   * the old name.
   */
  lemma ChangeNameOnlyOwnRoom(s: State, renamed: Player, name: Name, i: int)
    requires 0 <= i < |s.rooms|
    ensures var after := ReduceRooms(s, PlayerChangeName(renamed, name))[i];
      after.scores == s.rooms[i].scores && after.gameStartingPlayer == s.rooms[i].gameStartingPlayer
      && (PlayerRoom(s, renamed.id).None? || PlayerRoom(s, renamed.id).value.name != s.rooms[i].name ==>
        after == s.rooms[i])
  {
    var m := PlayerChangeName(renamed, name);
    assert ReduceRooms(s, m)[i] == UpdateRoom(m, ChangeRoom(s, m), s.rooms[i]);
  }

  /** `STATE_REMOVE_ROOM` leaves no room of that name and keeps every other room. */
  lemma RemoveRoomRemoves(s: State, name: Name)
    ensures forall room :: room in ReduceRooms(s, RemoveRoom(name)) <==> room in s.rooms && room.name != name
  {
  }

  /**
   * Every message except a name change keeps score rows aligned with seats,
   * provided an added room is itself aligned. A name change renames seats
   * but not score rows, so it keeps them aligned when the old name is not
   * seated in the renamed player's room.
   */
  lemma ReduceKeepsAligned(s: State, m: StateMessage)
    requires forall i :: 0 <= i < |s.rooms| ==> Aligned(s.rooms[i])
    requires m.AddRoom? ==> Aligned(m.newRoom)
    requires m.PlayerChangeName? && m.renamed.name.Some? && ChangeRoom(s, m).Some? ==>
      forall i :: 0 <= i < |s.rooms| && s.rooms[i].name == ChangeRoom(s, m).value ==>
        m.renamed.name.value !in s.rooms[i].players
    ensures forall i :: 0 <= i < |ReduceRooms(s, m)| ==> Aligned(ReduceRooms(s, m)[i])
  {
    var r := ReduceRooms(s, m);
    if IsRoomMapCase(m) {
      forall i | 0 <= i < |r| ensures Aligned(r[i]) {
        UpdateKeepsAligned(m, ChangeRoom(s, m), s.rooms[i]);
      }
    }
  }

  /** One room under a `map` case stays aligned (the name-change case needs the old name unseated). */
  lemma UpdateKeepsAligned(m: StateMessage, changeRoom: Option<Name>, room: Room)
    requires Aligned(room)
    requires m.PlayerChangeName? && m.renamed.name.Some? && changeRoom == Some(room.name) ==>
      m.renamed.name.value !in room.players
    ensures Aligned(UpdateRoom(m, changeRoom, room))
  {
    var r := UpdateRoom(m, changeRoom, room);
    if TargetsRoom(m, changeRoom, room) && m.PlayerChangeName? && m.renamed.name.Some? {
      assert r.players == room.players;
    }
  }
}

=== FILE: round_handlers.dfy ===
/**
 * The round handlers (src/logic/messageHandlers/round.ts): playing a card,
 * finishing a trick and announcing a round. The pauses are where other
 * messages may interleave, so what a handler does after its pause is a
 * function of its own (`AfterCardPlayed`, `AfterTrick`) that takes
 * whatever state then holds; the handler itself runs it on the state it
 * left. Messages to clients are not modelled here.
 */
module RoundHandlers {
  import opened Wrappers
  import opened Seqs
  import opened Cards
  import opened Entities
  import opened StateMessages
  import LM = LogicMessages
  import opened Validators
  import opened PlayersReducer
  import opened GamesReducer
  import opened Store
  import opened Queries
  import opened Steps

  // ---------------------------------------------------------------------
  // Announcing a round

  /**
   * `onNextRound` only talks to the room's clients: it throws when the
   * room is gone and otherwise changes nothing.
   */
  function AnnounceRound(s: State, roomName: Name): (r: Step)
    ensures r.state == s && r.fired.None?
    ensures r.crashed <==> FindRoom(s, Some(roomName)).None?
  {
    if FindRoom(s, Some(roomName)).None? then Crash(s) else Done(s)
  }

  // ---------------------------------------------------------------------
  // Playing a card

  /**
   * `onPlayCard`: a valid card leaves the player's hand or grills and is
   * laid on the table; after the pause the turn moves on, or the full
   * table finishes the trick. The room is looked up after the dispatch.
   * A message without a card reaches `cardEqual`, which reads the missing
   * card's suit and throws as soon as the player on turn has any card to
   * compare it with.
   */
  function LayCard(s: State, player: Player, card: Option<Card>): (r: Step)
    ensures r.replies == []
    ensures card.None? ==>
      r.state == s && r.fired.None?
      && (r.crashed <==>
            PlayerGame(s, player.id).Some? && PlayerGame(s, player.id).value.playerOnTurn == player.name
            && |player.hand + player.grills| > 0)
    ensures card.Some? && !PlayedCardIsValid(card.value, player, PlayerGame(s, player.id)) ==>
      r.state == s && !r.crashed && r.fired.None?
    ensures r.fired.Some? ==> r.fired.value.FinishRound?
  {
    match card
    case None =>
      var game := PlayerGame(s, player.id);
      if game.Some? && game.value.playerOnTurn == player.name && (|player.hand| > 0 || |player.grills| > 0)
      then Crash(s) else Done(s)
    case Some(c) =>
      if !PlayedCardIsValid(c, player, PlayerGame(s, player.id)) then Done(s)
      else
        var s1 := Apply(s, PlayCard(player, c));
        match PlayerRoom(s1, player.id)
        case None => Crash(s1)
        case Some(room) => AfterCardPlayed(s1, room.name)
  }

  /**
   * The part of `onPlayCard` after its pause, on the state then holding:
   * nothing without a game; with a full table, `LOGIC_FINISH_ROUND`;
   * otherwise the turn moves on.
   */
  function AfterCardPlayed(s: State, roomName: Name): (r: Step)
    ensures r.replies == []
    ensures FindGame(s, Some(roomName)).None? ==> r.state == s && !r.crashed && r.fired.None?
    ensures r.fired.Some? ==> r.fired == Some(LM.FinishRound(roomName)) && r.state == s
  {
    match FindGame(s, Some(roomName))
    case None => Done(s)
    case Some(game) =>
      if TableIsFull(game) then Fire(s, LM.FinishRound(game.room)) else PassTurn(s, game)
  }

  /**
   * `afterCardPlayed` with a table not yet full: the turn goes to the left
   * of the player on turn; looking that player up throws when the name
   * has no record or sits nowhere.
   */
  function PassTurn(s: State, game: Game): Step {
    match FindPlayer(s, game.playerOnTurn)
    case None => Crash(s)
    case Some(current) =>
      match PlayerOnLeftName(s, current.name)
      case Throws => Crash(s)
      case Returns(next) => Done(Apply(s, NextTurn(game.room, next)))
  }

  /** Passing the turn throws exactly when the player on turn cannot be placed, and else names the left neighbour. */
  lemma PassTurnEffect(s: State, game: Game)
    ensures var r := PassTurn(s, game);
      var next := PlayerOnLeftName(s, game.playerOnTurn);
      r.fired.None? && (r.crashed <==> next.Throws?)
      && (r.crashed ==> r.state == s)
      && (!r.crashed ==> r.state == Apply(s, NextTurn(game.room, next.value)))
  {
  }

  /** `STATE_NEXT_TURN` hands the turn in that room's games to `next` and changes nothing else. */
  lemma TurnSet(s: State, roomName: Name, next: Option<Name>)
    ensures var r := Apply(s, NextTurn(roomName, next));
      r.players == s.players && r.rooms == s.rooms && |r.games| == |s.games|
      && forall i :: 0 <= i < |s.games| ==>
        r.games[i] == (if s.games[i].room == roomName then s.games[i].(playerOnTurn := next) else s.games[i])
  {
    ApplyKeepsSeating(s, NextTurn(roomName, next));
    forall i | 0 <= i < |s.games|
      ensures Apply(s, NextTurn(roomName, next)).games[i]
        == (if s.games[i].room == roomName then s.games[i].(playerOnTurn := next) else s.games[i])
    {
      TurnAndSnapshotOneField(s, roomName, next, [], i);
    }
  }

  /**
   * An invalid card changes nothing; a valid one is laid, and the rest of
   * the handler runs in the player's room as it stood before the message.
   */
  lemma LayCardOpens(s: State, player: Player, card: Card)
    ensures !PlayedCardIsValid(card, player, PlayerGame(s, player.id)) ==> LayCard(s, player, Some(card)) == Done(s)
    ensures PlayedCardIsValid(card, player, PlayerGame(s, player.id)) ==>
      PlayerRoom(s, player.id).Some?
      && LayCard(s, player, Some(card)) == AfterCardPlayed(Apply(s, PlayCard(player, card)), PlayerRoom(s, player.id).value.name)
  {
    if PlayedCardIsValid(card, player, PlayerGame(s, player.id)) {
      LaidInSameRoom(s, player, card);
    }
  }

  /** Laying a card moves no one between rooms. */
  lemma LaidInSameRoom(s: State, player: Player, card: Card)
    ensures PlayerRoom(Apply(s, PlayCard(player, card)), player.id) == PlayerRoom(s, player.id)
  {
    ApplyKeepsSeating(s, PlayCard(player, card));
    PlayerRoomSameRoster(s, Apply(s, PlayCard(player, card)), player.id);
  }

  /**
   * `STATE_PLAY_CARD`: the player's records hold the card no more, in hand
   * or grills, and keep every other card; the game of the player's room
   * gets it last on the table; nothing else changes.
   */
  lemma CardLaid(s: State, player: Player, card: Card)
    ensures var r := Apply(s, PlayCard(player, card));
      r.rooms == s.rooms && |r.players| == |s.players| && |r.games| == |s.games|
      && (forall i :: 0 <= i < |s.players| ==>
        var p, q := s.players[i], r.players[i];
        q.id == p.id && q.name == p.name
        && (p.name == player.name ==>
          card !in q.hand && card !in q.grills && q.pile == p.pile && q.handOver == p.handOver
          && forall c :: c != card ==> multiset(q.hand + q.grills)[c] == multiset(p.hand + p.grills)[c])
        && (p.name != player.name ==> q == p))
      && forall i :: 0 <= i < |s.games| ==>
        r.games[i] == (if RoomNameOf(s, player) == Some(s.games[i].room)
          then s.games[i].(table := s.games[i].table + [card]) else s.games[i])
  {
    var m := PlayCard(player, card);
    ApplyKeepsSeating(s, m);
    MapCasesFrame(s.players, m);
    forall i | 0 <= i < |s.players| && s.players[i].name == player.name
      ensures var q := Apply(s, m).players[i];
        card !in q.hand && card !in q.grills
        && forall c :: c != card ==> multiset(q.hand + q.grills)[c] == multiset(s.players[i].hand + s.players[i].grills)[c]
    {
      PlayCardRemoves(s.players, player, card, i);
    }
    forall i | 0 <= i < |s.games|
      ensures Apply(s, m).games[i] == (if RoomNameOf(s, player) == Some(s.games[i].room)
        then s.games[i].(table := s.games[i].table + [card]) else s.games[i])
    {
      PlayCardLaysLast(s, player, card, i);
    }
  }

  /**
   * After the pause nothing moves but the turn: players and rooms stay,
   * and only the room's games may get a new player on turn. Without a game
   * nothing happens; a full table fires `LOGIC_FINISH_ROUND`; otherwise
   * the handler throws exactly when the player on turn cannot be placed,
   * and else hands the turn to that player's left neighbour.
   */
  lemma AfterCardPlayedEffect(s: State, roomName: Name)
    ensures var r := AfterCardPlayed(s, roomName);
      r.state.players == s.players && r.state.rooms == s.rooms && |r.state.games| == |s.games|
      && forall i :: 0 <= i < |s.games| ==>
        r.state.games[i] == s.games[i].(playerOnTurn := r.state.games[i].playerOnTurn)
        && (s.games[i].room != roomName ==> r.state.games[i] == s.games[i])
    ensures FindGame(s, Some(roomName)).None? ==> AfterCardPlayed(s, roomName) == Done(s)
    ensures var r := AfterCardPlayed(s, roomName);
      var game := FindGame(s, Some(roomName));
      game.Some? ==>
        (TableIsFull(game.value) ==> r == Fire(s, LM.FinishRound(roomName)))
        && (!TableIsFull(game.value) ==>
          var next := PlayerOnLeftName(s, game.value.playerOnTurn);
          r.fired.None?
          && (r.crashed <==> next.Throws?)
          && (next.Returns? ==> forall i :: 0 <= i < |s.games| && s.games[i].room == roomName ==>
            r.state.games[i].playerOnTurn == next.value))
  {
    match FindGame(s, Some(roomName))
    case None =>
    case Some(game) =>
      if !TableIsFull(game) {
        PassTurnEffect(s, game);
        var next := PlayerOnLeftName(s, game.playerOnTurn);
        if next.Returns? {
          TurnSet(s, roomName, next.value);
        }
      }
  }

  /**
   * In a room of four distinct seats, while the table is not full, the
   * turn passes from the player in seat `k` to the player in seat
   * `k + 1`, wrapping from the last seat to the first.
   */
  lemma TurnPassesLeft(s: State, room: Room, game: Game, k: int)
    requires UniqueIds(s)
    requires |room.players| == 4 && 0 <= k < 4 && NoDup(room.players) && room.players[k] != ""
    requires FindPlayer(s, Some(room.players[k])).Some?
    requires RoomOfName(s, Some(room.players[k])) == Some(room)
    requires FindGame(s, Some(room.name)) == Some(game)
    requires game.playerOnTurn == Some(room.players[k]) && !TableIsFull(game)
    ensures var r := AfterCardPlayed(s, room.name);
      !r.crashed && r.fired.None? && |r.state.games| == |s.games|
      && forall i :: 0 <= i < |s.games| && s.games[i].room == room.name ==>
        r.state.games[i].playerOnTurn == Some(room.players[NextSeat(k)])
  {
    LeftNeighbourIsNextSeat(s, room, k);
    AfterCardPlayedEffect(s, room.name);
  }

  /**
   * Playing a valid card from a duplicate-free hand and grills (record
   * `i` is the acting record): exactly that card leaves them, whatever
   * happens after the pause, and every game of the player's room has it
   * last on the table.
   */
  lemma LayCardRemovesCard(s: State, player: Player, card: Card, i: int)
    requires 0 <= i < |s.players| && s.players[i] == player
    requires NoDup(player.hand + player.grills)
    ensures var r := LayCard(s, player, Some(card));
      PlayedCardIsValid(card, player, PlayerGame(s, player.id)) ==>
        |r.state.players| == |s.players| && |r.state.games| == |s.games|
        && multiset(r.state.players[i].hand + r.state.players[i].grills) + multiset{card}
          == multiset(player.hand + player.grills)
        && forall g :: 0 <= g < |s.games| && RoomNameOf(s, player) == Some(s.games[g].room) ==>
          r.state.games[g].table == s.games[g].table + [card]
  {
    if PlayedCardIsValid(card, player, PlayerGame(s, player.id)) {
      var s1 := Apply(s, PlayCard(player, card));
      LayCardOpens(s, player, card);
      PlayCardRemoves(s.players, player, card, i);
      CardLaid(s, player, card);
      AfterCardPlayedEffect(s1, PlayerRoom(s, player.id).value.name);
    }
  }

  // ---------------------------------------------------------------------
  // Finishing a trick

  /**
   * `onFinishRound`: the trick on the table goes to the player with the
   * highest card; after the pause, if the room still has a game, the next
   * round starts with that player, or the last round ends the game. It
   * throws before any dispatch when the room or game is missing, the table
   * is empty, or the winning seat has no record.
   */
  function FinishTrick(s: State, roomName: Name): (r: Step)
    ensures r.replies == []
    ensures FindRoom(s, Some(roomName)).None? || FindGame(s, Some(roomName)).None? ==> r.crashed && r.state == s
    ensures r.fired.Some? ==> r.fired == Some(LM.NextRound(roomName)) || r.fired == Some(LM.GameEnd(roomName))
  {
    match FindRoom(s, Some(roomName))
    case None => Crash(s)
    case Some(room) =>
      match FindGame(s, Some(roomName))
      case None => Crash(s)
      case Some(game) => Award(s, room, game)
  }

  /** The trick goes to the record in the winning seat, and the rest of `onFinishRound` runs after the pause. */
  function Award(s: State, room: Room, game: Game): Step {
    match PlayerWithHighestCard(s, room)
    case Throws => Crash(s)
    case Returns(receiver) =>
      if receiver.None? then Crash(s)
      else AfterTrick(Apply(s, PassTrick(receiver.value, game.table)), game, SeatOf(room.players, receiver.value.name))
  }

  /**
   * The part of `onFinishRound` after its pause, on the state then
   * holding, with the game as it was before the trick and the receiver's
   * seat: nothing once the game is gone; otherwise the room must still
   * exist; before the last round the next one starts with the receiver on
   * turn, and after it the game ends.
   */
  function AfterTrick(s: State, game: Game, seat: int): (r: Step)
    ensures r.replies == []
    ensures r.fired.Some? ==>
      r.fired == if IsLastRound(game.round) then Some(LM.GameEnd(game.room)) else Some(LM.NextRound(game.room))
    ensures r.fired.None? <==> r.crashed || FindGame(s, Some(game.room)).None?
  {
    if FindGame(s, Some(game.room)).None? then Done(s)
    else
      match FindRoom(s, Some(game.room))
      case None => Crash(s)
      case Some(room) =>
        if !IsLastRound(game.round) then
          Fire(Apply(s, NextRound(room, SeatAt(room.players, seat))), LM.NextRound(room.name))
        else Fire(s, LM.GameEnd(room.name))
  }

  /** `STATE_NEXT_ROUND` advances the round of that room's game, with `playerOnTurn` or else the starter on turn. */
  lemma RoundAdvanced(s: State, room: Room, playerOnTurn: Option<Name>)
    ensures var t := Apply(s, NextRound(room, playerOnTurn));
      t.players == s.players && t.rooms == s.rooms && |t.games| == |s.games|
      && forall i :: 0 <= i < |s.games| ==>
        t.games[i] == (if s.games[i].room == room.name
          then s.games[i].(round := s.games[i].round + 1, playerOnTurn := NameOr(playerOnTurn, room.gameStartingPlayer))
          else s.games[i])
  {
    var m := NextRound(room, playerOnTurn);
    ApplyKeepsSeating(s, m);
    forall i | 0 <= i < |s.games|
      ensures Apply(s, m).games[i] == (if s.games[i].room == room.name
        then s.games[i].(round := s.games[i].round + 1, playerOnTurn := NameOr(playerOnTurn, room.gameStartingPlayer))
        else s.games[i])
    {
      if s.games[i].room == room.name {
        NextRoundAdvances(s, room, playerOnTurn, i);
      }
    }
  }

  /**
   * Finishing a trick throws exactly when there is no room, no game or
   * card on the table, or no record in the winning seat.
   */
  lemma FinishTrickCrashes(s: State, roomName: Name)
    ensures var r := FinishTrick(s, roomName);
      var room := FindRoom(s, Some(roomName));
      r.crashed <==> (room.None? || !PlayerWithHighestCard(s, room.value).Returns?
        || PlayerWithHighestCard(s, room.value).value.None?)
  {
    match FindRoom(s, Some(roomName))
    case None =>
    case Some(room) =>
      match FindGame(s, Some(roomName))
      case None =>
      case Some(game) =>
        AwardCrashes(s, room, game);
  }

  /** Awarding the trick throws only when the winning seat cannot be found. */
  lemma AwardCrashes(s: State, room: Room, game: Game)
    requires FindRoom(s, Some(room.name)) == Some(room) && FindGame(s, Some(room.name)) == Some(game)
    ensures Award(s, room, game).crashed <==>
      !PlayerWithHighestCard(s, room).Returns? || PlayerWithHighestCard(s, room).value.None?
  {
    match PlayerWithHighestCard(s, room)
    case Throws =>
    case Returns(receiver) =>
      if receiver.Some? {
        var s1 := Apply(s, PassTrick(receiver.value, game.table));
        TrickKeepsLookups(s, receiver.value, game.table, room.name);
        AfterTrickEffect(s1, game, SeatOf(room.players, receiver.value.name));
      }
  }

  /** Passing a trick changes no room and no game's room, so the same room and game are found. */
  lemma TrickKeepsLookups(s: State, receiver: Player, trick: seq<Card>, roomName: Name)
    ensures var r := Apply(s, PassTrick(receiver, trick));
      FindRoom(r, Some(roomName)) == FindRoom(s, Some(roomName))
      && (FindGame(r, Some(roomName)).Some? <==> FindGame(s, Some(roomName)).Some?)
  {
    var r := Apply(s, PassTrick(receiver, trick));
    ApplyKeepsSeating(s, PassTrick(receiver, trick));
    FindRoomSameRooms(s, r, Some(roomName));
    FindGameSameRooms(s, r, roomName);
  }

  /** Passing the trick keeps every game's room, so a room's game is still found. */
  lemma FindGameSameRooms(s: State, t: State, roomName: Name)
    requires |t.games| == |s.games| && forall i :: 0 <= i < |s.games| ==> t.games[i].room == s.games[i].room
    ensures FindGame(s, Some(roomName)).Some? <==> FindGame(t, Some(roomName)).Some?
  {
    if FindGame(s, Some(roomName)).Some? {
      var k :| 0 <= k < |s.games| && s.games[k] == FindGame(s, Some(roomName)).value;
      assert t.games[k].room == roomName;
    }
  }

  /**
   * `STATE_PASS_TRICK`: the receiver's records add the trick to the pile
   * and keep hand and grills; the game of the receiver's room has an empty
   * table; nothing else changes.
   */
  lemma TrickPassed(s: State, receiver: Player, trick: seq<Card>)
    ensures var r := Apply(s, PassTrick(receiver, trick));
      r.rooms == s.rooms && |r.players| == |s.players| && |r.games| == |s.games|
      && (forall i :: 0 <= i < |s.players| ==>
        var p, q := s.players[i], r.players[i];
        (p.name == receiver.name ==> q == p.(pile := p.pile + trick))
        && (p.name != receiver.name ==> q == p))
      && forall i :: 0 <= i < |s.games| ==>
        r.games[i] == (if RoomNameOf(s, receiver) == Some(s.games[i].room) then s.games[i].(table := []) else s.games[i])
  {
    var m := PassTrick(receiver, trick);
    ApplyKeepsSeating(s, m);
    MapCasesFrame(s.players, m);
    forall i | 0 <= i < |s.games|
      ensures Apply(s, m).games[i]
        == (if RoomNameOf(s, receiver) == Some(s.games[i].room) then s.games[i].(table := []) else s.games[i])
    {
      PassTrickClears(s, receiver, trick, i);
    }
  }

  /** Passing a trick keeps the rooms and every game's room and round. */
  lemma TrickKeepsRounds(s: State, receiver: Player, trick: seq<Card>)
    ensures var r := Apply(s, PassTrick(receiver, trick));
      r.rooms == s.rooms && |r.games| == |s.games|
      && forall i :: 0 <= i < |s.games| ==> r.games[i].room == s.games[i].room && r.games[i].round == s.games[i].round
  {
    forall i | 0 <= i < |s.games|
      ensures Apply(s, PassTrick(receiver, trick)).games[i].round == s.games[i].round
    {
      PassTrickClears(s, receiver, trick, i);
    }
    ApplyKeepsSeating(s, PassTrick(receiver, trick));
  }

  /**
   * After the pause, with the game still there and its room too: before
   * the last round every game of the room moves one round on with the
   * receiver's seat on turn (the starting player when the seat is empty
   * or unknown) and `LOGIC_NEXT_ROUND` fires; after the last round only
   * `LOGIC_GAME_END` fires. Players and rooms never change.
   */
  lemma AfterTrickEffect(s: State, game: Game, seat: int)
    ensures var r := AfterTrick(s, game, seat);
      r.state.players == s.players && r.state.rooms == s.rooms && |r.state.games| == |s.games|
    ensures var r := AfterTrick(s, game, seat);
      var room := FindRoom(s, Some(game.room));
      FindGame(s, Some(game.room)).Some? ==>
        (r.crashed <==> room.None?)
        && (room.Some? && IsLastRound(game.round) ==> r == Fire(s, LM.GameEnd(game.room)))
        && (room.Some? && !IsLastRound(game.round) ==>
          r.fired == Some(LM.NextRound(game.room))
          && forall i :: 0 <= i < |s.games| ==>
            r.state.games[i] == (if s.games[i].room == game.room
              then s.games[i].(round := s.games[i].round + 1,
                playerOnTurn := NameOr(SeatAt(room.value.players, seat), room.value.gameStartingPlayer))
              else s.games[i]))
  {
    if FindGame(s, Some(game.room)).Some? {
      match FindRoom(s, Some(game.room))
      case None =>
      case Some(room) =>
        if !IsLastRound(game.round) {
          assert room.name == game.room;
          assert AfterTrick(s, game, seat) == Fire(Apply(s, NextRound(room, SeatAt(room.players, seat))), LM.NextRound(room.name));
          RoundAdvanced(s, room, SeatAt(room.players, seat));
        }
    }
  }

  /**
   * In a room of four distinct, non-empty seats whose game has cards on
   * the table, before the last round: the player in seat
   * `WinnerSeat(k, h)` (the seat of the highest card `h`, counted from the
   * seat after `k`, the last to play) takes the trick and leads the next
   * round, which `LOGIC_NEXT_ROUND` announces.
   */
  lemma WinnerLeadsNextRound(s: State, room: Room, game: Game, k: int, w: int)
    requires |room.players| == 4 && 0 <= k < 4 && NoDup(room.players)
    requires forall j :: 0 <= j < 4 ==> room.players[j] != ""
    requires FindRoom(s, Some(room.name)) == Some(room) && FindGame(s, Some(room.name)) == Some(game)
    requires 0 < |game.table| <= 4 && game.playerOnTurn == Some(room.players[k]) && !IsLastRound(game.round)
    requires w == WinnerSeat(k, IndexOf(game.table, HighestCardOnTable(game.table)))
    requires forall j :: 0 <= j < 4 ==> FindPlayer(s, Some(room.players[j])).Some?
    ensures 0 <= w < 4
    ensures var r := FinishTrick(s, room.name);
      !r.crashed && r.fired == Some(LM.NextRound(room.name)) && |r.state.games| == |s.games|
      && forall i :: 0 <= i < |s.games| && s.games[i].room == room.name ==>
        r.state.games[i].playerOnTurn == Some(room.players[w])
        && r.state.games[i].round == s.games[i].round + 1
  {
    TrickGoesToHighestCardSeat(s, room, k);
    var receiver := FindPlayer(s, Some(room.players[w])).value;
    IndexOfNoDup(room.players, w);
    assert SeatOf(room.players, receiver.name) == w;
    var s1 := Apply(s, PassTrick(receiver, game.table));
    assert FinishTrick(s, room.name) == Award(s, room, game) == AfterTrick(s1, game, w);
    WinnerOpensRound(s, s1, room, game, receiver, w);
  }

  /** Once the trick is passed to the record in seat `w`, the next round starts with that seat on turn. */
  lemma WinnerOpensRound(s: State, s1: State, room: Room, game: Game, receiver: Player, w: int)
    requires s1 == Apply(s, PassTrick(receiver, game.table))
    requires 0 <= w < |room.players| && room.players[w] != "" && !IsLastRound(game.round)
    requires FindRoom(s, Some(room.name)) == Some(room) && FindGame(s, Some(room.name)) == Some(game)
    ensures var r := AfterTrick(s1, game, w);
      !r.crashed && r.fired == Some(LM.NextRound(room.name)) && |r.state.games| == |s.games|
      && forall i :: 0 <= i < |s.games| && s.games[i].room == room.name ==>
        r.state.games[i].playerOnTurn == Some(room.players[w])
        && r.state.games[i].round == s.games[i].round + 1
  {
    TrickKeepsRounds(s, receiver, game.table);
    TrickKeepsLookups(s, receiver, game.table, room.name);
    var onTurn := Some(room.players[w]);
    var m := NextRound(room, onTurn);
    assert AfterTrick(s1, game, w) == Fire(Apply(s1, m), LM.NextRound(room.name));
    ApplyKeepsSeating(s1, m);
    forall i | 0 <= i < |s.games| && s.games[i].room == room.name
      ensures Apply(s1, m).games[i].playerOnTurn == onTurn && Apply(s1, m).games[i].round == s.games[i].round + 1
    {
      NextRoundAdvances(s1, room, onTurn, i);
    }
  }
}

=== FILE: safe_message.dfy ===
/**
 * The gate every message from a socket passes before it reaches the bus:
 * internal message types (`LOGIC_…`, `STATE_…`, `$_…`) may not come from a
 * client, and only `REGISTER` may come from a player without a name.
 */
module SafeMessage {
  import opened Wrappers
  import Queries

  const LogicPrefix: string := "LOGIC_"
  const StatePrefix: string := "STATE_"
  const InternalPrefix: string := "$_"
  const RegisterType: string := "REGISTER"

  /** The regular-expression class `\w`: ASCII letters, digits and the underscore. */
  predicate IsWordChar(c: char) {
    ('a' <= c <= 'z') || ('A' <= c <= 'Z') || ('0' <= c <= '9') || c == '_'
  }

  /** `t` matches `^<prefix>[\w]*$`: the prefix, then word characters to the end. */
  ghost predicate AnchoredMatch(t: string, prefix: string) {
    |prefix| <= |t| && t[..|prefix|] == prefix
    && forall k :: |prefix| <= k < |t| ==> IsWordChar(t[k])
  }

  /**
   * The matcher run from position `i`: the prefix's characters one by one,
   * then word characters until the end of `t`.
   */
  function MatchFrom(t: string, prefix: string, i: nat): bool
    requires i <= |t|
    decreases |t| - i
  {
    if i < |prefix| then i < |t| && t[i] == prefix[i] && MatchFrom(t, prefix, i + 1)
    else if i < |t| then IsWordChar(t[i]) && MatchFrom(t, prefix, i + 1)
    else true
  }

  /** From position `i`, the matcher succeeds exactly when the rest of `t` fits the pattern. */
  lemma {:induction false} MatchFromMeans(t: string, prefix: string, i: nat)
    requires i <= |t|
    ensures MatchFrom(t, prefix, i) <==>
      |prefix| <= |t|
      && (forall k :: i <= k < |prefix| ==> t[k] == prefix[k])
      && (forall k :: i <= k < |t| && |prefix| <= k ==> IsWordChar(t[k]))
    decreases |t| - i
  {
    if i < |prefix| {
      if i < |t| {
        MatchFromMeans(t, prefix, i + 1);
      }
    } else if i < |t| {
      MatchFromMeans(t, prefix, i + 1);
    }
  }

  /**
   * `t.search(/^<prefix>[\w]*$/)`: the pattern is anchored at the start, so
   * the only place it can match is index 0; otherwise `-1`.
   */
  function Search(t: string, prefix: string): (r: int)
    ensures r == 0 || r == -1
    ensures r == 0 <==> AnchoredMatch(t, prefix)
  {
    MatchFromStart(t, prefix);
    if MatchFrom(t, prefix, 0) then 0 else -1
  }

  /** Run from the start, the matcher decides the anchored pattern. */
  lemma MatchFromStart(t: string, prefix: string)
    ensures MatchFrom(t, prefix, 0) <==> AnchoredMatch(t, prefix)
  {
    MatchFromMeans(t, prefix, 0);
    if |prefix| <= |t| {
      assert (forall k :: 0 <= k < |prefix| ==> t[k] == prefix[k]) <==> t[..|prefix|] == prefix;
    }
  }

  /**
   * `isSafeMessage` on a message whose `type` is a string or missing:
   * `msgType` is that `type` (`None` when the message or its type is
   * missing); `playerName` is the sender's name (`None` when it is not a
   * string). `CheckMessage` covers the other values JSON can carry.
   */
  function IsSafeMessage(msgType: Option<string>, playerName: Option<string>): (ok: bool)
    ensures ok <==>
      msgType.Some? && msgType.value != ""
      && !AnchoredMatch(msgType.value, LogicPrefix)
      && !AnchoredMatch(msgType.value, StatePrefix)
      && !AnchoredMatch(msgType.value, InternalPrefix)
      && (playerName.Some? || msgType.value == RegisterType)
  {
    msgType.Some?
    && msgType.value != ""
    && Search(msgType.value, LogicPrefix) == -1
    && Search(msgType.value, StatePrefix) == -1
    && Search(msgType.value, InternalPrefix) == -1
    && (playerName.Some? || msgType.value == RegisterType)
  }

  /**
   * The `type` field of a parsed message, as JSON may carry it: absent
   * (or no message at all), a string, a falsy value of another kind
   * (`null`, `false`, `0`), or a truthy one (another number, `true`, an
   * array or an object).
   */
  datatype TypeField = Absent | Text(text: string) | FalsyValue | TruthyValue

  /**
   * `isSafeMessage` on any parsed `type`: a truthy value that is not a
   * string has no `search` method, so the check throws; a falsy one is
   * rejected; a string is decided as `IsSafeMessage` decides it.
   */
  function CheckMessage(field: TypeField, playerName: Option<string>): (r: Queries.Outcome<bool>)
    ensures r.Throws? <==> field.TruthyValue?
    ensures r == Queries.Returns(true) <==> field.Text? && IsSafeMessage(Some(field.text), playerName)
  {
    match field
    case Absent => Queries.Returns(false)
    case FalsyValue => Queries.Returns(false)
    case TruthyValue => Queries.Throws
    case Text(t) => Queries.Returns(IsSafeMessage(Some(t), playerName))
  }

  /** A missing or empty type never passes. */
  lemma MissingTypeRejected(playerName: Option<string>)
    ensures !IsSafeMessage(None, playerName)
    ensures !IsSafeMessage(Some(""), playerName)
  {
  }

  /** One of the internal prefixes followed only by word characters never passes. */
  lemma InternalTypeRejected(prefix: string, suffix: string, playerName: Option<string>)
    requires prefix == LogicPrefix || prefix == StatePrefix || prefix == InternalPrefix
    requires forall k :: 0 <= k < |suffix| ==> IsWordChar(suffix[k])
    ensures !IsSafeMessage(Some(prefix + suffix), playerName)
  {
    var t := prefix + suffix;
    assert t[..|prefix|] == prefix;
    assert forall k :: |prefix| <= k < |t| ==> t[k] == suffix[k - |prefix|];
    assert AnchoredMatch(t, prefix);
  }

  /** A player without a name gets through with `REGISTER` only. */
  lemma UnnamedPlayerMayOnlyRegister(t: string)
    ensures IsSafeMessage(Some(t), None) <==> t == RegisterType
  {
    if t == RegisterType {
      assert t[0] == 'R';
      assert !AnchoredMatch(t, LogicPrefix) && !AnchoredMatch(t, StatePrefix) && !AnchoredMatch(t, InternalPrefix) by {
        assert t[..6] == "REGIST";
        assert t[..2] == "RE";
      }
    }
  }

  /**
   * The anchors let an internal prefix through when a non-word character
   * follows it: `STATE_A-B` is not rejected by the type checks.
   */
  lemma NonWordSuffixPasses(playerName: Option<string>)
    requires playerName.Some?
    ensures IsSafeMessage(Some("STATE_A-B"), playerName)
  {
    var t := "STATE_A-B";
    assert t[7] == '-' && !IsWordChar(t[7]);
    assert !AnchoredMatch(t, StatePrefix);
    assert t[0] == 'S' && LogicPrefix[0] == 'L' && InternalPrefix[0] == '$';
    assert t[..6] == "STATE_" && t[..6] != LogicPrefix && t[..2] != InternalPrefix;
  }

  /** A client message type such as `PLAY_CARD` from a named player passes. */
  lemma ClientTypePasses(playerName: Option<string>)
    requires playerName.Some?
    ensures IsSafeMessage(Some("PLAY_CARD"), playerName)
  {
    var t := "PLAY_CARD";
    assert t[..6] == "PLAY_C" && t[..2] == "PL";
  }
}

=== FILE: seqs.dfy ===
/**
 * The built-in array operations the program leans on (`filter`, `reverse`,
 * `indexOf`, `find`), as pure functions on sequences, plus duplicate-freedom.
 */
module Seqs {
  import opened Wrappers

  /** `Array.prototype.filter`: the elements satisfying `p`, in order. */
  function Filter<T(!new)>(s: seq<T>, p: T -> bool): (r: seq<T>)
    ensures |r| <= |s|
    ensures forall x :: multiset(r)[x] == if p(x) then multiset(s)[x] else 0
    ensures forall i :: 0 <= i < |r| ==> p(r[i]) && r[i] in s
  {
    if |s| == 0 then []
    else
      assert s == [s[0]] + s[1..];
      if p(s[0]) then [s[0]] + Filter(s[1..], p) else Filter(s[1..], p)
  }

  /** Filtering distributes over concatenation. */
  lemma {:induction false} FilterAppend<T(!new)>(a: seq<T>, b: seq<T>, p: T -> bool)
    ensures Filter(a + b, p) == Filter(a, p) + Filter(b, p)
  {
    if |a| > 0 {
      assert (a + b)[1..] == a[1..] + b;
      FilterAppend(a[1..], b, p);
    } else {
      assert a + b == b;
    }
  }

  /** No element occurs twice. */
  predicate NoDup<T(==)>(s: seq<T>) {
    forall i, j :: 0 <= i < j < |s| ==> s[i] != s[j]
  }

  /** Duplicate-freedom is the same as every multiplicity being at most one. */
  lemma {:induction false} NoDupMultiplicity<T>(s: seq<T>)
    ensures NoDup(s) <==> forall x :: multiset(s)[x] <= 1
  {
    if |s| > 0 {
      NoDupMultiplicity(s[1..]);
      assert s == [s[0]] + s[1..];
      if NoDup(s) {
        assert NoDup(s[1..]) by {
          forall i, j | 0 <= i < j < |s[1..]| ensures s[1..][i] != s[1..][j] {
            assert s[1..][i] == s[i + 1] && s[1..][j] == s[j + 1];
          }
        }
        assert s[0] !in s[1..];
      } else {
        var i, j :| 0 <= i < j < |s| && s[i] == s[j];
        if i == 0 {
          assert s[1..][j - 1] == s[0];
          assert multiset(s)[s[0]] >= 2;
        } else {
          assert s[1..][i - 1] == s[1..][j - 1];
          assert !NoDup(s[1..]);
          var x :| multiset(s[1..])[x] > 1;
          assert multiset(s)[x] > 1;
        }
      }
    }
  }

  /** A sub-list obtained by filtering a duplicate-free list is duplicate-free. */
  lemma FilterNoDup<T(!new)>(s: seq<T>, p: T -> bool)
    requires NoDup(s)
    ensures NoDup(Filter(s, p))
  {
    NoDupMultiplicity(s);
    NoDupMultiplicity(Filter(s, p));
  }

  /** `Array.prototype.reverse`, without the in-place mutation. */
  function Reverse<T>(s: seq<T>): (r: seq<T>)
    ensures |r| == |s|
    ensures forall i :: 0 <= i < |s| ==> r[i] == s[|s| - 1 - i]
    ensures multiset(r) == multiset(s)
  {
    if |s| == 0 then []
    else
      assert s == [s[0]] + s[1..];
      Reverse(s[1..]) + [s[0]]
  }

  /** Reversing twice gives the list back. */
  lemma ReverseReverse<T>(s: seq<T>)
    ensures Reverse(Reverse(s)) == s
  {
  }

  /** `Array.prototype.indexOf`: the first position of `x`, or -1. */
  function IndexOf<T(==)>(s: seq<T>, x: T): (r: int)
    ensures -1 <= r < |s|
    ensures r == -1 <==> x !in s
    ensures r >= 0 ==> s[r] == x && x !in s[..r]
  {
    if |s| == 0 then -1
    else if s[0] == x then 0
    else
      var k := IndexOf(s[1..], x);
      assert s == [s[0]] + s[1..];
      if k == -1 then -1
      else
        assert s[..k + 1] == [s[0]] + s[1..][..k];
        k + 1
  }

  /** In a duplicate-free list, the position of the element at `k` is `k`. */
  lemma IndexOfNoDup<T>(s: seq<T>, k: int)
    requires NoDup(s) && 0 <= k < |s|
    ensures IndexOf(s, s[k]) == k
  {
    var r := IndexOf(s, s[k]);
    assert s[k] !in s[..r];
  }

  /** The tail of a duplicate-free list is duplicate-free and lacks the head. */
  lemma NoDupTail<T>(s: seq<T>)
    requires NoDup(s) && |s| > 0
    ensures NoDup(s[1..]) && s[0] !in s[1..]
  {
    forall i, j | 0 <= i < j < |s[1..]| ensures s[1..][i] != s[1..][j] {
      assert s[1..][i] == s[i + 1] && s[1..][j] == s[j + 1];
    }
  }

  /** Past the head, a position in the tail is one less than in the list. */
  lemma IndexOfTail<T>(s: seq<T>, x: T)
    requires |s| > 0 && x in s && x != s[0]
    ensures x in s[1..] && IndexOf(s, x) == 1 + IndexOf(s[1..], x)
  {
  }

  /** `Array.prototype.find`: the first element satisfying `p`. */
  function Find<T(==)>(s: seq<T>, p: T -> bool): (r: Option<T>)
    ensures r.None? <==> forall i :: 0 <= i < |s| ==> !p(s[i])
    ensures r.Some? ==>
      exists k :: (0 <= k < |s| && s[k] == r.value && p(r.value)
        && forall i :: 0 <= i < k ==> !p(s[i]))
  {
    if |s| == 0 then None
    else if p(s[0]) then Some(s[0])
    else
      var r := Find(s[1..], p);
      if r.Some? then
        var k :| 0 <= k < |s[1..]| && s[1..][k] == r.value && p(r.value)
          && forall i :: 0 <= i < k ==> !p(s[1..][i]);
        assert s[k + 1] == r.value;
        assert forall i :: 0 <= i < k + 1 ==> !p(s[i]) by {
          forall i | 0 <= i < k + 1 ensures !p(s[i]) {
            if i > 0 { assert s[i] == s[1..][i - 1]; }
          }
        }
        r
      else
        assert forall i :: 0 <= i < |s| ==> !p(s[i]) by {
          forall i | 0 <= i < |s| ensures !p(s[i]) {
            if i > 0 { assert s[i] == s[1..][i - 1]; }
          }
        }
        r
  }
}

=== FILE: steps.dfy ===
/**
 * What a message handler produces, and the facts the handlers share: the
 * names of a room's players, and the queries that only read names, ids
 * and rooms, so that dispatches touching cards and flags leave them alone.
 */
module Steps {
  import opened Wrappers
  import opened Seqs
  import opened ArrayPolyfill
  import opened Entities
  import opened LogicMessages
  import opened Validators
  import opened Queries
  import opened StateMessages
  import opened PlayersReducer
  import opened RoomsReducer
  import opened GamesReducer
  import opened Store
  import SV = ServerMessages

  /**
   * The result of one handler run: the state after its dispatches, the
   * logic message it dispatched last (if any), the messages it sent back
   * to the acting client, and whether it threw part-way. A throw keeps
   * the dispatches already made.
   */
  datatype Step = Step(state: State, fired: Option<LogicMessage>, replies: seq<SV.ServerMessage>, crashed: bool)

  /** A handler that finished without firing a logic message. */
  function Done(s: State): (r: Step)
    ensures r.state == s && r.fired.None? && r.replies == [] && !r.crashed
  {
    Step(s, None, [], false)
  }

  /** A handler that finished by dispatching logic message `m`. */
  function Fire(s: State, m: LogicMessage): (r: Step)
    ensures r.state == s && r.fired == Some(m) && r.replies == [] && !r.crashed
  {
    Step(s, Some(m), [], false)
  }

  /** A handler that threw after reaching state `s`. */
  function Crash(s: State): (r: Step)
    ensures r.state == s && r.fired.None? && r.replies == [] && r.crashed
  {
    Step(s, None, [], true)
  }

  /** The names of found player records (which always carry one), in order. */
  function NamesOf(players: seq<Player>): (r: seq<Name>)
    ensures |r| == |players|
    ensures forall i :: 0 <= i < |r| && players[i].name.Some? ==> Some(r[i]) == players[i].name
  {
    Map((p: Player) => p.name.GetOr(""), players)
  }

  /** The names of a room's players: the seated names that have a record, in seat order. */
  function RoomNames(s: State, room: Name): (r: seq<Name>)
    ensures r == NamesOf(PlayersInRoom(s, Some(room)))
  {
    NamesOf(PlayersInRoom(s, Some(room)))
  }

  /** Whether a player record carries name `n`. */
  function Recorded(s: State): Name -> bool {
    (n: Name) => FindPlayer(s, Some(n)).Some?
  }

  /** The seated names that have a record, in seat order, as the lookup sees them. */
  lemma {:induction false} NamesOfPlayersOf(s: State, names: seq<Name>)
    ensures NamesOf(PlayersOf(s, names)) == Filter(names, Recorded(s))
    decreases |names|
  {
    if |names| > 0 {
      var rest := PlayersOf(s, names[1..]);
      NamesOfPlayersOf(s, names[1..]);
      match FindPlayer(s, Some(names[0]))
      case None =>
        assert !Recorded(s)(names[0]);
        assert Filter(names, Recorded(s)) == Filter(names[1..], Recorded(s));
        assert PlayersOf(s, names) == rest;
      case Some(p) =>
        assert Recorded(s)(names[0]);
        assert Filter(names, Recorded(s)) == [names[0]] + Filter(names[1..], Recorded(s));
        assert PlayersOf(s, names) == [p] + rest;
        ConsNames(p, rest);
    }
  }

  /** The names of `[p] + rest` are `p`'s name, then the names of `rest`. */
  lemma ConsNames(p: Player, rest: seq<Player>)
    ensures NamesOf([p] + rest) == [p.name.GetOr("")] + NamesOf(rest)
  {
    var l := NamesOf([p] + rest);
    assert l[0] == p.name.GetOr("");
    forall i | 0 < i < |rest| + 1 ensures l[i] == NamesOf(rest)[i - 1] {
      assert ([p] + rest)[i] == rest[i - 1];
    }
  }

  /** A name of a filtered list of records is a name of the whole list. */
  lemma FilteredNames(ps: seq<Player>, f: Player -> bool, n: Name)
    requires n in NamesOf(Filter(ps, f))
    ensures n in NamesOf(ps)
  {
    var fs := Filter(ps, f);
    var k :| 0 <= k < |fs| && NamesOf(fs)[k] == n;
    var j :| 0 <= j < |ps| && ps[j] == fs[k];
    assert NamesOf(ps)[j] == n;
  }

  /** Filtering by two predicates that agree everywhere gives the same list. */
  lemma {:induction false} FilterCongruent(xs: seq<Name>, p: Name -> bool, q: Name -> bool)
    requires forall n :: p(n) == q(n)
    ensures Filter(xs, p) == Filter(xs, q)
    decreases |xs|
  {
    if |xs| > 0 {
      FilterCongruent(xs[1..], p, q);
    }
  }

  /** Record by record, the same ids and names. */
  predicate SamePlayers(s: State, t: State) {
    |s.players| == |t.players|
    && forall i :: 0 <= i < |s.players| ==> s.players[i].id == t.players[i].id && s.players[i].name == t.players[i].name
  }

  /** The same ids and names, and room by room the same names and seats. */
  predicate SameSeating(s: State, t: State) {
    SamePlayers(s, t) && |s.rooms| == |t.rooms|
    && forall j :: 0 <= j < |s.rooms| ==> s.rooms[j].name == t.rooms[j].name && s.rooms[j].players == t.rooms[j].players
  }

  /** The same ids and names, and the very same rooms. */
  predicate SameRoster(s: State, t: State) {
    SamePlayers(s, t) && s.rooms == t.rooms
  }

  /** The messages that change no id, no name, no room name and no seat. */
  predicate KeepsSeating(m: StateMessage) {
    m.CardsToHand? || m.RemovePlayerCards? || m.SetPlayerWaitForMe? || m.SetPlayerShouldPassHandOver?
    || m.SetPlayerPassedHandOver? || m.SetPlayerWantsNewGame? || m.PassHandOver? || m.TakeHandOver?
    || m.PassTrick? || m.PassGrill? || m.PlayCard? || m.SetGameStartingPlayer? || m.AddScores?
    || m.CreateGame? || m.RemoveGame? || m.NextRound? || m.NextTurn? || m.CreateGrillsSnapshot? || m.Unhandled?
  }

  /** Of those, the messages that leave the rooms exactly as they were. */
  predicate KeepsRoster(m: StateMessage) {
    KeepsSeating(m) && !m.SetGameStartingPlayer? && !m.AddScores?
  }

  /** A seat-keeping dispatch keeps the seating; one that keeps the roster keeps the rooms too. */
  lemma ApplyKeepsSeating(s: State, m: StateMessage)
    requires KeepsSeating(m)
    ensures SameSeating(s, Apply(s, m))
    ensures KeepsRoster(m) ==> SameRoster(s, Apply(s, m))
  {
    ApplyKeepsPlayers(s, m);
    ApplyKeepsRooms(s, m);
  }

  /** A seat-keeping dispatch changes no id and no name. */
  lemma ApplyKeepsPlayers(s: State, m: StateMessage)
    requires KeepsSeating(m)
    ensures SamePlayers(s, Apply(s, m))
  {
    var ps := ReducePlayers(s.players, m);
    if IsMapCase(m) {
      forall i | 0 <= i < |s.players| ensures ps[i].id == s.players[i].id && ps[i].name == s.players[i].name {
        assert ps[i] == UpdatePlayer(m, s.players[i]);
      }
    } else {
      assert ps == s.players;
    }
  }

  /** A seat-keeping dispatch renames no room and moves no seat; one that keeps the roster changes no room. */
  lemma ApplyKeepsRooms(s: State, m: StateMessage)
    requires KeepsSeating(m)
    ensures var rs := ReduceRooms(s, m);
      |rs| == |s.rooms| && forall j :: 0 <= j < |s.rooms| ==> rs[j].name == s.rooms[j].name && rs[j].players == s.rooms[j].players
    ensures KeepsRoster(m) ==> ReduceRooms(s, m) == s.rooms
  {
    var rs := ReduceRooms(s, m);
    if IsRoomMapCase(m) {
      forall j | 0 <= j < |s.rooms| ensures rs[j].name == s.rooms[j].name && rs[j].players == s.rooms[j].players {
        assert rs[j] == UpdateRoom(m, ChangeRoom(s, m), s.rooms[j]);
      }
    }
  }

  /** A state is seated like itself, and seating carries over from one state to the next. */
  lemma SameSeatingTrans(s: State, t: State, u: State)
    requires SameSeating(s, t) && SameSeating(t, u)
    ensures SameSeating(s, u)
  {
  }

  /** Doing a player action for any names keeps the roster. */
  lemma ForEachKeepsRoster(s: State, a: PlayerAction, names: seq<Name>)
    ensures SameRoster(s, ForEach(s, a, names))
  {
    ForEachEffect(s, a, names);
  }

  /** Room lookups by name find a room in one state exactly when they do in the other, with the same seats. */
  lemma FindRoomSameSeating(s: State, t: State, name: Option<Name>)
    requires SameSeating(s, t)
    ensures FindRoom(s, name).Some? <==> FindRoom(t, name).Some?
    ensures FindRoom(s, name).Some? ==> FindRoom(s, name).value.players == FindRoom(t, name).value.players
  {
    if FindRoom(s, name).Some? {
      var a := FindRoom(s, name).value;
      var ka :| 0 <= ka < |s.rooms| && s.rooms[ka] == a && Some(a.name) == name
        && forall i :: 0 <= i < ka ==> Some(s.rooms[i].name) != name;
      assert Some(t.rooms[ka].name) == name;
      var b := FindRoom(t, name).value;
      var kb :| 0 <= kb < |t.rooms| && t.rooms[kb] == b && Some(b.name) == name
        && forall i :: 0 <= i < kb ==> Some(t.rooms[i].name) != name;
      assert Some(s.rooms[kb].name) == name;
      assert ka == kb;
    }
  }

  /** Room lookups read the rooms only. */
  lemma FindRoomSameRooms(s: State, t: State, name: Option<Name>)
    requires s.rooms == t.rooms
    ensures FindRoom(s, name) == FindRoom(t, name)
  {
  }

  /** Name lookups find a record in one state exactly when they do in the other, with the same id. */
  lemma FindPlayerSameRoster(s: State, t: State, name: Option<Name>)
    requires SamePlayers(s, t)
    ensures FindPlayer(s, name).Some? <==> FindPlayer(t, name).Some?
    ensures FindPlayer(s, name).Some? ==> FindPlayer(s, name).value.id == FindPlayer(t, name).value.id
  {
    if FindPlayer(s, name).Some? {
      var a := FindPlayer(s, name).value;
      var ka :| 0 <= ka < |s.players| && s.players[ka] == a && a.name == name
        && forall i :: 0 <= i < ka ==> s.players[i].name != name;
      assert t.players[ka].name == name;
      var b := FindPlayer(t, name).value;
      var kb :| 0 <= kb < |t.players| && t.players[kb] == b && b.name == name
        && forall i :: 0 <= i < kb ==> t.players[i].name != name;
      assert s.players[kb].name == name;
      assert ka == kb;
    }
  }

  /** Id lookups find a record in one state exactly when they do in the other, with the same name. */
  lemma FindPlayerByIdSameRoster(s: State, t: State, id: Id)
    requires SamePlayers(s, t)
    ensures FindPlayerById(s, id).Some? <==> FindPlayerById(t, id).Some?
    ensures FindPlayerById(s, id).Some? ==> FindPlayerById(s, id).value.name == FindPlayerById(t, id).value.name
  {
    if FindPlayerById(s, id).Some? {
      var a := FindPlayerById(s, id).value;
      var ka :| 0 <= ka < |s.players| && s.players[ka] == a && a.id == id
        && forall i :: 0 <= i < ka ==> s.players[i].id != id;
      assert t.players[ka].id == id;
      var b := FindPlayerById(t, id).value;
      var kb :| 0 <= kb < |t.players| && t.players[kb] == b && b.id == id
        && forall i :: 0 <= i < kb ==> t.players[i].id != id;
      assert s.players[kb].id == id;
      assert ka == kb;
    }
  }

  /** `player.room()` reads only ids, names and rooms. */
  lemma PlayerRoomSameRoster(s: State, t: State, id: Id)
    requires SameRoster(s, t)
    ensures PlayerRoom(s, id) == PlayerRoom(t, id)
  {
    FindPlayerByIdSameRoster(s, t, id);
  }

  /** The names of a room's players read only names and seats. */
  lemma RoomNamesSameSeating(s: State, t: State, room: Name)
    requires SameSeating(s, t)
    ensures RoomNames(s, room) == RoomNames(t, room)
    ensures |PlayersInRoom(s, Some(room))| == |PlayersInRoom(t, Some(room))|
  {
    FindRoomSameSeating(s, t, Some(room));
    match FindRoom(s, Some(room))
    case None =>
    case Some(r) =>
      NamesOfPlayersOf(s, r.players);
      NamesOfPlayersOf(t, r.players);
      forall n ensures FindPlayer(s, Some(n)).Some? == FindPlayer(t, Some(n)).Some? {
        FindPlayerSameRoster(s, t, Some(n));
      }
      FilterCongruent(r.players, Recorded(s), Recorded(t));
  }

  /** `getPlayerOnLeftName` reads only ids, names and rooms. */
  lemma PlayerOnLeftNameSameRoster(s: State, t: State, name: Option<Name>)
    requires SameRoster(s, t)
    ensures PlayerOnLeftName(s, name) == PlayerOnLeftName(t, name)
  {
    FindPlayerSameRoster(s, t, name);
    match FindPlayer(s, name)
    case None =>
    case Some(p) =>
      var q := FindPlayer(t, name).value;
      PlayerRoomSameRoster(s, t, p.id);
      var room := PlayerRoom(s, p.id);
      assert PlayerRoom(t, q.id) == room;
      match room
      case None =>
        assert PlayerOnLeftName(s, name) == Throws;
        assert PlayerOnLeftName(t, name) == Throws;
      case Some(r) =>
        LeftNameFound(s, name, p, r);
        LeftNameFound(t, name, q, r);
  }

  /** `getGameStartingPlayer` reads only ids, names and rooms. */
  lemma GameStartingPlayerSameRoster(s: State, t: State, roomName: Name, pick: nat, newRoom: bool)
    requires SameRoster(s, t)
    ensures GameStartingPlayer(s, roomName, pick, newRoom) == GameStartingPlayer(t, roomName, pick, newRoom)
  {
    RoomNamesSameSeating(s, t, roomName);
    var ps := PlayersInRoom(s, Some(roomName));
    var pt := PlayersInRoom(t, Some(roomName));
    if |ps| > 0 {
      var k := pick % |ps|;
      assert RoomNames(s, roomName)[k] == RoomNames(t, roomName)[k];
      assert ps[k].name.Some? && pt[k].name.Some?;
      assert RandomPlayer(s, roomName, pick) == RandomPlayer(t, roomName, pick);
    }
    match FindRoom(s, Some(roomName))
    case None =>
    case Some(room) => PlayerOnLeftNameSameRoster(s, t, room.gameStartingPlayer);
  }
}

=== FILE: store.dfy ===
/**
 * The store's reducer: the rooms, players and games reducers combined, each
 * seeing the whole state before the message, and dispatching a sequence of
 * messages one after another.
 */
module Store {
  import opened Wrappers
  import opened Seqs
  import opened Cards
  import opened Entities
  import opened StateMessages
  import opened PlayersReducer
  import opened RoomsReducer
  import opened GamesReducer

  /** One dispatch: every slice reduced from the same state before the message. */
  function Apply(s: State, m: StateMessage): (r: State)
    ensures r.players == ReducePlayers(s.players, m)
    ensures r.rooms == ReduceRooms(s, m)
    ensures r.games == ReduceGames(s, m)
  {
    State(ReduceRooms(s, m), ReducePlayers(s.players, m), ReduceGames(s, m))
  }

  /** Dispatching messages in order. */
  function ApplyAll(s: State, ms: seq<StateMessage>): State
    decreases |ms|
  {
    if |ms| == 0 then s else ApplyAll(Apply(s, ms[0]), ms[1..])
  }

  /** A message no reducer handles leaves the whole state as it was. */
  lemma UnhandledChangesNothing(s: State)
    ensures Apply(s, Unhandled) == s
  {
  }

  /** Dispatching `a` then `b` is dispatching `a + b`. */
  lemma {:induction false} ApplyAllAppend(s: State, a: seq<StateMessage>, b: seq<StateMessage>)
    ensures ApplyAll(s, a + b) == ApplyAll(ApplyAll(s, a), b)
    decreases |a|
  {
    if |a| == 0 {
      assert a + b == b;
    } else {
      assert (a + b)[1..] == a[1..] + b;
      ApplyAllAppend(Apply(s, a[0]), a[1..], b);
    }
  }

  /** The four optional-boolean player flags the `STATE_SET_PLAYER_*` messages set. */
  datatype Flag = WaitForMe | ShouldPassHandOver | PassedHandOver | WantsNewGame

  /** The message that sets `flag` of the named player. */
  function FlagMessage(flag: Flag, name: Name, value: bool): (m: StateMessage)
    ensures IsMapCase(m) && !IsRoomMapCase(m) && !IsGameMapCase(m)
    ensures !m.AddRoom? && !m.RemoveRoom? && !m.CreateGame? && !m.RemoveGame?
  {
    match flag
    case WaitForMe => SetPlayerWaitForMe(name, value)
    case ShouldPassHandOver => SetPlayerShouldPassHandOver(name, value)
    case PassedHandOver => SetPlayerPassedHandOver(name, value)
    case WantsNewGame => SetPlayerWantsNewGame(name, value)
  }

  /** A player's `flag`. */
  function FlagOf(flag: Flag, p: Player): Option<bool> {
    match flag
    case WaitForMe => p.waitForMe
    case ShouldPassHandOver => p.shouldPassHandOver
    case PassedHandOver => p.didPassedHandOver
    case WantsNewGame => p.wantsNewGame
  }

  /** `p` with `flag` set to `value`. */
  function WithFlag(flag: Flag, p: Player, value: bool): (r: Player)
    ensures FlagOf(flag, r) == Some(value)
    ensures forall other :: other != flag ==> FlagOf(other, r) == FlagOf(other, p)
    ensures r.id == p.id && r.name == p.name && r.isBot == p.isBot
    ensures r.hand == p.hand && r.handOver == p.handOver && r.grills == p.grills && r.pile == p.pile
  {
    match flag
    case WaitForMe => p.(waitForMe := Some(value))
    case ShouldPassHandOver => p.(shouldPassHandOver := Some(value))
    case PassedHandOver => p.(didPassedHandOver := Some(value))
    case WantsNewGame => p.(wantsNewGame := Some(value))
  }

  /**
   * What a handler does to one named player with one or more dispatches:
   * set a flag; empty the player's cards (`STATE_REMOVE_PLAYER_CARDS`); or
   * ask for the hand-over (wait for the player, who should pass).
   */
  datatype PlayerAction =
    | SetFlag(flag: Flag, value: bool)
    | ClearCards
    | AskForHandOver

  /** The messages dispatched, in order, for one player. */
  function ActionMessages(a: PlayerAction, name: Name): seq<StateMessage> {
    match a
    case SetFlag(flag, value) => [FlagMessage(flag, name, value)]
    case ClearCards => [RemovePlayerCards(name)]
    case AskForHandOver => [SetPlayerWaitForMe(name, true), SetPlayerShouldPassHandOver(name, true)]
  }

  /** The player a targeted record becomes. */
  function Act(a: PlayerAction, p: Player): (r: Player)
    ensures r.id == p.id && r.name == p.name && r.isBot == p.isBot
  {
    match a
    case SetFlag(flag, value) => WithFlag(flag, p, value)
    case ClearCards => p.(hand := [], handOver := [], grills := [], pile := [])
    case AskForHandOver => p.(waitForMe := Some(true), shouldPassHandOver := Some(true))
  }

  /** A message that rewrites exactly the records carrying `name`. */
  predicate NamedMessage(m: StateMessage, name: Name) {
    (m.CardsToHand? || m.RemovePlayerCards? || m.SetPlayerWaitForMe? || m.SetPlayerShouldPassHandOver?
      || m.SetPlayerPassedHandOver? || m.SetPlayerWantsNewGame?) && m.player == name
  }

  /** A record after the messages `ms`, each applied as the players reducer would. */
  function UpdateAll(ms: seq<StateMessage>, p: Player): Player
    decreases |ms|
  {
    if |ms| == 0 then p else UpdateAll(ms[1..], UpdatePlayer(ms[0], p))
  }

  /** Dispatching messages that each name one player rewrites that player's records only. */
  lemma {:induction false} ApplyNamedAll(s: State, ms: seq<StateMessage>, name: Name)
    requires forall k :: 0 <= k < |ms| ==> NamedMessage(ms[k], name)
    ensures var r := ApplyAll(s, ms);
      r.rooms == s.rooms && r.games == s.games && |r.players| == |s.players|
      && forall i :: 0 <= i < |s.players| ==>
        r.players[i] == (if s.players[i].name == Some(name) then UpdateAll(ms, s.players[i]) else s.players[i])
    decreases |ms|
  {
    if |ms| > 0 {
      var m := ms[0];
      assert NamedMessage(m, name);
      var s1 := Apply(s, m);
      assert s1.rooms == s.rooms && s1.games == s.games;
      forall i | 0 <= i < |s.players|
        ensures s1.players[i] == UpdatePlayer(m, s.players[i])
        ensures s1.players[i].name == s.players[i].name
        ensures s.players[i].name != Some(name) ==> s1.players[i] == s.players[i]
      {
      }
      assert forall k :: 0 <= k < |ms[1..]| ==> NamedMessage(ms[1..][k], name) by {
        forall k | 0 <= k < |ms[1..]| ensures NamedMessage(ms[1..][k], name) {
          assert ms[1..][k] == ms[k + 1];
        }
      }
      ApplyNamedAll(s1, ms[1..], name);
    }
  }

  /**
   * Dispatching one action's messages for `name` turns every record with
   * that name into `Act(a, _)` and leaves everything else alone.
   */
  lemma ActOnName(s: State, a: PlayerAction, name: Name)
    ensures var r := ApplyAll(s, ActionMessages(a, name));
      r.rooms == s.rooms && r.games == s.games && |r.players| == |s.players|
      && forall i :: 0 <= i < |s.players| ==>
        r.players[i] == (if s.players[i].name == Some(name) then Act(a, s.players[i]) else s.players[i])
  {
    var ms := ActionMessages(a, name);
    ApplyNamedAll(s, ms, name);
    forall i | 0 <= i < |s.players| && s.players[i].name == Some(name)
      ensures UpdateAll(ms, s.players[i]) == Act(a, s.players[i])
    {
      ActionUpdates(a, name, s.players[i]);
    }
  }

  /** One flag message sets that flag on exactly the records carrying the name. */
  lemma FlagOnName(s: State, flag: Flag, name: Name, value: bool)
    ensures var r := Apply(s, FlagMessage(flag, name, value));
      r.rooms == s.rooms && r.games == s.games && |r.players| == |s.players|
      && forall i :: 0 <= i < |s.players| ==>
        r.players[i] == (if s.players[i].name == Some(name) then WithFlag(flag, s.players[i], value) else s.players[i])
  {
    var ms := ActionMessages(SetFlag(flag, value), name);
    ActOnName(s, SetFlag(flag, value), name);
    assert ApplyAll(s, ms) == ApplyAll(Apply(s, ms[0]), []);
  }

  /** On a record carrying `name`, the action's messages compose to `Act`. */
  lemma ActionUpdates(a: PlayerAction, name: Name, p: Player)
    requires p.name == Some(name)
    ensures UpdateAll(ActionMessages(a, name), p) == Act(a, p)
  {
    var ms := ActionMessages(a, name);
    match a
    case SetFlag(flag, value) =>
      assert UpdateAll(ms, p) == UpdateAll([], UpdatePlayer(ms[0], p));
      FlagUpdate(flag, name, value, p);
    case ClearCards =>
      assert UpdateAll(ms, p) == UpdateAll([], UpdatePlayer(ms[0], p));
    case AskForHandOver =>
      UpdateTwo(ms, p);
  }

  /** A flag message sets that flag on a record carrying the name. */
  lemma FlagUpdate(flag: Flag, name: Name, value: bool, p: Player)
    requires p.name == Some(name)
    ensures UpdatePlayer(FlagMessage(flag, name, value), p) == WithFlag(flag, p, value)
  {
    match flag
    case WaitForMe =>
    case ShouldPassHandOver =>
    case PassedHandOver =>
    case WantsNewGame =>
  }

  /** Two messages compose one after the other. */
  lemma UpdateTwo(ms: seq<StateMessage>, p: Player)
    requires |ms| == 2
    ensures UpdateAll(ms, p) == UpdatePlayer(ms[1], UpdatePlayer(ms[0], p))
  {
    var p1 := UpdatePlayer(ms[0], p);
    assert UpdateAll(ms, p) == UpdateAll(ms[1..], p1);
    assert ms[1..][0] == ms[1] && ms[1..][1..] == [];
    assert UpdateAll(ms[1..], p1) == UpdateAll([], UpdatePlayer(ms[1], p1));
  }

  /** Doing an action for every name in `names`, one name after another. */
  function ForEach(s: State, a: PlayerAction, names: seq<Name>): State
    decreases |names|
  {
    if |names| == 0 then s else ForEach(ApplyAll(s, ActionMessages(a, names[0])), a, names[1..])
  }

  /** Doing an action twice to a record is doing it once. */
  lemma ActIdempotent(a: PlayerAction, p: Player)
    ensures Act(a, Act(a, p)) == Act(a, p)
  {
  }

  /**
   * Doing an action for a list of names does it to exactly the records
   * carrying one of those names, changes nothing else about any record,
   * and leaves rooms and games alone.
   */
  lemma {:induction false} ForEachEffect(s: State, a: PlayerAction, names: seq<Name>)
    ensures var r := ForEach(s, a, names);
      r.rooms == s.rooms && r.games == s.games && |r.players| == |s.players|
      && forall i :: 0 <= i < |s.players| ==>
        r.players[i] == (if s.players[i].name.Some? && s.players[i].name.value in names
          then Act(a, s.players[i]) else s.players[i])
    decreases |names|
  {
    if |names| > 0 {
      var s1 := ApplyAll(s, ActionMessages(a, names[0]));
      ActOnName(s, a, names[0]);
      ForEachEffect(s1, a, names[1..]);
      forall i | 0 <= i < |s.players|
        ensures ForEach(s, a, names).players[i]
          == (if s.players[i].name.Some? && s.players[i].name.value in names then Act(a, s.players[i]) else s.players[i])
      {
        var p := s.players[i];
        if p.name.Some? && p.name.value in names {
          if p.name == Some(names[0]) {
            ActIdempotent(a, p);
          } else {
            assert p.name.value in names[1..];
          }
        }
      }
    }
  }
}

=== FILE: validators.dfy ===
/**
 * The move validators, phase gates and bot decision table of the game
 * logic. A player's `game()` closure is passed in as the `game` argument,
 * which is what the closure returns at the time of the call.
 */
module Validators {
  import opened Wrappers
  import opened Seqs
  import opened ArrayPolyfill
  import opened Cards
  import opened Entities
  import CM = ClientMessages
  import SV = ServerMessages

  // ---------------------------------------------------------------------
  // Seats

  /** `normalizePlayerIndex`: folds a seat index one lap back into the table. */
  function NormalizePlayerIndex(i: int): (r: int)
    ensures 0 <= i < 8 ==> 0 <= r < 4
    ensures i >= 4 ==> r + 4 == i
  {
    if i >= 4 then i - 4 else i
  }

  /**
   * Within one lap the fold is reduction modulo 4 and fixes seats 0..3;
   * the seat after seat 3 is seat 0. Beyond one lap it is not: 8 goes to 4.
   */
  lemma NormalizeIsOneLap(i: int)
    ensures 0 <= i < 4 ==> NormalizePlayerIndex(i) == i
    ensures 0 <= i < 8 ==> NormalizePlayerIndex(i) == i % 4
    ensures 0 <= i < 4 ==> NormalizePlayerIndex(i + 1) == (i + 1) % 4
    ensures NormalizePlayerIndex(8) == 4
  {
  }

  // ---------------------------------------------------------------------
  // Moves

  /** The hand cards that occur in `cards` (index.ts writes `hand.filter(cardIsIn(cards))`). */
  function Matching(hand: seq<Card>, cards: seq<Card>): (r: seq<Card>)
    ensures forall c :: c in r <==> c in hand && c in cards
    ensures |r| <= |hand|
  {
    var r := Filter(hand, (c: Card) => c in cards);
    assert forall c :: c in r <==> c in hand && c in cards by {
      forall c ensures c in r <==> c in hand && c in cards {
        assert c in r <==> c in multiset(r);
        assert c in hand <==> c in multiset(hand);
      }
    }
    r
  }

  /** `handOverIsValid`: three cards, a full hand of eight, and three hand cards among them. */
  function HandOverIsValid(handOver: seq<Card>, player: Player): (ok: bool)
    ensures ok ==> |handOver| == 3 && |player.hand| == 8
    ensures ok ==> exists c :: c in handOver && c in player.hand
  {
    var matching := Matching(player.hand, handOver);
    var ok := |matching| == 3 && |handOver| == 3 && |player.hand| == 8;
    if ok then assert matching[0] in matching; ok else ok
  }

  /** A sub-multiset with as many elements as the whole is the whole. */
  lemma SubMultisetOfSameSize<T>(a: multiset<T>, b: multiset<T>)
    requires a <= b && |a| == |b|
    ensures a == b
  {
    assert b == a + (b - a);
  }

  /**
   * For a duplicate-free hand, `matching` has exactly `|cards|` elements iff
   * `cards` are distinct cards of the hand.
   */
  lemma MatchingCount(hand: seq<Card>, cards: seq<Card>)
    requires NoDup(hand)
    ensures |Matching(hand, cards)| == |cards| <==>
      NoDup(cards) && forall c :: c in cards ==> c in hand
    ensures |Matching(hand, cards)| == |cards| ==> multiset(Matching(hand, cards)) == multiset(cards)
  {
    var m := Matching(hand, cards);
    var p := (c: Card) => c in cards;
    assert m == Filter(hand, p);
    FilterNoDup(hand, p);
    NoDupMultiplicity(hand);
    NoDupMultiplicity(m);
    NoDupMultiplicity(cards);
    if |m| == |cards| {
      assert multiset(m) <= multiset(cards) by {
        forall x ensures multiset(m)[x] <= multiset(cards)[x] {
          if x in m { assert x in cards; }
        }
      }
      SubMultisetOfSameSize(multiset(m), multiset(cards));
      assert forall c :: c in cards ==> c in hand by {
        forall c | c in cards ensures c in hand {
          assert c in multiset(cards);
          assert c in multiset(m);
        }
      }
    }
    if NoDup(cards) && forall c :: c in cards ==> c in hand {
      assert multiset(m) == multiset(cards) by {
        forall x ensures multiset(m)[x] == multiset(cards)[x] {
          if x in cards {
            assert x in hand;
            assert multiset(hand)[x] == 1;
          } else {
            assert x !in multiset(cards);
          }
        }
      }
      assert |multiset(m)| == |multiset(cards)|;
    }
  }

  /** With a duplicate-free hand: a valid hand-over is three distinct cards of a full hand of eight. */
  lemma HandOverValidMeans(handOver: seq<Card>, player: Player)
    requires NoDup(player.hand)
    ensures HandOverIsValid(handOver, player) <==>
      |player.hand| == 8 && |handOver| == 3 && NoDup(handOver)
      && forall c :: c in handOver ==> c in player.hand
  {
    MatchingCount(player.hand, handOver);
  }

  /** The black-cat grill: exactly the Spades Queen, held once. */
  predicate IsBlackCatGrill(grill: seq<Card>, hand: seq<Card>) {
    |Matching(hand, grill)| == 1 && |grill| == 1 && BlackCat in grill
  }

  /** The hearts grill: three cards, three hand cards among them, all of them Hearts. */
  predicate IsHeartsGrill(grill: seq<Card>, hand: seq<Card>) {
    var matching := Matching(hand, grill);
    |matching| == 3 && |grill| == 3 && |CardsOfSuit(matching, Hearts)| == 3
  }

  /**
   * `grillIsValid`: only before the first trick (round 0), after the
   * hand-over has been passed and while the deal is awaited, and only the
   * black cat alone or three Hearts.
   */
  function GrillIsValid(grill: seq<Card>, player: Player, game: Option<Game>): (ok: bool)
    ensures ok ==> game.Some? && game.value.round == 0
    ensures ok ==> !Truthy(player.shouldPassHandOver) && Truthy(player.waitForMe)
    ensures ok ==> |grill| == 1 || |grill| == 3
  {
    game.Some?
    && game.value.round == 0
    && !Truthy(player.shouldPassHandOver)
    && Truthy(player.waitForMe)
    && (IsBlackCatGrill(grill, player.hand) || IsHeartsGrill(grill, player.hand))
  }

  /** Every card of `cards` is of `suit` iff filtering by that suit loses nothing. */
  lemma AllOfSuit(cards: seq<Card>, suit: Suit)
    ensures |CardsOfSuit(cards, suit)| == |cards| <==> forall c :: c in cards ==> c.suit == suit
  {
    var f := CardsOfSuit(cards, suit);
    assert f == Filter(cards, (c: Card) => OfSuit(suit, c));
    assert multiset(f) <= multiset(cards);
    if |f| == |cards| {
      SubMultisetOfSameSize(multiset(f), multiset(cards));
      assert forall c :: c in cards ==> c.suit == suit by {
        forall c | c in cards ensures c.suit == suit {
          assert c in multiset(cards);
          assert c in multiset(f);
        }
      }
    }
    if forall c :: c in cards ==> c.suit == suit {
      assert multiset(f) == multiset(cards) by {
        forall x ensures multiset(f)[x] == multiset(cards)[x] {
          if x in multiset(cards) { assert x in cards; }
        }
      }
      assert |multiset(f)| == |multiset(cards)|;
    }
  }

  /** With a duplicate-free hand the black-cat grill is the held black cat alone. */
  lemma BlackCatGrillMeans(grill: seq<Card>, hand: seq<Card>)
    requires NoDup(hand)
    ensures IsBlackCatGrill(grill, hand) <==> grill == [BlackCat] && BlackCat in hand
  {
    MatchingCount(hand, grill);
    if |grill| == 1 {
      assert grill == [grill[0]];
      assert NoDup(grill);
    }
  }

  /** With a duplicate-free hand the hearts grill is three distinct held Hearts. */
  lemma HeartsGrillMeans(grill: seq<Card>, hand: seq<Card>)
    requires NoDup(hand)
    ensures IsHeartsGrill(grill, hand) <==>
      |grill| == 3 && NoDup(grill) && forall c :: c in grill ==> c in hand && c.suit == Hearts
  {
    var m := Matching(hand, grill);
    MatchingCount(hand, grill);
    AllOfSuit(m, Hearts);
  }

  /** With a duplicate-free hand the grill alternatives are: the held black cat alone, or three distinct held Hearts. */
  lemma GrillValidMeans(grill: seq<Card>, player: Player, game: Option<Game>)
    requires NoDup(player.hand)
    ensures GrillIsValid(grill, player, game) <==>
      game.Some? && game.value.round == 0
      && !Truthy(player.shouldPassHandOver) && Truthy(player.waitForMe)
      && ((grill == [BlackCat] && BlackCat in player.hand)
        || (|grill| == 3 && NoDup(grill)
          && forall c :: c in grill ==> c in player.hand && c.suit == Hearts))
  {
    BlackCatGrillMeans(grill, player.hand);
    HeartsGrillMeans(grill, player.hand);
  }

  /**
   * `playedCardIsValid`: a game, the player on turn, a card the player
   * holds in hand or among the grills, and suit followed unless the player
   * is void in the lead suit.
   */
  function PlayedCardIsValid(card: Card, player: Player, game: Option<Game>): (ok: bool)
    ensures ok ==> game.Some? && game.value.playerOnTurn == player.name
    ensures ok ==> card in player.hand + player.grills
    ensures ok && |game.value.table| > 0 && card.suit != game.value.table[0].suit ==>
      NoneOfSuit(player.hand + player.grills, game.value.table[0].suit)
    ensures (game.Some? && game.value.playerOnTurn == player.name && card in player.hand + player.grills
      && (|game.value.table| == 0 || card.suit == game.value.table[0].suit
        || NoneOfSuit(player.hand + player.grills, game.value.table[0].suit))) ==> ok
  {
    game.Some?
    && game.value.playerOnTurn == player.name
    && (card in player.hand || card in player.grills)
    && (var table := game.value.table;
        |table| == 0 || card.suit == table[0].suit
        || |CardsOfSuit(player.hand + player.grills, table[0].suit)| == 0)
  }

  /** The bot's choice is always a legal play for the player on turn. */
  lemma BestCardIsPlayable(player: Player, game: Game)
    requires game.playerOnTurn == player.name
    requires BestCardToPlay(player.hand, player.grills, game.table).Plays?
    ensures PlayedCardIsValid(BestCardToPlay(player.hand, player.grills, game.table).card, player, Some(game))
  {
  }

  // ---------------------------------------------------------------------
  // Phase gates

  /** `playerCanHaveDealtDeck`: in a game, waiting, eight cards dealt and no hand-over pending. */
  predicate PlayerCanHaveDealtDeck(player: Player, game: Option<Game>) {
    game.Some? && player.waitForMe == Some(true) && |player.hand| == 8 && |player.handOver| == 0
  }

  /** `playerCanBeReady`: in a game, hand-over passed, eight cards between hand and grills, none pending. */
  predicate PlayerCanBeReady(player: Player, game: Option<Game>) {
    game.Some? && player.didPassedHandOver == Some(true)
    && |player.hand + player.grills| == 8 && |player.handOver| == 0
  }

  predicate PlayerHasHandOver(player: Player) { |player.handOver| == 3 }

  predicate PlayerHasExactSpaceForHandOver(player: Player) { |player.hand| == 5 }

  /** `playerCanTakeHandOver`: three cards waiting and exactly room for them. */
  predicate PlayerCanTakeHandOver(player: Player) {
    PlayerHasHandOver(player) && PlayerHasExactSpaceForHandOver(player)
  }

  predicate TableIsFull(game: Game) { |game.table| == 4 }

  predicate IsLastRound(round: int) { round == 8 }

  /**
   * The gates pick out disjoint phases of a player's deal: waiting for the
   * deal, holding a hand-over to take, and ready to play.
   */
  lemma PhaseGatesDisjoint(player: Player, game: Option<Game>)
    ensures PlayerCanHaveDealtDeck(player, game) ==> !PlayerCanTakeHandOver(player)
    ensures PlayerCanTakeHandOver(player) ==> !PlayerCanBeReady(player, game)
    ensures PlayerCanTakeHandOver(player) ==> |player.hand| + |player.handOver| == 8
  {
  }

  // ---------------------------------------------------------------------
  // The bot's decision table

  /** A prefix's cards are among the whole list's cards. */
  lemma PrefixSubMultiset<T>(s: seq<T>, k: nat)
    requires k <= |s|
    ensures multiset(s[..k]) <= multiset(s)
  {
    assert s == s[..k] + s[k..];
  }

  /** The three greatest cards of the hand (fewer if the hand is shorter), greatest first. */
  ghost predicate Descending(s: seq<Card>) {
    forall i, j :: 0 <= i < j < |s| ==> ValueKey(s[j]) <= ValueKey(s[i])
  }

  function TakeGreatest(sorted: seq<Card>, k: nat): (r: seq<Card>)
    requires k <= |sorted| && Descending(sorted)
    ensures |r| == k && multiset(r) <= multiset(sorted) && Descending(r)
  {
    PrefixSubMultiset(sorted, k);
    sorted[..k]
  }

  function BotHandOver(hand: seq<Card>): (r: seq<Card>)
    ensures |r| == if |hand| < 3 then |hand| else 3
    ensures multiset(r) <= multiset(hand)
    ensures Descending(r)
  {
    var sorted := SortByGreatestValue(hand);
    TakeGreatest(sorted, if |hand| < 3 then |hand| else 3)
  }

  /**
   * `getBotResponse` without its delays: the client messages a bot answers
   * a server message with, `None` for no answer. `bot` is the bot's record
   * and `game` its game, both read when the answer is formed. When
   * `bestCardToPlay` throws, the answer's promise is rejected and the bot
   * sends nothing.
   */
  function BotResponse(message: SV.ServerMessage, bot: Option<Player>, game: Option<Game>): (r: Option<seq<CM.ClientMessage>>)
    ensures r.Some? ==> bot.Some? && 1 <= |r.value| <= 2
    ensures r.Some? <==> (bot.Some? &&
      (message.GameEnded? || message.DealDeck? || message.DoPassHandOver? || message.DoTakeHandOver?
        || (message.NextTurn? && message.playerOnTurn == bot.value.name && game.Some?
            && !BestCardToPlay(bot.value.hand, bot.value.grills, game.value.table).Crashes?)))
  {
    match bot
    case None => None
    case Some(player) =>
      match message
      case GameEnded => Some([CM.IWantNewGame])
      case NextTurn(playerOnTurn) =>
        if playerOnTurn == player.name && game.Some? then
          match BestCardToPlay(player.hand, player.grills, game.value.table)
          case Crashes => None
          case choice => Some([CM.PlayCard(choice.AsOption())])
        else None
      case DealDeck(_) => Some([CM.DeckDealt])
      case DoPassHandOver => Some([CM.PlayHandOver(BotHandOver(player.hand))])
      case DoTakeHandOver(_) => Some([CM.TakeHandOver, CM.IAmReady])
      case _ => None
  }

  /** Asked to pass the hand-over, a bot answers with its three greatest cards. */
  lemma BotAnswersHandOverRequest(bot: Player, game: Option<Game>)
    ensures var r := BotResponse(SV.DoPassHandOver, Some(bot), game);
      r.Some? && |r.value| == 1 && r.value[0] == CM.PlayHandOver(BotHandOver(bot.hand))
  {
  }

  /**
   * A bot answers the end of a game by asking for another, a dealt deck by
   * acknowledging it, and a hand-over to take by taking it and declaring
   * itself ready, in that order.
   */
  lemma BotAnswersRoutineRequests(bot: Player, game: Option<Game>, message: SV.ServerMessage)
    requires message.GameEnded? || message.DealDeck? || message.DoTakeHandOver?
    ensures var r := BotResponse(message, Some(bot), game);
      r.Some?
      && (message.GameEnded? ==> |r.value| == 1 && r.value[0] == CM.IWantNewGame)
      && (message.DealDeck? ==> |r.value| == 1 && r.value[0] == CM.DeckDealt)
      && (message.DoTakeHandOver? ==> |r.value| == 2 && r.value[0] == CM.TakeHandOver && r.value[1] == CM.IAmReady)
  {
  }

  /** A bot holding eight distinct cards always passes a valid hand-over: its three greatest. */
  lemma BotHandOverIsValid(bot: Player)
    requires NoDup(bot.hand) && |bot.hand| == 8
    ensures HandOverIsValid(BotHandOver(bot.hand), bot)
  {
    var r := BotHandOver(bot.hand);
    NoDupMultiplicity(bot.hand);
    assert forall x :: multiset(r)[x] <= 1 by {
      forall x ensures multiset(r)[x] <= 1 {
        assert multiset(r)[x] <= multiset(bot.hand)[x];
      }
    }
    NoDupMultiplicity(r);
    assert forall c :: c in r ==> c in bot.hand by {
      forall c | c in r ensures c in bot.hand {
        assert c in multiset(r);
        assert c in multiset(bot.hand);
      }
    }
    HandOverValidMeans(r, bot);
  }

  /**
   * A bot named on turn, in a game, answers with its `bestCardToPlay` choice,
   * and sends nothing exactly when it has no card to lead with.
   */
  lemma BotAnswersTurn(bot: Player, game: Game)
    ensures BotResponse(SV.NextTurn(bot.name), Some(bot), Some(game)).None?
      <==> |game.table| == 0 && |bot.hand + bot.grills| == 0
    ensures BotResponse(SV.NextTurn(bot.name), Some(bot), Some(game)).Some? ==>
      BotResponse(SV.NextTurn(bot.name), Some(bot), Some(game)).value
        == [CM.PlayCard(BestCardToPlay(bot.hand, bot.grills, game.table).AsOption())]
  {
  }
}

=== FILE: wrappers.dfy ===
/** Optional values, standing in for the program's `undefined`. */
module Wrappers {

  /** `None` is the program's `undefined`; `Some(v)` a present value. */
  datatype Option<+T> = None | Some(value: T) {

    /** Returns the value in `Some`, or `default` for `None`. */
    function GetOr(default: T): T {
      match this
      case Some(v) => v
      case None => default
    }
  }
}
